=== FILE: README.md ===
# TvController endpoint resolution, modelled in Dafny

This project models the part of TvController that finds a DLNA/UPnP
renderer's AVTransport control endpoint and keeps what it has learnt about
each device. The code exists in three snapshots, each modelled on its own
terms:

- the current one, under the module path `renderctl`: the probe and cache
  hit of `internal/avtransport/probe.go` and `cache.go`, over the
  endpoint-keyed device cache (`Probe`, `CacheHit`, `DeviceCache`);
- an intermediate one, under `tvctrl`, whose
  `internal/avtransport/discovery_utils.go` works on a flat record per IP
  (`Discovery`);
- the oldest one, also under `tvctrl`, whose `internal/discovery_utils.go`,
  `edit_cache.go` and `script.go` write that flat cache themselves
  (`LegacyDiscovery`, `LegacyCache`, `Script`).

Where a function exists in more than one snapshot with different
behaviour, each version is modelled, and lemmas relate them. Where the
code is wrong (see "## Findings"), the behaviour as written and a corrected
version are both modelled; table rows for the corrected members start
with "corrected". The entry point `Script.RunScript` and the subnet scan
`Scan.ScanSubnet` are built on the behaviour as written.

What is modelled:

- **Device cache.** The current endpoint-keyed merge, primary-endpoint
  selection and forget semantics (`DeviceCache`). The older flat-record merge
  with key-wise action union (`LegacyCache`).
- **Resolution steps.**
  - Cache lookup (`CacheHit`).
  - SSDP discovery and config override (`Discovery`, `LegacyDiscovery`).
  - The port × path probe matrix under an attempt budget (`Probe`).
  - SOAP presence classification and envelopes (`Soap`).
  - Capability enrichment: SCPD actions, validated actions and
    `GetProtocolInfo` Sink parsing (`Scpd`, `Enrich`, `MediaProtocols`).
  - CIDR expansion and subnet scanning (`Scan`, with `Bits32` for 32-bit
    masks).
  - SSDP header parsing, the M-SEARCH datagram and the discovery loop (`Ssdp`).
- **Orchestration.** The script that runs them in order: SSDP, then the
  cache, then the probe (`Script`).
- **Around the engine.**
  - URL builders (`Utils`, `LegacyUtils`).
  - Stream-kind classification, container registry and MIME negotiation
    (`Stream`, `LegacyStream`).
  - Vendor metadata (`Metadata`).
  - The command-line flag check (`Flags`).
  - The interactive form: fields, enabling rules, navigation and edit
    commits (`UiFields`, `UiKeys`), and column clipping (`UiDraw`).

The network, the clock, user prompts and file checks are not modelled as
effects. Each becomes a parameter:

- A probe oracle from URL to bool.
- The renderer's services during enrichment (`Discovery.Services`): its
  decoded service description, its decoded Sink, and the HTTP transport the
  SOAP action probes use.
- `Result` values for a fetch or a decode.
- A `confirmed` answer for a prompt.
- A natural-number timestamp, and an attempt budget for the probe deadline.
- A validator from path to an optional error.

Go's nil and error returns become `Option` and `Result` (`Wrappers`). Go
maps become Dafny maps. Where Go iterates a map, the model either
enumerates the keys in sorted order (`StringOrder.SortedKeys`) or proves
that the result does not depend on the order of enumeration. Strings are
sequences of characters, except in `clipText` and the cache listing's
`col`: Go measures and cuts that text in bytes, so the model does too. `Text` holds the string functions the code
calls: trimming, ASCII case mapping, splitting and joining, `strconv.Atoi`
and `%d`.

## Model

| member | source | states |
|---|---|---|
| `DeviceCache.TouchEndpoint` | internal/cache/edit_cache.go:67-88 | the endpoint record after an observation keeps its control URL, is re-stamped with the current time, and takes the connection-manager URL only when the observation's is non-empty and the action and media maps only when the observation carries them |
| `DeviceCache.MergeDevice` | internal/cache/edit_cache.go:48-88 | a known non-empty vendor survives, an unknown or empty one takes the observation's; identity is replaced whenever the observation has one; the endpoint map gains exactly the observed control URL (nothing for an empty URL) and every other endpoint is untouched |
| `DeviceCache.StoreInCache` | internal/cache/edit_cache.go:17-91 | with the cache disabled or a cached target selected the store is unchanged; otherwise the store's IPs become the old ones plus the target IP, and every other IP's record is unchanged |
| `DeviceCache.StoreInCacheNewDevice` | internal/cache/edit_cache.go:48-56 | an IP seen for the first time gets the observation's vendor and identity and an endpoint map holding only the observed URL, or nothing when that URL is empty |
| `DeviceCache.StoreInCacheTouchedEndpoint` | internal/cache/edit_cache.go:77-88 | on the touched endpoint the time stamp is refreshed, an empty connection-manager URL or a nil actions map in the observation keeps the stored value, and non-nil actions or media replace the stored ones |
| `DeviceCache.StoreInCacheIdempotent` | internal/cache/edit_cache.go:17-91 | storing the same observation twice gives the store that storing it once at the later time gives: the merge is idempotent up to the time stamp |
| `DeviceCache.VendorFirstKnownWins` | internal/cache/edit_cache.go:58-60 | a non-empty stored vendor is never overwritten |
| `DeviceCache.VendorSonyThenLg` | internal/cache/edit_cache.go:58-60 | for a device without a vendor, an observation saying "sony" followed by one saying "lg" leaves "sony" |
| `DeviceCache.StoreInCacheWellKeyed` | internal/cache/edit_cache.go:67-76 | the merge preserves the invariant that every endpoint is stored under its own control URL, so one URL never gets two records |
| `DeviceCache.SortedCache` | internal/cache/edit_cache.go:329-336 | the listing holds every cached IP exactly once, in strictly ascending order |
| `DeviceCache.Playable` | internal/cache/edit_cache.go:127-132 | a URL is playable exactly when its endpoint's action map is non-empty |
| `DeviceCache.PrimaryUrl` | internal/cache/edit_cache.go:127-139 | there is no primary endpoint exactly when no endpoint is playable; otherwise the primary is the least playable URL |
| `DeviceCache.PrimaryIndependentOfOrder` | internal/cache/edit_cache.go:127-133 | whatever order the map iteration yields the playable URLs in, sorting them puts the same least URL first |
| `DeviceCache.SelectFromCache` | internal/cache/edit_cache.go:115-149 | a selection exists exactly when the index is within the ascending IP list and that device has a playable endpoint; it is that IP with the device's vendor and identity and the least playable endpoint's URLs, actions and media |
| `DeviceCache.SelectFromCachePicksLeast` | internal/cache/edit_cache.go:135-148 | in a store whose endpoints sit under their own URLs, the selected control URL is the least playable URL of the chosen device |
| `DeviceCache.PrimarySkipsUnplayable` | internal/cache/edit_cache.go:129 | an endpoint with an empty action map is never primary, even when its URL sorts first |
| `DeviceCache.ForgetCache` | internal/cache/edit_cache.go:405-440 | an empty store, a declined prompt or an unknown IP change nothing; a confirmed "all" empties the store; a confirmed known IP removes exactly that entry and keeps the rest |
| `DeviceCache.ForgetCacheIdempotent` | internal/cache/edit_cache.go:416-439 | forgetting the same target twice is forgetting it once |
| `DeviceCache.OrNA` | internal/cache/edit_cache.go:158-163 | the printed value is never empty and a non-empty value prints as itself |
| `DeviceCache.Col` | internal/cache/edit_cache.go:442-450 | an empty value shows as "n/a"; a value longer than the width in bytes is cut to its first width − 3 bytes, wherever the cut falls, and ends in "..." (exactly the width in bytes); a value that fits is kept and followed by one space for each column its characters leave free |
| `DeviceCache.ColFillsWidth` | internal/cache/edit_cache.go:449 | a value that fits shows in exactly the width, counted in characters, as `%-*s` pads |
| `DeviceCache.ColAscii` | internal/cache/edit_cache.go:442-450 | an ASCII value always takes exactly the width, in bytes and in columns |
| `DeviceCache.ColSplitsCharacter` | internal/cache/edit_cache.go:446-447 | seven "é" (14 bytes) in a 12-wide column keep 9 bytes, ending inside the fifth "é", before "..." |
| `DeviceCache.ColAtBoundary` | internal/cache/edit_cache.go:442-450 | corrected (cut between characters): a value too long is cut at a character boundary at or before width − 3 bytes and ends in "..."; a value that fits is shown as `col` shows it |
| `DeviceCache.ColAtBoundaryAgrees` | internal/cache/edit_cache.go:442-450 | on ASCII values the corrected and the written `col` agree |
| `DeviceCache.ColAtBoundaryKeepsCharacter` | internal/cache/edit_cache.go:446-447 | on seven "é" the corrected `col` keeps four whole characters before "..." |
| `DeviceCache.MediaFilter` | internal/cache/edit_cache.go:307-323 | "show all" gives the wildcard filter, no media list gives no filter, and otherwise the filter holds exactly the non-empty trimmed comma-separated entries |
| `CacheHit.UseCached` | internal/avtransport/cache.go:46-56 | after a hit the target host, port and path are empty, the vendor and both cached URLs are the cached ones, and no other setting changes |
| `CacheHit.TryCache` | internal/avtransport/cache.go:11-59 | the user is asked exactly when a target IP is set, cached, and has an endpoint with a non-empty action map; a hit happens exactly when the user then confirms; a miss leaves the config unchanged; a hit rewrites it from the least such endpoint |
| `CacheHit.TryCacheIndependentOfOrder` | internal/avtransport/cache.go:22-35 | whatever order map iteration yields the playable URLs in, the hit uses the endpoint under the least of them |
| `CacheHit.TryCacheBypassesBuilder` | internal/avtransport/cache.go:46-56 | after a hit the host-and-port URL builder yields "", so playback can only use the cached control URL |
| `CacheHit.TryCacheNeedsActions` | internal/avtransport/cache.go:18-33 | a device whose only endpoint has an empty action map is never offered, whatever the user would answer |
| `Discovery.FlatTryCache` | internal/avtransport/discovery_utils.go:22-55 | the user is asked exactly when a target IP is set and cached; a hit happens exactly when the user confirms; a miss leaves the config unchanged; a hit clears host, port and path and injects the stored vendor and URLs, changing nothing else |
| `Discovery.FlatTryCacheIgnoresActions` | internal/avtransport/discovery_utils.go:27-40 | the flat cache offers a record that knows no action at all, and after the hit the URL builder yields "" |
| `Discovery.Override` | internal/avtransport/discovery_utils.go:75-89 | each of host, port, path, vendor and connection-manager URL is taken from the discovered device exactly when the device reported a non-empty value; nothing else changes |
| `Discovery.OverrideIdempotent` | internal/avtransport/discovery_utils.go:75-89 | applying the same discovery twice changes nothing more, and an all-empty report changes nothing |
| `Discovery.EnrichDevice` | internal/avtransport/discovery_utils.go:91-97 | enrichment of a discovered device fails exactly when its service description cannot be read, with that error; otherwise it knows the declared actions and the seven safe ones, each safe one with the outcome of its probe at the given control URL, and the media map is the parsed Sink, or empty when the ConnectionManager failed |
| `Discovery.TrySsdp` | internal/avtransport/discovery_utils.go:57-131 | success exactly when some device was heard (NOTIFY listeners first, the active search only if they were silent) and the first device's description could be fetched; only that first location is fetched; a failure leaves the config unchanged and stores nothing; a success overrides the config and builds an update with the built control URL and the device's vendor and connection-manager URL, enriched at that control URL |
| `Discovery.TrySsdpUpdate` | internal/avtransport/discovery_utils.go:91-126 | the update carries the identity exactly when the identity lookup succeeded, and actions and media exactly when, in addition, the device's service description could be read; they are then the enrichment's, with the seven safe actions validated at the update's control URL |
| `Discovery.TrySsdpPrefersNotify` | internal/avtransport/discovery_utils.go:59-64 | when listening heard a device, the active search's answer does not matter |
| `Discovery.IdentityFailureDropsCapabilities` | internal/avtransport/discovery_utils.go:91-126 | a failed identity lookup drops actions and media whatever the renderer's services answer, because its error shadows the enrichment error |
| `Discovery.TrySsdpControlUrl` | internal/avtransport/discovery_utils.go:75-108 | when the device reports host, port and an absolute control path, the stored control URL is exactly "http://host:port/path" |
| `Discovery.FlatProbeAvTransport` | internal/avtransport/discovery_utils.go:133-183 | an empty target IP fails with "probe requires -Tip" and a probe error is passed on, both leaving the config alone and storing nothing; a found URL becomes the cached control URL and the update carries it, the configured vendor, and the safe actions validated at that URL |
| `Discovery.FlatProbeAgreesWithProbe` | internal/avtransport/discovery_utils.go:145-173 | this generation builds the same update as the endpoint-keyed one: the found URL, the configured vendor, the identity when fetched, and the actions validated at the found URL |
| `Discovery.FlatProbeValidatesSafeActions` | internal/avtransport/discovery_utils.go:145-173 | a probed update always carries exactly the seven safe actions, each with whether the found endpoint answered its probe; a renderer that answers none still gets all seven, as false, so the "len > 0" test always passes |
| `Probe.PathList` | internal/avtransport/probe.go:66-72 | deep search tries the 16-entry big list and otherwise the 4-entry default list |
| `Probe.BigListRepeatsLgPath` | internal/avtransport/probe.go:28-56 | the big list holds "/upnp/control/AVTransport" twice (in its common and its LG webOS group), so deep search sends that probe twice per port |
| `Probe.CandidateUrlInjective` | internal/avtransport/probe.go:81 | for one IP and ports of equal length, two candidate URLs are equal only when port and path are |
| `Probe.Row` | internal/avtransport/probe.go:76-81 | one port's candidates are that port's URL for every path, in path order |
| `Probe.Candidates` | internal/avtransport/probe.go:75-81 | the matrix has one candidate per port and path, each a full "http://" URL |
| `Probe.CandidateAt` | internal/avtransport/probe.go:75-81 | attempt `i * |paths| + j` (counted from 0) asks for port `i` and path `j`: ports are the outer loop, paths the inner one |
| `Probe.CandidateIndex` | internal/avtransport/probe.go:75-81 | every attempt of the matrix names one (port, path) pair |
| `Probe.ProbeRunMeaning` | internal/avtransport/probe.go:75-92 | the run returns the first accepted candidate among those the deadline lets through, after rejecting every earlier one and sending nothing after it; it times out exactly when the deadline falls inside the matrix with no earlier success; it reports "no AVTransport endpoint found" exactly when every candidate was tried and rejected; it never sends more probes than the matrix holds |
| `Probe.ProbeFromMeaning` | internal/avtransport/probe.go:75-92 | the same characterisation for a run resumed at any attempt after which nothing was accepted |
| `Probe.FirstAcceptedWins` | internal/avtransport/probe.go:83-88 | the first accepted candidate within the deadline is the answer, found on the attempt that follows the rejected ones |
| `Probe.ProbeMatrix` | internal/avtransport/probe.go:75-92 | the nested port and path loops, with the deadline checked before each attempt, return what the reference run over the candidate list returns, with the same number of probes sent |
| `Probe.Matrix` | internal/avtransport/probe.go:66-81 | the candidates for an IP are the five ports times the chosen path list |
| `Probe.ProbeEndpoint` | internal/avtransport/probe.go:66-93 | `probeEndpoint` returns the reference run over the fixed ports and the path list deep search selects |
| `Probe.OnlyAnswerIsFound` | internal/avtransport/probe.go:75-88 | when only the candidate for port `i` and path `j` answers, and the deadline allows that many attempts, it is found by probe number `i * |paths| + j + 1` |
| `Probe.DefaultListFinds8187OnTwelfthAttempt` | internal/avtransport/probe.go:13-26 | with the default list, a renderer answering only at port 8187 on "/AVTransport/control" is found by the 12th probe |
| `Probe.ProbeUpdate` | internal/avtransport/probe.go:115-135 | the cache update of a found endpoint carries the found URL and the configured vendor, no connection-manager URL or media, the identity exactly when it was fetched, and the validated actions exactly when there are some |
| `Probe.ProbeOver` | internal/avtransport/probe.go:95-145 | an empty target IP fails with "probe requires -Tip"; a failure always carries an error and changes neither config nor store; a success changes only the cached control URL of the config |
| `Probe.ProbeNeedsTip` | internal/avtransport/probe.go:96-98 | without a target IP nothing is probed and neither config nor store changes |
| `Probe.ProbeVerdict` | internal/avtransport/probe.go:95-110 | the probe succeeds exactly when some candidate within the deadline is accepted, and then the cached control URL is the first accepted candidate; a failure says "timed out" exactly when the deadline fell inside the matrix |
| `Probe.ProbeStores` | internal/avtransport/probe.go:107-137 | a found endpoint is stored under the target IP with the validated actions when there are any and the identity whenever it was fetched, and no other IP changes |
| `Probe.ProbeAvTransport` | internal/avtransport/probe.go:95-145 | over the real candidate matrix: an empty target IP fails with "probe requires -Tip" and changes nothing; otherwise the probe succeeds exactly when some candidate the deadline lets through is accepted, the cached control URL is such a candidate, and when the cache is written the endpoint's actions are the seven safe actions validated at that URL |
| `Probe.MatrixUrlsNonEmpty` | internal/avtransport/probe.go:75-81 | every candidate URL of the matrix is non-empty |
| `Soap.DynamicBodyLayout` | internal/avtransport/soap.go:19-27 | the wrapped body starts with the fixed envelope head, holds the caller's body unchanged right after it, and ends with the fixed tail |
| `Soap.UnwrapDynamicBody` | internal/avtransport/soap.go:19-27 | wrapping loses nothing: unwrapping a wrapped body gives the body back |
| `Soap.DynamicBodyOfUnwrap` | internal/avtransport/soap.go:19-27 | every envelope that unwraps is the wrapping of what it unwraps to, so wrapping and unwrapping are inverse |
| `Soap.Envelope` | internal/avtransport/soap.go:29-34 | an empty body sends the fixed GetTransportInfo probe for instance 0; any other body is wrapped so that it comes back out unchanged |
| `Soap.ProbeRequest` | internal/avtransport/soap.go:40-46 | the request goes to the given URL as XML, carries the envelope of the body, and names GetTransportInfo in its SOAPAction header whatever the body is |
| `Soap.SoapProbe` | internal/avtransport/soap.go:29-59 | the URL counts as present exactly when the answer is status 200 or 500; a request that cannot be built or an exchange that fails counts as absent |
| `Soap.Http500IsPresent` | internal/avtransport/soap.go:54-56 | a server that answers every request with 500 is present |
| `Soap.Http404IsAbsent` | internal/avtransport/soap.go:58 | a server that answers 404 is absent |
| `Scpd.FetchActions` | internal/avtransport/scpd.go:16-34 | a transport or decode error gives that error and no map; otherwise the map's keys are exactly the decoded action names, each mapped to true |
| `Scpd.ValidateActions` | internal/avtransport/scpd.go:51-64 | the keys are exactly the seven safe actions, each mapped to whether the control URL answered that action's probe, and the map is never empty |
| `Scpd.ValidateActionsAllFail` | internal/avtransport/scpd.go:52-63 | even when every probe fails, all seven safe actions are present, each false |
| `Scpd.SafeActionsDistinct` | internal/avtransport/scpd.go:36-49 | the whitelist names seven different actions |
| `Enrich.OverlayActions` | internal/avtransport/enrich.go:19-22 | the combined actions are the declared ones plus the validated ones; a validated value wins on a shared action and a declared-only action keeps its value |
| `Enrich.EnrichCapabilities` | internal/avtransport/enrich.go:8-33 | enrichment fails exactly when the service description fails, with its error; on success the actions are the declared ones overlaid with the validated ones and the media are the parsed Sink, or empty when the ConnectionManager failed |
| `Enrich.ScpdFailureIgnoresProtocolInfo` | internal/avtransport/enrich.go:14-17 | a description failure aborts enrichment whatever the ConnectionManager would say |
| `Enrich.ProtocolInfoFailureGivesEmptyMedia` | internal/avtransport/enrich.go:24-27 | a ConnectionManager failure is not an error: enrichment succeeds with an empty media map |
| `Enrich.EnrichWithValidation` | internal/avtransport/enrich.go:14-32 | with real validation the result knows every declared action and the seven safe ones; a safe action carries its probe outcome even when declared, a declared-only action stays true, and the map is never empty |
| `MediaProtocols.SoapRequestRaw` | internal/avtransport/media.go:46-62 | the request goes to the given URL as XML with the caller's SOAPAction, and its envelope unwraps to exactly the caller's body |
| `MediaProtocols.ProtocolInfoRequest` | internal/avtransport/media.go:64-71 | the ConnectionManager is sent the GetProtocolInfo element inside the envelope, with the ConnectionManager:1 GetProtocolInfo SOAPAction |
| `MediaProtocols.SinkEntry` | internal/avtransport/media.go:86-89 | an entry counts exactly when it has at least four colon-separated fields, and then gives its third field as MIME type and its fourth as profile |
| `MediaProtocols.AddEntriesIsProfilesFor` | internal/avtransport/media.go:85-92 | the accumulation loop yields, for every MIME type, the profiles of its well-formed entries in input order, appended to what the map held before; a MIME type is a key exactly when it had some |
| `MediaProtocols.ParseSink` | internal/avtransport/media.go:82-92 | a MIME type is a key exactly when some well-formed entry of the comma-separated Sink names it, and its value is the profiles of those entries in input order, duplicates kept |
| `MediaProtocols.FetchMediaProtocols` | internal/avtransport/media.go:72-94 | a transport or decode error gives that error and no map; otherwise the result is the parsed Sink |
| `MediaProtocols.ParseSinkListsNonEmpty` | internal/avtransport/media.go:90 | every announced MIME type has a non-empty profile list |
| `MediaProtocols.ParseSinkEmpty` | internal/avtransport/media.go:83-87 | an empty Sink announces nothing |
| `MediaProtocols.SinkEntryDropsExtraFields` | internal/avtransport/media.go:88-89 | fields after the fourth are dropped: a five-field entry gives its third and fourth fields |
| `MediaProtocols.SinkEntryFourFields` | internal/avtransport/media.go:86-89 | a four-field entry gives its third and fourth fields |
| `MediaProtocols.ParseSinkSameMime` | internal/avtransport/media.go:85-92 | two entries for the same MIME type give one key holding both profiles in input order |
| `MediaProtocols.Mp4HttpGetPair` | internal/avtransport/media.go:85-92 | two HTTP-GET MP4 entries give the single key "video/mp4" with both profiles in order |
| `MediaProtocols.ParseSinkExample` | internal/avtransport/media.go:82-92 | the Sink "http-get:*:video/mp4:*,http-get:*:video/mp4:DLNA.ORG_PN=AVC_MP4_BL_L3L_SD" gives "video/mp4" mapped to "*" followed by the DLNA profile |
| `Metadata.SonyMetadata` | internal/avtransport/metadata.go:37-40 | Sony gets no metadata document yet |
| `Metadata.PhilipsMetadata` | internal/avtransport/metadata.go:42-45 | Philips gets no metadata document yet |
| `Metadata.MetadataForVendor` | internal/avtransport/metadata.go:5-19 | only "lg" gets the DIDL-Lite document; Samsung, Sony, Philips and every other vendor get no metadata |
| `Metadata.LgMetadata` | internal/avtransport/metadata.go:21-35 | the LG document is the fixed DIDL-Lite head and resource opening, the media URL, then the resource closing and the fixed tail |
| `Metadata.LgMetadataWrapsMediaUrl` | internal/avtransport/metadata.go:21-35 | the LG document carries the target's media URL inside its one resource element, right after the opening tag and right before the closing one |
| `Metadata.LgMetadataInjective` | internal/avtransport/metadata.go:21-35 | two targets get the same LG document exactly when their media URLs agree; the control URL plays no part |
| `Metadata.MetadataCaseSensitive` | internal/avtransport/metadata.go:6 | the vendor match is exact: "LG" gets no metadata while "lg" gets a non-empty document |
| `Scan.IpToUint32` | internal/avtransport/scan.go:38-43 | the four bytes, most significant first, form a 32-bit word |
| `Scan.ToByte` | internal/avtransport/scan.go:47-50 | the byte conversion keeps the low eight bits |
| `Scan.Octets` | internal/avtransport/scan.go:45-52 | the bytes printed for a word always form an IPv4 address |
| `Scan.OctetsOfIp` | internal/avtransport/scan.go:38-52 | splitting the word of an address into bytes gives back the address's bytes |
| `Scan.IpOfOctets` | internal/avtransport/scan.go:38-52 | joining the bytes of a word gives back the word |
| `Scan.Uint32ToIpOfIp` | internal/avtransport/scan.go:38-52 | printing the word of an address prints that address's dotted quad |
| `Scan.Uint32ToIp` | internal/avtransport/scan.go:45-52 | the printed dotted quad reads back as the same word, so different words print differently |
| `Scan.Range` | internal/avtransport/scan.go:31-33 | the loop's range holds every integer from the lower bound up to, not including, the upper bound, ascending |
| `Scan.RangeCovers` | internal/avtransport/scan.go:31-33 | every integer from the lower bound up to, not including, the upper bound is in the range |
| `Scan.Network` | internal/avtransport/scan.go:27 | the network address never exceeds the start address |
| `Scan.NetworkIsMasked` | internal/avtransport/scan.go:24-27 | clearing the host bits of the address is the same as and-ing it with the prefix mask |
| `Scan.BroadcastIsMasked` | internal/avtransport/scan.go:28 | the broadcast address is the network address or-ed with the inverted mask |
| `Scan.NetworkAndBroadcast` | internal/avtransport/scan.go:27-28 | the network address has no host bits and the whole block lies inside the 32-bit address space |
| `Scan.ExpandAddrsAsWritten` | internal/avtransport/scan.go:30-33 | in uint32 arithmetic: when network + 1 does not wrap the loop lists the block's hosts; when it wraps, the list has as many entries as the broadcast address and starts at 0 |
| `Scan.ExpandAddrs` | internal/avtransport/scan.go:30-33 | the hosts are ascending, lie strictly between network and broadcast address, and every address between them is listed |
| `Scan.ExpandAddrsMeaning` | internal/avtransport/scan.go:30-33 | the hosts are strictly ascending, lie strictly between network and broadcast address, and number 2^(32-p) - 2 for p up to 30 and none for /31 and /32 |
| `Scan.ExpandAddrsInBlock` | internal/avtransport/scan.go:24-33 | every host masks back to the network address |
| `Scan.ExpandSlash24` | internal/avtransport/scan.go:24-33 | a /24 block yields the 254 hosts from .1 to .254 |
| `Scan.ExpandAllOnesAsWritten` | internal/avtransport/scan.go:31 | for 255.255.255.255/32 the uint32 sum network + 1 wraps to 0, so the loop as written lists 2^32 - 1 addresses starting at 0.0.0.0, where the block has no host |
| `Scan.ExpandAsWrittenAgrees` | internal/avtransport/scan.go:27-33 | for every other address and prefix the loop as written lists exactly the hosts of the block |
| `Scan.ExpandCidr` | internal/avtransport/scan.go:10-36 | corrected (no uint32 wrap-around): a parse error is passed on, a non-IPv4 address gives "only IPv4 CIDR supported", and an IPv4 block gives one dotted quad per host |
| `Scan.ExpandCidrHosts` | internal/avtransport/scan.go:21-33 | the listed text at each position reads back as the host at the same position of the block, so the listing is the block's hosts in ascending order and nothing else |
| `Scan.ExpandCidrAsWritten` | internal/avtransport/scan.go:10-36 | the written expansion has the same errors and lists, for an IPv4 block, one dotted quad for each address of the written host loop, in the same order |
| `Scan.ExpandCidrAsWrittenAgrees` | internal/avtransport/scan.go:10-36 | for every input but 255.255.255.255/32 the written and the corrected expansion are equal |
| `Scan.ExpandCidrAllOnesAsWritten` | internal/avtransport/scan.go:21-33 | for 255.255.255.255/32 the written expansion lists 2^32 - 1 dotted quads starting with 0.0.0.0, where the corrected one lists none |
| `Scan.Found` | internal/avtransport/scan.go:70-79 | a host is reported exactly when it was scanned and the probe with the target IP set to it succeeded |
| `Scan.ProbeHosts` | internal/avtransport/scan.go:70-79 | the loop probes every host in order with the target IP set to it, moves on after a failure or an error, and reports the hosts that answered |
| `Scan.ScanSubnet` | internal/avtransport/scan.go:61-81 | an invalid subnet is fatal with "Invalid subnet: " and the error, and nothing is probed; otherwise exactly the hosts of the written expansion are probed, in order |
| `Ssdp.ParseLines` | internal/ssdp/discover.go:148-158 | each field is the trimmed value of the last line carrying its header, matched in any letter case; a later duplicate overwrites an earlier one and an absent header gives "" |
| `Ssdp.HeadersExclusive` | internal/ssdp/discover.go:150-157 | no line starts with two of LOCATION, SERVER and USN, so the order of the tests does not matter |
| `Ssdp.ParseSsdp` | internal/ssdp/discover.go:144-163 | a response split on CRLF only gives, per field, the value of the last line carrying that header |
| `Ssdp.MSearch` | internal/ssdp/discover.go:71-79 | the datagram is the request line, HOST, MAN "ssdp:discover", MX: 3 and ST lines, each ended by CRLF, followed by one more CRLF |
| `Ssdp.ListenNotify` | internal/ssdp/discover.go:50-65 | no more devices are kept than packets were read, and every kept device names a location |
| `Ssdp.ListenNotifyLast` | internal/ssdp/discover.go:50-65 | the packets are filtered in arrival order: a later packet's device comes after the earlier ones' |
| `Ssdp.KeepsStep` | internal/ssdp/discover.go:58-63 | reading one more packet keeps exactly the earlier devices plus that packet's, if it announces "ssdp:alive" with a location |
| `Ssdp.ListenNotifyKeeps` | internal/ssdp/discover.go:58-64 | the devices kept are exactly the parses of the packets that contain "ssdp:alive" and name a location |
| `Ssdp.SearchesOrder` | internal/ssdp/discover.go:16-32 | there are eight search targets, starting with MediaRenderer:1 and ending with "ssdp:all" |
| `Ssdp.Parsed` | internal/ssdp/discover.go:118-119 | every response is parsed, in arrival order |
| `Ssdp.CollectKeys` | internal/ssdp/discover.go:118-123 | collecting adds exactly the locations the responses name, each device stored under its own location; responses without a location are dropped |
| `Ssdp.CollectLastWins` | internal/ssdp/discover.go:120-122 | of several responses with one location, the last one is kept |
| `Ssdp.Sends` | internal/ssdp/discover.go:101-108 | two datagrams are sent per target tried |
| `Ssdp.SendsTwice` | internal/ssdp/discover.go:103-108 | the two datagrams for a target are both its M-SEARCH, sent in target order |
| `Ssdp.CollectEach` | internal/ssdp/discover.go:112-124 | the read loop for one target stores each response under its location, as the reference fold does |
| `Ssdp.DiscoverOver` | internal/ssdp/discover.go:101-132 | the discovery loop finds what the reference run finds, and the datagrams sent are two per target tried, in order |
| `Ssdp.Discover` | internal/ssdp/discover.go:90-142 | over the fixed targets, the devices found and the datagrams sent are the reference run's |
| `Ssdp.CollectFresh` | internal/ssdp/discover.go:98-124 | starting from nothing, the devices collected are exactly the located responses, and nothing is collected only when no response names a location |
| `Ssdp.DiscoverFromStops` | internal/ssdp/discover.go:126-130 | the loop stops right after the first target whose responses name a location, every target before it drew none, and the devices are exactly that target's |
| `Ssdp.DiscoverFromEmpty` | internal/ssdp/discover.go:101-132 | nothing is found exactly when every remaining target drew no located response |
| `Ssdp.DiscoverFromMeaning` | internal/ssdp/discover.go:98-132 | the targets before the last one tried drew no located response; the devices are exactly the locations answering the last target tried, deduplicated, each under its own location; nothing is found only when every target was tried in vain |
| `Ssdp.DiscoverMeaning` | internal/ssdp/discover.go:90-142 | the same for the fixed targets and the responses as they arrive |
| `Script.Then` | internal/script.go:103-132 | once a fatal error, an exit or a panic has happened nothing more runs; otherwise the later events follow the earlier ones |
| `Script.RunWithConfig` | internal/script.go:12-27 | playback goes to the control URL the config yields (the cached one when set) with the configured media URL and the vendor's metadata for that target |
| `Script.RunManual` | internal/script.go:70-78 | manual mode plays exactly as `runWithConfig` does, because the URL builder already prefers a cached control URL |
| `Script.TryCache` | internal/script.go:134-166 | the user is asked exactly when a target IP is set and cached, and a hit happens exactly when the user confirms; a miss leaves the config unchanged; a hit clears host, port and path and sets the stored vendor and control URL, changing nothing else |
| `Script.TryCachePlaysStored` | internal/script.go:134-166 | after a cache hit playback goes to exactly the stored control URL, even an empty one, with the stored vendor's metadata and the same media |
| `Script.TryProbe` | internal/script.go:103-132 | the probe succeeds exactly when a target IP is set and a control URL was found; a probe error is fatal with "Error: " and the message; without playback nothing is played; with playback, probe-only exits with 0 and otherwise the found URL is played; the cache is what the probe left |
| `Script.TryProbePlaysProbedUrl` | internal/script.go:127-129 | a successful probe plays the URL the probe found |
| `Script.TryProbeEvents` | internal/script.go:103-132 | a probe step run for playback yields one event; it succeeds exactly when a target IP is set and the probe found a URL; then, unless probe-only, that event is playback, and otherwise it ends the run |
| `Script.CacheStep` | internal/script.go:53-58 | the cache step never changes the cache; the user is asked exactly when the cache is enabled and the target IP is set and cached, and it resolves exactly when the cache is enabled and the user confirms a hit |
| `Script.ResolveAuto` | internal/script.go:48-61 | corrected (nil check in SSDP): resolution never crashes; when neither SSDP nor the cache resolved the target the cache is unchanged, and the user is asked only when the cache is enabled |
| `Script.ResolveAutoAsWritten` | internal/script.go:48-61 | the written resolution crashes exactly when the older SSDP discovery dereferences nil, keeping the cache that discovery saved before the crash; otherwise it resolves as the corrected one does |
| `Script.RunAutoAsWritten` | internal/script.go:48-68 | the written `runAuto` ends in a nil-dereference panic, with the cache SSDP saved, exactly when discovery crashes; otherwise it starts with the event the corrected one produces and leaves the same cache, and at most one more event follows: the fatal "Unable to resolve AVTransport endpoint" |
| `Script.RunAuto` | internal/script.go:48-68 | corrected (nil check in SSDP and the fallback test the log message means): an automatic run ends with exactly one event |
| `Script.RunAutoFatalAfterPlay` | internal/script.go:63-67 | with no SSDP answer, no cache and a probe that succeeds, the written `runAuto` plays and then stops with "Unable to resolve AVTransport endpoint" |
| `Script.RunAutoAgrees` | internal/script.go:48-68 | when discovery does not crash and the probe fallback is not the one that succeeds, the written and the corrected `runAuto` behave alike |
| `Script.RunAutoOrder` | internal/script.go:48-68 | SSDP comes first and, when it resolves, is played without asking; the cache prompt is shown only with the cache enabled, after SSDP failed, for a cached target IP; a confirmed cache hit is played with the cache unchanged; the run plays exactly when SSDP, the cache or the probe resolved an endpoint and probe-only did not stop it |
| `Script.RunScan` | internal/script.go:80-101 | the written scan never plays and never asks about the cache, and yields at most one event; with discovery enabled, a nil dereference in SSDP ends it in a panic with the cache discovery saved; otherwise it behaves as the corrected scan |
| `Script.RunScanCorrected` | internal/script.go:80-101 | corrected (nil check in SSDP): a scan never plays, never panics, never asks about the cache and yields at most one event |
| `Script.RunScanProbe` | internal/script.go:97-100 | the single-IP probe of a scan is silent on success and fatal with "Error: probe requires -Tip" without a target IP |
| `Script.RunScript` | internal/script.go:29-46 | the written entry point: an explicit cache selection plays straight away; otherwise an unknown lower-cased mode is fatal and named as the user spelt it; every mode but scan yields one or two events, and a second event is only the fatal "Unable to resolve AVTransport endpoint" |
| `Script.RunScriptCorrected` | internal/script.go:29-46 | corrected (both fixes): an explicit cache selection plays straight away, an unknown lower-cased mode is fatal and named as the user spelt it, and every mode but scan ends with exactly one event |
| `Script.RunScriptAgrees` | internal/script.go:29-68 | when discovery does not crash and the probe fallback is not the one that succeeds, the written and the corrected entry points behave alike |
| `Script.RunScriptSsdpCrash` | internal/script.go:35-50 | in automatic mode, a heard renderer whose service description cannot be read but whose identity can ends the whole run in a nil-dereference panic, with the identity write kept in the cache |
| `Script.RunScriptModeCase` | internal/script.go:35-45 | the lower-cased mode picks the written automatic, manual or scan driver |
| `Script.RunScriptUpperCaseAuto` | internal/script.go:35-42 | "AUTO" runs the written automatic driver |
| `Script.RunScriptModeNotTrimmed` | internal/script.go:35-44 | the mode is not trimmed: " auto" is fatal as an unknown mode |
| `Script.RunScriptScanNeverPlays` | internal/script.go:37-38 | scan mode never plays, whatever the configuration |
| `LegacyDiscovery.LegacyOverride` | internal/discovery_utils.go:31-42 | each of host, port, control path and vendor is taken from the detected renderer only when it reported a non-empty value; every other configuration field is kept |
| `LegacyDiscovery.WithIdentity` | internal/discovery_utils.go:57-72 | after a successful identity lookup the record of the target IP holds exactly the new identity, every other field of that record and every other IP untouched |
| `LegacyDiscovery.WithCapabilities` | internal/discovery_utils.go:74-91 | the second write fills control URL and vendor only when the stored ones are empty, replaces actions and media with the enrichment result, keeps identity and connection-manager URL, and leaves other IPs alone |
| `LegacyDiscovery.LegacyTrySsdpAsWritten` | internal/discovery_utils.go:13-94 | the older discovery dereferences nil exactly when a device was heard, its description fetched, the identity lookup succeeded and the renderer's service description could not be read; the crash keeps the cache with the identity write saved just before it |
| `LegacyDiscovery.LegacyTrySsdpCrashes` | internal/discovery_utils.go:44-87 | a renderer whose service description cannot be read but whose identity can brings the older discovery down, whatever its ConnectionManager and action probes answer, and the identity write saved before the crash survives it |
| `LegacyDiscovery.LegacyTrySsdp` | internal/discovery_utils.go:13-94 | corrected (nil check added): success exactly when some device was heard (NOTIFY first, M-SEARCH as fallback) and its description was fetched; on failure configuration and cache are untouched; on success the configuration is the override by the first device |
| `LegacyDiscovery.LegacyTrySsdpStores` | internal/discovery_utils.go:44-91 | a successful discovery writes the cache only when the identity lookup succeeds; then the identity is replaced, stored control URL and vendor survive, actions and media change only when the service description could be read (and then hold the seven safe actions validated at the control URL), and no other IP changes |
| `LegacyDiscovery.LegacyTrySsdpAgrees` | internal/discovery_utils.go:13-94 | on every input where the written code does not crash, the corrected discovery yields the same configuration and cache |
| `LegacyDiscovery.ProbeRecord` | internal/discovery_utils.go:116-145 | the probe's cache write replaces the identity, fills control URL and vendor only when empty, keeps media, and merges non-empty observed actions key by key over the stored ones |
| `LegacyDiscovery.LegacyProbeAvTransport` | internal/discovery_utils.go:96-158 | the older probe fails with "probe requires -Tip" without an IP and passes the probe error on, touching nothing; on success it caches the found URL in the configuration and, only when the identity lookup succeeds, writes the IP's record with the safe actions validated at the found URL |
| `LegacyDiscovery.LegacyProbeSetsControlUrl` | internal/discovery_utils.go:110-111 | after a successful probe the control URL used for playback is the probed one, whatever host, port and path say |
| `LegacyDiscovery.LegacyProbeStoresSafeActions` | internal/discovery_utils.go:108-145 | a probe whose identity lookup succeeds stores the seven safe actions, each with whether the found endpoint answered it, on top of the actions already stored for the IP, which keep their values |
| `LegacyDiscovery.ProbeRecordMergesLikeStore` | internal/discovery_utils.go:136-143 | the probe's inline action merge is the same key-wise union the cache merge performs |
| `LegacyCache.MergeActions` | internal/edit_cache.go:45-53 | the merged action map has the union of both key sets; incoming values win on shared keys and stored values survive elsewhere |
| `LegacyCache.MergeFlat` | internal/edit_cache.go:30-58 | first-known-wins for control URL and vendor, replace-when-present for identity and media, key-wise union for actions |
| `LegacyCache.LegacyStoreInCache` | internal/edit_cache.go:11-62 | nothing is written when the cache is off or a cached target is selected, nor when the prompt is shown and declined; otherwise the target IP's record becomes the merge of the stored record (or the zero record) with the update |
| `LegacyCache.LegacyStoreOnlyTouchesTip` | internal/edit_cache.go:60-61 | only the entry of the target IP can appear or change |
| `LegacyCache.LegacyFirstKnownWins` | internal/edit_cache.go:30-38 | a stored control URL or vendor survives every later merge |
| `LegacyCache.LegacyAsksAtMostOnce` | internal/edit_cache.go:18-24 | once a control URL has been stored, later merges are not asked about again |
| `LegacyCache.LegacyStoreIdempotent` | internal/edit_cache.go:11-62 | storing the same observation twice leaves the cache as storing it once |
| `LegacyCache.LegacySelectFromCache` | internal/edit_cache.go:81-100 | an index is accepted exactly when it is within the number of cached IPs; the answer is a cached IP with exactly `index` smaller IPs, and its stored record |
| `LegacyCache.RankInSortedKeys` | internal/edit_cache.go:93-100 | in the ascending key list, the element at position i has exactly i smaller keys |
| `LegacyCache.LegacyForgetCache` | internal/edit_cache.go:116-175 | an empty cache or a declined prompt changes nothing; "all" empties the cache; "interactive" uses the typed IP and any other value is the IP itself, and an unknown IP changes nothing while a known one is removed alone; the result is always part of the cache it started from |
| `LegacyCache.LegacyForgetIdempotent` | internal/edit_cache.go:116-175 | forgetting the same target twice, with the same answer, changes nothing after the first time |
| `LegacyUtils.LegacyControlUrl` | internal/utils.go:15-33 | a cached control URL wins; otherwise no URL without both host and port, and else "http://host:port" followed by the path with exactly one leading "/" added when missing and "/" for an empty path |
| `LegacyUtils.LegacyControlUrlAgrees` | internal/utils.go:15-33 | without a cached URL the older control-URL builder and the current one give the same URL |
| `LegacyUtils.LegacyMediaUrl` | internal/utils.go:50-53 | the older media URL lies under "http://" + local IP + ":" + serve port + "/", and ends with the base name of the local file |
| `LegacyUtils.LegacyMediaUrlAgrees` | internal/utils.go:50-53 | the older media URL is the current one for the same local address, port and file |
| `Stream.ResolveStreamKind` | internal/stream/play.go:19-44 | the three kinds partition all file arguments: a resolver link (trimmed, lower-cased, starting "http" and naming a resolver host) comes first; otherwise an exact "http://" or "https://" prefix makes an external URL; everything else is a local file |
| `Stream.LooksLikeResolvableUrl` | internal/stream/play.go:34-44 | a resolvable URL, trimmed and lower-cased, starts with "http" and contains one of the four resolver hosts |
| `Stream.ShortLinkResolves` | internal/stream/play.go:34-44 | any casing of an http link containing "youtu.be" is resolvable |
| `Stream.HttpSchemeLowersToHttp` | internal/stream/play.go:34-44 | an exact http or https URL still starts with "http" after lower-casing, so the resolver test sees it |
| `Stream.NonHttpIsFile` | internal/stream/play.go:19-31 | an argument whose trimmed, lower-cased text does not start with "http" is always a local file |
| `Stream.UpperSchemeIsFile` | internal/stream/play.go:26-30 | an upper-case "HTTP://" argument that names no resolver host is treated as a local file, because the scheme test is case-sensitive |
| `Stream.HttpsStartsWithHttp` | internal/stream/play.go:36 | every https URL passes the resolver's "http" prefix test |
| `Stream.ResolverWins` | internal/stream/play.go:22-24 | a lower-case https link containing a resolver host is classified as needing the resolver, before the external-URL test |
| `Stream.BuildStreamUrl` | internal/stream/play.go:46-49 | the stream URL is "http://" + local IP + ":" + serve port followed by the path with exactly one "/" between them, whether or not the path had one |
| `Stream.BuildStreamUrlOneSlash` | internal/stream/play.go:47 | only one leading "/" is dropped: prefixing "/" changes nothing exactly when the path did not already start with one |
| `Stream.PlayStreamResolved` | internal/stream/play.go:55-68 | the stream is played at the cached control URL when one is known, else at the configured one, with the stream URL as media and empty metadata |
| `Stream.StreamSkipsVendorMetadata` | internal/stream/play.go:66-67 | even for an LG renderer a stream carries none of the DIDL-Lite metadata that file playback sends |
| `Stream.MimeCandidates` | internal/stream/container.go:12-64 | every container offers at least one MIME candidate; the transport stream leads with "video/mpeg", the others with "video/mp4" |
| `Stream.RegistryByKey` | internal/stream/container.go:48-53 | the registry knows exactly "ts", "mp4" and "passthrough", and each entry's key is the one it is registered under |
| `Stream.GetContainer` | internal/stream/container.go:66-72 | a key is found exactly when its trimmed, lower-cased form is registered, and then the container's key is that form; otherwise the error names the key as given |
| `Stream.GetContainerByKey` | internal/stream/container.go:66-72 | looking a container up by its own key returns that container |
| `Stream.NormalisedKey` | internal/stream/container.go:67 | a key already trimmed and lower-case is looked up unchanged |
| `Stream.FirstSupported` | internal/stream/mime.go:22-26 | the index found is that of an announced candidate with no announced candidate before it; none is found only when no candidate is announced |
| `Stream.SelectMime` | internal/stream/mime.go:3-33 | with nothing announced, or none of the container's candidates announced, a screen source gets the container's first candidate and any other source "video/mpeg"; otherwise the earliest announced candidate |
| `Stream.SelectMimeIgnoresProfiles` | internal/stream/mime.go:22-26 | the choice depends only on which MIME types were announced, never on their profile lists |
| `Stream.FirstSupportedKeys` | internal/stream/mime.go:22-26 | the first announced candidate is the same for any two announcements with the same MIME types |
| `Stream.BuildStreamSource` | internal/stream/source.go:10-26 | an external URL is streamed as given without validation; a local file becomes a source only when it validates, else the validation error is returned; a resolver link is refused with "unknown stream kind" |
| `Stream.BuildStreamSourceKeepsArgument` | internal/stream/source.go:10-26 | a built source always names the file argument exactly as given, and only a local file's outcome depends on the validator |
| `LegacyStream.LegacyMimeCandidates` | internal/stream_mode.go:103-109 | the older transport-stream container offers three candidates, "video/mpeg" first |
| `LegacyStream.LegacyGetContainer` | internal/stream_mode.go:87-97 | the older lookup succeeds exactly for keys that trim and lower-case to "ts"; otherwise the error names the key as given |
| `LegacyStream.LegacyRegistryIsTsOnly` | internal/stream_mode.go:87-89 | every key the older registry accepts the current one accepts, with the same candidates; "mp4" is known only to the current one |
| `LegacyStream.LegacyBuildStreamUrl` | internal/stream_mode.go:65-68 | the older stream URL puts exactly one "/" between the local address and the path |
| `LegacyStream.LegacyBuildStreamUrlAgrees` | internal/stream_mode.go:65-68 | the older and current stream-URL builders agree for the same local address and port |
| `LegacyStream.LegacyBuildStreamSource` | internal/stream_mode.go:113-121 | a blank file argument is refused with the "requires -Lf" message before validation; a validation error is passed on; otherwise the untrimmed argument is the source |
| `LegacyStream.BlankFileNeverValidated` | internal/stream_mode.go:114-116 | for a whitespace-only argument the outcome does not depend on the validator at all |
| `LegacyStream.LegacySelectMime` | internal/stream_mode.go:127-145 | with nothing announced the choice is "video/mpeg", and it is always one of the container's candidates |
| `LegacyStream.LegacySelectMimeAgrees` | internal/stream_mode.go:127-145 | the older MIME choice is the current one for the transport-stream container and a non-screen source |
| `LegacyStream.LegacySelectMimeFirstAnnounced` | internal/stream_mode.go:137-141 | when some candidate is announced, the older choice is the earliest announced one |
| `Utils.NormalizeMode` | internal/utils/utils.go:12-14 | a normalised mode has no surrounding white space, no upper-case letter, and is never longer than the input |
| `Utils.NormalizeModeIdempotent` | internal/utils/utils.go:12-14 | normalising a normalised mode changes nothing |
| `Utils.LeadingSlash` | internal/utils/utils.go:21-27 | the path always starts with "/": an absolute path is kept, anything else (the empty path included) gets one "/" in front |
| `Utils.LeadingSlashIdempotent` | internal/utils/utils.go:21-27 | adding the leading slash twice is adding it once |
| `Utils.ControlUrl` | internal/utils/utils.go:16-30 | there is no control URL exactly when host or port is missing; otherwise it is the base URL followed by the path made absolute |
| `Utils.ControlUrlExtendsBase` | internal/utils/utils.go:16-34 | a control URL starts with the base URL "http://host:port" and continues with "/"; an empty path gives the base URL plus "/" |
| `Utils.BaseUrl` | internal/utils/utils.go:32-34 | the base URL is "http://", the host, ":" and the port, each at its fixed position |
| `Utils.TrimTrailingSlashes` | internal/utils/utils.go:48 | the trimmed path is a prefix of the original without a trailing "/", and only slashes were removed |
| `Utils.AfterLastSlash` | internal/utils/utils.go:48 | the last element is a suffix of the path containing no "/", and it is preceded by a "/" unless it is the whole path |
| `Utils.BaseName` | internal/utils/utils.go:48 | the base name is never empty: "." for the empty path, "/" for a path of slashes, and otherwise an element without slashes |
| `Utils.BaseNameOfJoin` | internal/utils/utils.go:48 | the base name of directory + "/" + name is the name, for any directory and any non-empty name without slashes |
| `Utils.AfterLastSlashOfJoin` | internal/utils/utils.go:48 | the text after the last slash of directory + "/" + name is the name |
| `Utils.MediaUrl` | internal/utils/utils.go:47-50 | the media URL lies under "http://" + local IP + ":" + serve port + "/", and ends with the base name of the local file |
| `Utils.MediaUrlDropsDirectory` | internal/utils/utils.go:47-50 | the media URL serves a local file under its base name only, whatever directory it sits in |
| `Utils.ConfirmLetters` | internal/utils/utils.go:67-73 | the prompt is answered yes exactly by "y" or "yes" in any mix of letter cases |
| `Flags.BadFlagUse` | cmd/flags.go:77-108 | the flags are either accepted with an empty message or refused with one of the five fixed messages |
| `Flags.FirstViolated` | cmd/flags.go:80-105 | the index found is that of a violated rule with no violated rule before it; none is found only when no rule is violated |
| `Flags.BadFlagUseFirstRule` | cmd/flags.go:77-108 | the check refuses exactly the configurations that break one of the five restrictions, with the message of the first broken one in the order written, and accepts all others with an empty message |
| `Flags.DefaultConfigAccepted` | internal/models/flags.go:42-60 | the default configuration passes every restriction |
| `Flags.SelectWithTipRefused` | cmd/flags.go:94-100 | selecting a cached target while also naming a TV IP is refused with the override message, unless a scan or cache-listing check refused first |
| `Flags.UpperCaseScanNotChecked` | cmd/flags.go:81-86 | the mode is compared exactly, so "SCAN" with --probe-only escapes the scan restrictions |
| `Flags.Defaults` | internal/models/flags.go:42-60 | no cache selection or details index (-1), cache on without auto-save, SSDP off with a 60-second timeout, mode "auto", serve port "8000", directory "./directory", and no TV given |
| `UiFields.SetBool` | internal/ui/fields_mode.go:11-81 | a boolean field writes exactly the configuration value it is bound to |
| `UiFields.SetString` | internal/ui/fields_mode.go:10-79 | a text field writes exactly the configuration value it is bound to |
| `UiFields.SetInt` | internal/ui/fields_mode.go:38-78 | an integer field writes exactly the configuration value it is bound to |
| `UiFields.BuildFieldsForMode` | internal/ui/fields_mode.go:5-85 | an unknown mode has no fields, and every field row is captioned with the label of the setting it edits |
| `UiFields.FieldCounts` | internal/ui/fields_mode.go:5-85 | the scan form has 8 rows, auto 13, stream 10, manual 11, cache 6, and an unknown mode none |
| `UiFields.AlwaysEnabled` | internal/ui/fields_mode.go:88-118 | subnet, deep search, SSDP discovery, probe-only, use-cache, forget-cache, local directory and serve port are never greyed out |
| `UiFields.IsFieldDisabled` | internal/ui/fields_mode.go:88-118 | the TV-addressing fields are greyed out exactly while a cached target is selected, and the details display options exactly while no details index is set |
| `UiFields.ListDetailsExclusive` | internal/ui/fields_mode.go:91-95 | both cache listings are editable exactly when neither is chosen, and both are greyed out exactly when both are chosen |
| `UiKeys.GoRem` | internal/ui/keys.go:53 | the remainder has the sign of the dividend and is smaller in size than the divisor, as Go's `%` |
| `UiKeys.WholeSeconds` | internal/ui/keys.go:306 | a duration becomes whole seconds rounded toward zero |
| `UiKeys.Wrap64` | internal/ui/keys.go:198 | a product is reduced into the signed 64-bit range and is unchanged when it already fits |
| `UiKeys.ModOfSmall` | internal/ui/keys.go:113-116 | a value below twice the modulus is reduced by at most one subtraction |
| `UiKeys.ModeDown` | internal/ui/keys.go:115-116 | Down on the mode menu moves to the next entry and wraps from the last to the first |
| `UiKeys.ModeUp` | internal/ui/keys.go:112-113 | Up on the mode menu moves to the previous entry and wraps from the first to the last |
| `UiKeys.ModeCycle` | internal/ui/keys.go:111-116 | the menu selection stays on the menu, and Up and Down undo each other |
| `UiKeys.MenuModesHaveForms` | internal/ui/keys.go:118-128 | every menu entry, lower-cased, is a known mode with a non-empty form |
| `UiKeys.ConfirmToggles` | internal/ui/keys.go:52-53 | Up or Down on the confirm screen switches between its two buttons |
| `UiKeys.IsExecuteDisabled` | internal/ui/keys.go:348-389 | an unknown mode never blocks Execute; auto, stream and manual need a local IP; stream and manual also need a target IP and a file; a probe-only auto run with a local IP and either a target IP or discovery may run |
| `UiKeys.IsRowDisabled` | internal/ui/keys.go:391-404 | only field rows and the Execute row can be disabled: a field row as its field, the Execute row as the form |
| `UiKeys.CacheExecuteExclusive` | internal/ui/keys.go:352-355 | the cache form may run exactly when one of the two listings is chosen, which is when exactly one of the two listing fields is greyed out |
| `UiKeys.ExecuteIgnoresDisabledFields` | internal/ui/keys.go:348-389 | a greyed-out local file or local IP does not affect whether the form may run |
| `UiKeys.ExecuteAgreesWithFlags` | internal/ui/keys.go:348-389 | a form allowed to run is not refused by the command-line check for a scan without target or for both cache listings |
| `UiKeys.BackNeverDisabled` | internal/ui/keys.go:391-404 | the Back row is never disabled |
| `UiKeys.NavigateUp` | internal/ui/keys.go:219-234 | Up comes to rest on the nearest row above that is the top, a virtual row or an enabled field, skipping every disabled field in between, and never moves from row 0 or below |
| `UiKeys.NavigateDown` | internal/ui/keys.go:236-251 | Down comes to rest on the nearest row below that is Execute, Back or an enabled field, skipping every disabled field in between, and never moves past Back |
| `UiKeys.OpenField` | internal/ui/keys.go:284-307 | Enter flips a boolean (turning "List cache" on also drops the details index and its display options); any other field opens for editing without changing the configuration |
| `UiKeys.EnterOnField` | internal/ui/keys.go:275-307 | Enter on an index outside the fields or on a disabled field changes nothing; on an enabled non-boolean field it starts an edit |
| `UiKeys.ListCacheOnEnablesExecute` | internal/ui/keys.go:286-293 | in cache mode turning "List cache" on always leaves a form that may run |
| `UiKeys.CommitEdit` | internal/ui/keys.go:150-201 | committing on an index outside the fields or on a disabled field changes nothing and keeps editing; otherwise the edit ends |
| `UiKeys.CommitIndex` | internal/ui/keys.go:161-195 | an integer commit always ends the edit, only the two cache indexes are stored, and a details index never opens the cache popup |
| `UiKeys.CommitTimeout` | internal/ui/keys.go:196-200 | an unreadable buffer leaves the timeout alone; a readable one sets it to that many seconds, wrapped to 64 bits |
| `UiKeys.TextRoundTrip` | internal/ui/keys.go:159-160 | opening an enabled text field and committing at once leaves the configuration unchanged |
| `UiKeys.IntToDecTrimmed` | internal/ui/keys.go:302 | a decimal rendering has no surrounding white space, so trimming before parsing keeps it |
| `UiKeys.DetailsCommitParsed` | internal/ui/keys.go:181-195 | a number committed into "Details cache" is stored and turns the cache list off |
| `UiKeys.DetailsNumberCommitted` | internal/ui/keys.go:181-195 | a rendered 64-bit number committed into "Details cache" is read back as that number |
| `UiKeys.DetailsRoundTrip` | internal/ui/keys.go:297-303 | opening a set details index and committing at once leaves the configuration unchanged |
| `UiKeys.DetailsRoundTripUnset` | internal/ui/keys.go:299-300 | opening an unset details index shows an empty buffer, and committing it stores -1 |
| `UiKeys.TimeoutCommitParsed` | internal/ui/keys.go:196-200 | committing a number of seconds into the enabled SSDP timeout stores the wrapped 64-bit number of nanoseconds |
| `UiKeys.DurationRoundTrip` | internal/ui/keys.go:304-306 | opening the SSDP timeout and committing at once rounds it toward zero to whole seconds |
| `UiKeys.DurationWraps` | internal/ui/keys.go:198 | a number of seconds whose nanoseconds overflow 64 bits is stored wrapped; 9223372037 seconds becomes a negative timeout |
| `UiKeys.LeastOverflowWraps` | internal/ui/keys.go:198 | 9223372037 seconds in nanoseconds wraps to the minimum 64-bit value plus 145224192 |
| `UiKeys.DetailsCommitEnablesExecute` | internal/ui/keys.go:181-195 | committing a details index of 0 or more turns the list off and leaves a cache form that may run |
| `UiKeys.Backspace` | internal/ui/keys.go:206-209 | Backspace removes exactly the last element of a non-empty buffer and leaves an empty one alone |
| `UiKeys.BackspaceUndoesType` | internal/ui/keys.go:206-212 | Backspace undoes the last key typed |
| `UiKeys.Type` | internal/ui/keys.go:211-212 | typing appends exactly the typed character to the buffer |
| `UiDraw.ClipText` | internal/ui/draw.go:32-40 | text that fits is kept; longer text is cut to `max` bytes when `max` is 0 or 1, and otherwise to `max - 1` bytes followed by the three-byte ellipsis |
| `UiDraw.ClipIsPrefix` | internal/ui/draw.go:32-40 | the clipped text, without a trailing ellipsis, is a prefix of the original and at most two bytes longer than it |
| `UiDraw.ClipIdempotent` | internal/ui/draw.go:32-40 | clipping clipped text again to the same width changes nothing |
| `UiDraw.RuneCountAppend` | internal/ui/draw.go:27 | the number of characters of two joined byte strings is the sum of their counts |
| `UiDraw.RuneCountAtMostLength` | internal/ui/draw.go:27 | a byte string never shows in more characters than it has bytes |
| `UiDraw.AsciiRuneCount` | internal/ui/draw.go:27 | ASCII text has one character per byte |
| `UiDraw.ClipFitsColumn` | internal/ui/draw.go:32-40 | clipped ASCII text occupies exactly `max` screen columns, or its own length if it fits |
| `UiDraw.ClipSplitsCharacter` | internal/ui/draw.go:39 | clipping "ééé" to 4 keeps half of the second "é" before the ellipsis |
| `UiDraw.BoundaryAtOrBefore` | internal/ui/draw.go:37-39 | the position found is the last character boundary at or before the cut, or 0 |
| `UiDraw.ClipTextAtBoundary` | internal/ui/draw.go:32-40 | the corrected clip keeps text that fits, and otherwise cuts only at a character boundary no later than the written cut, with or without the ellipsis, never longer than the written result |
| `UiDraw.ClipAtBoundaryAgrees` | internal/ui/draw.go:32-40 | on ASCII text the corrected clip is the written one |
| `UiDraw.ClipAtBoundaryKeepsCharacter` | internal/ui/draw.go:39 | on "ééé" clipped to 4 the corrected clip keeps the whole first "é" before the ellipsis |
| `StringOrder.SortedKeys` | internal/cache/edit_cache.go:329-336 | the listing holds each cached IP exactly once, in strictly ascending byte order |
| `StringOrder.SortStrings` | internal/cache/edit_cache.go:334 | sorting gives an ascending permutation of its input |
| `StringOrder.SortStringsIsSortedKeys` | internal/cache/edit_cache.go:329-336 | whatever order the map iteration produced the IPs in, the sorted listing is the same |
| `Text.TrimSpace` | internal/utils/utils.go:13 | trimming keeps the longest infix with no white space at either end and removes only white space |
| `Text.TrimSpaceIdempotent` | internal/utils/utils.go:13 | trimming trimmed text changes nothing |
| `Text.Atoi` | internal/ui/keys.go:174 | a number is read only from non-empty text and always fits in 64 bits |
| `Text.AtoiIntToDec` | internal/ui/keys.go:174-302 | every 64-bit number printed in decimal is read back as itself |
| `Text.JoinSplit` | internal/avtransport/media.go:83-86 | splitting loses nothing: joining the pieces with the separator gives the text back |
| `Text.SplitJoin` | internal/avtransport/media.go:83-86 | for a one-character separator that no piece contains, splitting the joined pieces gives them back |
| `Bits32.MaskBlock` | internal/avtransport/scan.go:27-28 | masking an address with a prefix mask clears its host bits, or-ing the inverted mask sets them all, and the block stays within the address width |

## Left out

- Network I/O is replaced by oracles and `Result` parameters: UDP sockets, HTTP requests and XML decoding. The cache file's `Load` and `Save` are replaced by a store value passed in and returned.
- Time is replaced by parameters. `time.Now` becomes a natural-number timestamp. The probe deadline becomes an attempt budget: the attempts that start before the deadline form a prefix of the matrix, because the clock only moves forward.
- Collaborators whose source is not part of this model are parameters or events:
  - `avtransport.Run` is a `Play` event;
  - `identity.Enrich` and `ssdp.FetchAndDetect` are oracles;
  - `FetchActions` and the `GetProtocolInfo` exchange are the `describe` and `sink` oracles of `Discovery.Services`; `EnrichCapabilities` and `ValidateActions` are modelled on top of them;
  - `probeSOAPEndpoint`, called by the probe loop, is the `accept` oracle;
  - the package's `scanSubnet` is a `SubnetScan` event;
  - `ValidateFile` is a validator returning an optional error.
- The cache popup helpers of the interactive front end (`openCachePopup`, `clearCachedSelection`, `applyCachedDevice`, `handlePopupKey`) are not part of this model. A commit reports the popup request or the selection reset as an `Effect`.
- `log.Fatalf` and `os.Exit` are terminal events. Ordinary log lines and the printed cache listings (`handleListCache`, the details view) are output only and are left out.
- The logger package that `script.go` imports is not part of this model: the repository's `logger/log.go` belongs to the other generation and defines no `Fatal` (its `Error` ends the process with `os.Exit(0)`). Treating `logger.Fatal` as terminal is an assumption; `Script.Then`, `Script.TryProbe`, `Script.RunAutoFatalAfterPlay` and the `Script.RunAutoAsWritten` discrepancy rest on it.
- The intermediate snapshot's `cache.StoreInCache(cfg, update)` calls (`internal/avtransport/discovery_utils.go` lines 128 and 175) are not modelled: `Discovery.TrySsdp` and `Discovery.FlatProbeAvTransport` return the update they would store. The flat-record `StoreInCache` that call reaches is not part of this model; the repository's `internal/cache/edit_cache.go` is the current snapshot's endpoint-keyed version (`DeviceCache.StoreInCache`).
- `LocalIP`, `LoadCachedTV` and flag parsing (`parseFlags`) read the terminal or the command line and are left out. The flag check `badFlagUse` is modelled.
- `StartStreamMode`, `start` and the HTTP stream server (`ServeStreamGo`, the file, URL, resolver and screen sources) are left out. They serve bytes; the decisions they take are modelled (`Stream`, `LegacyStream`).
- `start` in `internal/stream/mode.go` (the `tvctrl` package `stream`) calls `selectMime` with two arguments, but `internal/stream/mime.go` declares three. The model passes the screen flag as a parameter.
- `Stream.BuildStreamSource`: `internal/stream/source.go` passes its `models.Config` value to `ResolveStreamKind`, but `internal/stream/play.go` declares that parameter as `*models.Config`, so the function as written does not type-check. The model reads the call as taking `&cfg`: the kind is decided by the same configuration's file argument.
- The interactive form's `FieldDuration` is used by `fields_mode.go` and `keys.go` (lines 196-198 and 304-306), but `internal/ui/fields.go` declares only `FieldBool`, `FieldString` and `FieldInt`. The model gives the duration field its own slot kind (`UiFields.DurationSlot`).
- Rendering with tcell (`drawText`, `drawFieldRow`, styles, boot animation) is left out. Only `clipText` is modelled.
- The older `probeAVTransport` ends with `storeInCache(cfg, target)`. It passes a probe target where a cache record is expected, so that call does not type-check and the model stops before it.
- The older `Config` declares no `SelectCache`, although `script.go` and `edit_cache.go` read it. `LegacyModels.LegacyConfig` has the field.
- `net.ParseCIDR` is replaced by its result, passed to `Scan.ExpandCidr` as a parameter. IPv4-mapped IPv6 forms are not modelled.
- The current `Discover` turns its map of devices into a slice in map order. The model returns the map, because that order is unspecified.
- `ToLower` and `ToUpper` fold ASCII letters only. Go's Unicode case mapping is not modelled.
- `UiKeys.Backspace`: works on characters, while Go removes the last byte of the buffer. The two agree on ASCII input.
- `DeviceCache.Col`: pads by `UiDraw.RuneCount`, which follows Go's rune count of `%-*s` on well-formed UTF-8 only. On malformed bytes Go counts each invalid byte as one rune.
- `DeviceCache.Col`: requires a width of at least 3. Go's slice expression panics for narrower widths when the text is longer, and every call site uses 12 or 60.
- `Scan.ScanSubnet`: states which hosts are probed and which are found. The probe is an oracle on the configuration, and the cache writes made during each probe are not threaded through the loop.
- `UiDraw.ClipText`: requires a width of 0 or more, because Go's slice expression panics on a negative width.

## Findings

| source | as written | input that shows it | evidently intended | confidence | as-written member | corrected member |
|---|---|---|---|---|---|---|
| internal/avtransport/scan.go:31 | the host loop starts at `network + 1` in uint32 arithmetic | `255.255.255.255/32`: network + 1 wraps to 0, and the loop yields the 2^32 - 1 addresses from 0.0.0.0 upwards | a /32 block has no hosts | not executed | `Scan.ExpandAllOnesAsWritten` (with `Scan.ExpandCidrAllOnesAsWritten`; `Scan.ScanSubnet` probes this expansion) | `Scan.ExpandCidr` (with `Scan.ExpandAsWrittenAgrees` and `Scan.ExpandCidrAsWrittenAgrees`) |
| internal/discovery_utils.go:86-87 | the second cache write reads `caps.Actions` even when capability enrichment failed | a renderer whose SCPD fetch fails but whose identity lookup succeeds: caps is nil and is dereferenced | write actions and media only when enrichment succeeded, as the current generation does | not executed | `LegacyDiscovery.LegacyTrySsdpAsWritten` (with `LegacyDiscovery.LegacyTrySsdpCrashes` and `Script.RunScriptSsdpCrash`) | `LegacyDiscovery.LegacyTrySsdp` (with `LegacyDiscovery.LegacyTrySsdpAgrees`) |
| internal/script.go:64-67 | `runAuto` logs "Unable to resolve AVTransport endpoint" as fatal when `tryProbe` returns true | no SSDP answer, cache off, a target IP and a probe that finds an endpoint: the file plays and then the run stops as unresolved | fatal only when the probe fails | not executed | `Script.RunAutoAsWritten` (with `Script.RunAutoFatalAfterPlay`) | `Script.RunAuto` (with `Script.RunAutoAgrees`; `Script.RunScriptCorrected` with `Script.RunScriptAgrees`) |
| internal/ui/draw.go:39 | `clipText` cuts the byte string at `max - 1` | "ééé" (bytes C3 A9 C3 A9 C3 A9) clipped to 4 keeps C3 A9 C3, half of the second "é", before the ellipsis | cut only between characters | not executed | `UiDraw.ClipText` (with `UiDraw.ClipSplitsCharacter`) | `UiDraw.ClipTextAtBoundary` (with `UiDraw.ClipAtBoundaryKeepsCharacter`) |
| internal/cache/edit_cache.go:446-447 | `col` tests `len(v) > w` and cuts at `v[:w-3]`, both in bytes | seven "é" (C3 A9 seven times, 14 bytes) in a 12-wide column keep 9 bytes, ending with C3, half of the fifth "é", before "..." | cut only between characters | not executed | `DeviceCache.Col` (with `DeviceCache.ColSplitsCharacter`) | `DeviceCache.ColAtBoundary` (with `DeviceCache.ColAtBoundaryAgrees` and `DeviceCache.ColAtBoundaryKeepsCharacter`) |

=== FILE: bits32.dfy ===
/**
 * Unsigned machine words as natural numbers: Go's `&`, `|` and `^` on the
 * low `n` bits, defined bit by bit, and the facts about prefix masks that
 * the CIDR arithmetic needs.
 */
module Bits32 {

  function Pow2(k: nat): (r: nat)
    ensures r >= 1
  {
    if k == 0 then 1 else 2 * Pow2(k - 1)
  }

  // The bit-by-bit functions name the word after the width in their
  // `decreases` clauses, so that a literal width alone does not make the
  // verifier unroll them.

  /** `a & b` on `n`-bit words. */
  function And(a: nat, b: nat, n: nat): nat
    decreases n, a
  {
    if n == 0 then 0
    else 2 * And(a / 2, b / 2, n - 1) + (if a % 2 == 1 && b % 2 == 1 then 1 else 0)
  }

  /** `a | b` on `n`-bit words. */
  function Or(a: nat, b: nat, n: nat): nat
    decreases n, a
  {
    if n == 0 then 0
    else 2 * Or(a / 2, b / 2, n - 1) + (if a % 2 == 1 || b % 2 == 1 then 1 else 0)
  }

  /** `^a` on `n`-bit words. */
  function Not(a: nat, n: nat): nat
    decreases n, a
  {
    if n == 0 then 0
    else 2 * Not(a / 2, n - 1) + (if a % 2 == 1 then 0 else 1)
  }

  /** `a >> k`. */
  function High(a: nat, k: nat): nat
    decreases k, a
  {
    if k == 0 then a else High(a / 2, k - 1)
  }

  /** The low `k` bits of `a`. */
  function Low(a: nat, k: nat): nat
    decreases k, a
  {
    if k == 0 then 0 else 2 * Low(a / 2, k - 1) + a % 2
  }

  lemma {:induction false} LowBound(a: nat, k: nat)
    ensures Low(a, k) <= a
    decreases k
  {
    if k > 0 {
      LowBound(a / 2, k - 1);
    }
  }

  /** Every word splits into its high part and its low `k` bits. */
  lemma {:induction false} HighLow(a: nat, k: nat)
    ensures a == Pow2(k) * High(a, k) + Low(a, k)
    ensures Low(a, k) < Pow2(k)
    decreases k
  {
    if k > 0 {
      HighLow(a / 2, k - 1);
      assert Pow2(k) * High(a, k) == 2 * (Pow2(k - 1) * High(a / 2, k - 1));
    }
  }

  /** The split is unique: a high part and a low remainder below `2^k`
      are the ones `High` and `Low` compute. */
  lemma {:induction false} HighLowUnique(a: nat, k: nat, h: nat, l: nat)
    requires a == Pow2(k) * h + l && l < Pow2(k)
    ensures High(a, k) == h && Low(a, k) == l
    decreases k
  {
    if k > 0 {
      var x := Pow2(k - 1) * h;
      assert Pow2(k) * h == 2 * x;
      assert a / 2 == x + l / 2 && a % 2 == l % 2;
      HighLowUnique(a / 2, k - 1, h, l / 2);
    }
  }

  /** Shifting twice is shifting by the sum. */
  lemma {:induction false} HighHigh(a: nat, j: nat, k: nat)
    ensures High(High(a, j), k) == High(a, j + k)
    decreases j
  {
    if j > 0 {
      HighHigh(a / 2, j - 1, k);
    }
  }

  lemma PowMonotone(j: nat, k: nat)
    requires j <= k
    ensures Pow2(j) <= Pow2(k)
    decreases k
  {
    if j < k {
      PowMonotone(j, k - 1);
    }
  }

  /** Masking with all ones keeps the word. */
  lemma {:induction false} AndOnes(a: nat, n: nat)
    requires a < Pow2(n)
    ensures And(a, Pow2(n) - 1, n) == a
    decreases n
  {
    if n > 0 {
      AndOnes(a / 2, n - 1);
      assert (Pow2(n) - 1) / 2 == Pow2(n - 1) - 1;
    }
  }

  /** Or with zero keeps the word. */
  lemma {:induction false} OrZero(a: nat, n: nat)
    requires a < Pow2(n)
    ensures Or(a, 0, n) == a
    decreases n
  {
    if n > 0 {
      OrZero(a / 2, n - 1);
    }
  }

  /** The mask with the top `n - k` of `n` bits set. */
  function HighMask(n: nat, k: nat): nat
    requires k <= n
  {
    PowMonotone(k, n);
    Pow2(n) - Pow2(k)
  }

  /** `a & mask` clears the low `k` bits. */
  lemma {:induction false} AndHighMask(a: nat, n: nat, k: nat)
    requires k <= n && a < Pow2(n)
    ensures And(a, HighMask(n, k), n) == a - Low(a, k)
    decreases n
  {
    if k == 0 {
      AndOnes(a, n);
    } else {
      PowMonotone(k - 1, n - 1);
      var m := HighMask(n, k);
      var m' := HighMask(n - 1, k - 1);
      assert m == 2 * m';
      AndHighMask(a / 2, n - 1, k - 1);
    }
  }

  /** `^mask` is the low `k` bits set. */
  lemma {:induction false} NotHighMask(n: nat, k: nat)
    requires k <= n
    ensures Not(HighMask(n, k), n) == Pow2(k) - 1
    decreases n
  {
    if n > 0 {
      if k == 0 {
        NotAllOnes(n);
      } else {
        PowMonotone(k - 1, n - 1);
        assert HighMask(n, k) / 2 == HighMask(n - 1, k - 1);
        assert HighMask(n, k) % 2 == 0;
        NotHighMask(n - 1, k - 1);
      }
    }
  }

  lemma {:induction false} NotAllOnes(n: nat)
    ensures Not(Pow2(n) - 1, n) == 0
    decreases n
  {
    if n > 0 {
      assert (Pow2(n) - 1) / 2 == Pow2(n - 1) - 1;
      NotAllOnes(n - 1);
    }
  }

  /** Setting the low `k` bits of a word whose low `k` bits are clear adds
      `2^k - 1`. */
  lemma {:induction false} OrLowOnes(x: nat, n: nat, k: nat)
    requires k <= n && x < Pow2(n) && Low(x, k) == 0
    ensures Or(x, Pow2(k) - 1, n) == x + Pow2(k) - 1
    decreases n
  {
    if k == 0 {
      OrZero(x, n);
    } else {
      assert (Pow2(k) - 1) / 2 == Pow2(k - 1) - 1 && (Pow2(k) - 1) % 2 == 1;
      OrLowOnes(x / 2, n - 1, k - 1);
    }
  }

  /** The word with its low `k` bits cleared has no low bits left. */
  lemma LowOfCleared(a: nat, k: nat)
    ensures a - Low(a, k) >= 0 && Low(a - Low(a, k), k) == 0
  {
    HighLow(a, k);
    HighLowUnique(a - Low(a, k), k, High(a, k), 0);
  }

  /** A word that agrees with `base` above the low `k` bits (`base` having
      none of its own) has `r` as its low bits. */
  lemma LowOfOffset(base: nat, r: nat, k: nat)
    requires Low(base, k) == 0 && r < Pow2(k)
    ensures Low(base + r, k) == r
  {
    HighLow(base, k);
    HighLowUnique(base + r, k, High(base, k), r);
  }

  /** A block of `2^k` words whose low `k` bits start at zero fits below
      `2^n`. */
  lemma {:induction false} BlockTop(x: nat, n: nat, k: nat)
    requires k <= n && x < Pow2(n) && Low(x, k) == 0
    ensures x + Pow2(k) <= Pow2(n)
    decreases k
  {
    if k > 0 {
      assert x % 2 == 0 && Low(x / 2, k - 1) == 0;
      BlockTop(x / 2, n - 1, k - 1);
    }
  }

  /** Masking `start` with the prefix mask of `n - k` ones gives the block's
      first word (its low `k` bits cleared); or-ing the inverted mask into
      that gives the block's last word, and the block fits below `2^n`. */
  lemma MaskBlock(start: nat, n: nat, k: nat)
    requires k <= n && start < Pow2(n)
    ensures And(start, HighMask(n, k), n) == start - Low(start, k)
    ensures start - Low(start, k) >= 0 && Low(start - Low(start, k), k) == 0
    ensures Or(start - Low(start, k), Not(HighMask(n, k), n), n) == start - Low(start, k) + Pow2(k) - 1
    ensures start - Low(start, k) + Pow2(k) <= Pow2(n)
  {
    AndHighMask(start, n, k);
    LowOfCleared(start, k);
    NotHighMask(n, k);
    var net := start - Low(start, k);
    OrLowOnes(net, n, k);
    BlockTop(net, n, k);
  }

  /** `MaskBlock` with the block's first word and the mask given by name,
      so that callers can state them in their own terms. */
  lemma MaskedBlock(start: nat, n: nat, k: nat, net: nat, mask: nat)
    requires k <= n && start < Pow2(n)
    requires mask == HighMask(n, k) && net == start - Low(start, k)
    ensures And(start, mask, n) == net
    ensures Or(net, Not(mask, n), n) == net + Pow2(k) - 1
  {
    MaskBlock(start, n, k);
  }

  /** 2^8 and 2^32 as numbers. */
  lemma Pow2Values()
    ensures Pow2(8) == 0x100 && Pow2(16) == 0x1_0000 && Pow2(24) == 0x100_0000 && Pow2(32) == 0x1_0000_0000
  {
    assert Pow2(1) == 2;
    assert Pow2(2) == 4;
    assert Pow2(4) == 16 by {
      assert Pow2(3) == 8;
    }
    assert Pow2(8) == 0x100 by {
      assert Pow2(5) == 32;
      assert Pow2(6) == 64;
      assert Pow2(7) == 128;
    }
    assert Pow2(16) == 0x1_0000 by {
      assert Pow2(9) == 0x200;
      assert Pow2(10) == 0x400;
      assert Pow2(11) == 0x800;
      assert Pow2(12) == 0x1000;
      assert Pow2(13) == 0x2000;
      assert Pow2(14) == 0x4000;
      assert Pow2(15) == 0x8000;
    }
    assert Pow2(24) == 0x100_0000 by {
      assert Pow2(17) == 0x2_0000;
      assert Pow2(18) == 0x4_0000;
      assert Pow2(19) == 0x8_0000;
      assert Pow2(20) == 0x10_0000;
      assert Pow2(21) == 0x20_0000;
      assert Pow2(22) == 0x40_0000;
      assert Pow2(23) == 0x80_0000;
    }
    assert Pow2(32) == 0x1_0000_0000 by {
      assert Pow2(25) == 0x200_0000;
      assert Pow2(26) == 0x400_0000;
      assert Pow2(27) == 0x800_0000;
      assert Pow2(28) == 0x1000_0000;
      assert Pow2(29) == 0x2000_0000;
      assert Pow2(30) == 0x4000_0000;
      assert Pow2(31) == 0x8000_0000;
    }
  }
}

=== FILE: cache.dfy ===
/**
 * The endpoint-keyed device cache (package `cache`): the merge that folds
 * one observation into the store, the deterministic primary-endpoint rule
 * of the read path, and the forget command.
 *
 * The store is an in-memory map (loading and saving the JSON file are not
 * modelled); `time.Now()` is the parameter `now`.
 */
module DeviceCache {
  import opened Wrappers
  import opened Models
  import opened StringOrder
  import opened Text
  import opened UiDraw

  /** One control URL of a device, with what was learned about it. */
  datatype Endpoint = Endpoint(
    controlUrl: string,
    connMgrUrl: string,
    actions: Option<Actions>,
    media: Option<Media>,
    seenAt: nat)

  /** A renderer, keyed by IP in the store. */
  datatype CachedDevice = CachedDevice(
    vendor: string,
    identity: Option<Identity>,
    endpoints: map<string, Endpoint>)

  type Store = map<string, CachedDevice>

  /** The flat `cache.Device` record: an incoming observation on the write
      path, and the selected device on the read path. `None` is Go's nil. */
  datatype Device = Device(
    vendor: string,
    controlUrl: string,
    connMgrUrl: string,
    identity: Option<Identity>,
    actions: Option<Actions>,
    media: Option<Media>)

  const EmptyDevice: Device := Device("", "", "", None, None, None)

  /** `len(m)` of a possibly nil actions map. */
  function ActionCount(a: Option<Actions>): nat {
    match a
    case None => 0
    case Some(m) => |m|
  }

  // ---------------------------------------------------------------------
  // Write path
  // ---------------------------------------------------------------------

  /** The merge is switched off when the cache is disabled or a cached
      target was selected. */
  predicate WritesCache(cfg: Config) {
    cfg.useCache && cfg.selectCache == -1
  }

  /** The endpoint record after an observation of `url`: created on first
      sight, always re-stamped, and otherwise only overwritten by values the
      observation actually carries. */
  function TouchEndpoint(known: Option<Endpoint>, url: string, u: Device, now: nat): (ep: Endpoint)
    ensures ep.controlUrl == (if known.Some? then known.value.controlUrl else url)
    ensures ep.seenAt == now
    ensures u.connMgrUrl != "" ==> ep.connMgrUrl == u.connMgrUrl
    ensures u.connMgrUrl == "" ==> ep.connMgrUrl == (if known.Some? then known.value.connMgrUrl else "")
    ensures ep.actions == (if u.actions.Some? then u.actions else if known.Some? then known.value.actions else None)
    ensures ep.media == (if u.media.Some? then u.media else if known.Some? then known.value.media else None)
  {
    var base := known.GetOr(Endpoint(url, "", None, None, now));
    base.(
      seenAt := now,
      connMgrUrl := if u.connMgrUrl != "" then u.connMgrUrl else base.connMgrUrl,
      actions := if u.actions.Some? then u.actions else base.actions,
      media := if u.media.Some? then u.media else base.media)
  }

  /** The device record after an observation. */
  function MergeDevice(known: Option<CachedDevice>, u: Device, now: nat): (cd: CachedDevice)
    ensures known.Some? && known.value.vendor != "" ==> cd.vendor == known.value.vendor
    ensures (known.None? || known.value.vendor == "") ==> cd.vendor == u.vendor
    ensures cd.identity == (if u.identity.Some? then u.identity else if known.Some? then known.value.identity else None)
    ensures var before := if known.Some? then known.value.endpoints else map[];
      && cd.endpoints.Keys == before.Keys + (if u.controlUrl != "" then {u.controlUrl} else {})
      && (forall k :: k in before && k != u.controlUrl ==> cd.endpoints[k] == before[k])
      && (u.controlUrl == "" ==> cd.endpoints == before)
  {
    var base := known.GetOr(CachedDevice(u.vendor, u.identity, map[]));
    var vendor := if base.vendor == "" && u.vendor != "" then u.vendor else base.vendor;
    var identity := if u.identity.Some? then u.identity else base.identity;
    var eps :=
      if u.controlUrl != "" then
        var prev := if u.controlUrl in base.endpoints then Some(base.endpoints[u.controlUrl]) else None;
        base.endpoints[u.controlUrl := TouchEndpoint(prev, u.controlUrl, u, now)]
      else base.endpoints;
    CachedDevice(vendor, identity, eps)
  }

  /** `StoreInCache`: fold the observation `u` of the renderer at `cfg.tip`
      into the store. Only that IP's record changes. */
  function StoreInCache(cfg: Config, s: Store, u: Device, now: nat): (r: Store)
    ensures !WritesCache(cfg) ==> r == s
    ensures WritesCache(cfg) ==> r.Keys == s.Keys + {cfg.tip}
    ensures forall ip :: ip in s && ip != cfg.tip ==> r[ip] == s[ip]
  {
    if !WritesCache(cfg) then s
    else
      var known := if cfg.tip in s then Some(s[cfg.tip]) else None;
      s[cfg.tip := MergeDevice(known, u, now)]
  }

  /** An IP seen for the first time gets the observation's vendor and
      identity, and an endpoint map holding at most the observed URL. */
  lemma StoreInCacheNewDevice(cfg: Config, s: Store, u: Device, now: nat)
    requires WritesCache(cfg) && cfg.tip !in s
    ensures var cd := StoreInCache(cfg, s, u, now)[cfg.tip];
      && cd.vendor == u.vendor
      && cd.identity == u.identity
      && cd.endpoints.Keys == (if u.controlUrl != "" then {u.controlUrl} else {})
  {
  }

  /** The touched endpoint of an existing device: re-stamped, and every
      field the observation leaves empty or nil keeps its stored value. */
  lemma StoreInCacheTouchedEndpoint(cfg: Config, s: Store, u: Device, now: nat)
    requires WritesCache(cfg) && u.controlUrl != ""
    ensures var ep := StoreInCache(cfg, s, u, now)[cfg.tip].endpoints[u.controlUrl];
      && ep.seenAt == now
      && ep.controlUrl == (if cfg.tip in s && u.controlUrl in s[cfg.tip].endpoints
                           then s[cfg.tip].endpoints[u.controlUrl].controlUrl else u.controlUrl)
      && (u.connMgrUrl == "" && cfg.tip in s && u.controlUrl in s[cfg.tip].endpoints
          ==> ep.connMgrUrl == s[cfg.tip].endpoints[u.controlUrl].connMgrUrl)
      && (u.actions.None? && cfg.tip in s && u.controlUrl in s[cfg.tip].endpoints
          ==> ep.actions == s[cfg.tip].endpoints[u.controlUrl].actions)
      && (u.actions.Some? ==> ep.actions == u.actions)
      && (u.media.Some? ==> ep.media == u.media)
  {
  }

  /** Merging the same observation twice equals merging it once at the
      later time: the merge is idempotent up to `SeenAt`. */
  lemma StoreInCacheIdempotent(cfg: Config, s: Store, u: Device, t1: nat, t2: nat)
    ensures StoreInCache(cfg, StoreInCache(cfg, s, u, t1), u, t2) == StoreInCache(cfg, s, u, t2)
  {
    if WritesCache(cfg) {
      var once := StoreInCache(cfg, s, u, t1);
      var a := once[cfg.tip];
      var b := StoreInCache(cfg, s, u, t2)[cfg.tip];
      var c := StoreInCache(cfg, once, u, t2)[cfg.tip];
      assert c.endpoints == b.endpoints;
      assert c == b;
    }
  }

  /** Vendor is first-known-wins: once non-empty it never changes. */
  lemma VendorFirstKnownWins(cfg: Config, s: Store, u: Device, now: nat)
    requires cfg.tip in s && s[cfg.tip].vendor != ""
    ensures StoreInCache(cfg, s, u, now)[cfg.tip].vendor == s[cfg.tip].vendor
  {
  }

  /** With no vendor known, "sony" followed by "lg" leaves "sony". */
  lemma VendorSonyThenLg(cfg: Config, s: Store, u1: Device, u2: Device, t1: nat, t2: nat)
    requires WritesCache(cfg)
    requires cfg.tip !in s || s[cfg.tip].vendor == ""
    requires u1.vendor == "sony" && u2.vendor == "lg"
    ensures StoreInCache(cfg, StoreInCache(cfg, s, u1, t1), u2, t2)[cfg.tip].vendor == "sony"
  {
    VendorFirstKnownWins(cfg, StoreInCache(cfg, s, u1, t1), u2, t2);
  }

  /** Every endpoint is stored under its own control URL. */
  predicate WellKeyed(s: Store) {
    forall ip, url :: ip in s && url in s[ip].endpoints ==> s[ip].endpoints[url].controlUrl == url
  }

  /** The merge keeps endpoints keyed by their control URL, so the same URL
      always lands in the same record. */
  lemma StoreInCacheWellKeyed(cfg: Config, s: Store, u: Device, now: nat)
    requires WellKeyed(s)
    ensures WellKeyed(StoreInCache(cfg, s, u, now))
  {
    var r := StoreInCache(cfg, s, u, now);
    forall ip, url | ip in r && url in r[ip].endpoints
      ensures r[ip].endpoints[url].controlUrl == url
    {
      if ip == cfg.tip && WritesCache(cfg) && url == u.controlUrl {
      } else if ip in s && url in s[ip].endpoints {
      }
    }
  }

  // ---------------------------------------------------------------------
  // Read path
  // ---------------------------------------------------------------------

  /** `sortedCache`: the store's IPs in ascending order. */
  function SortedCache(s: Store): (r: seq<string>)
    ensures |r| == |s.Keys|
    ensures forall ip :: ip in r <==> ip in s
    ensures StrictlySorted(r)
  {
    SortedKeys(s.Keys)
  }

  /** The endpoints with at least one known action: the playable ones. */
  function Playable(cd: CachedDevice): (r: set<string>)
    ensures forall u :: u in r <==> u in cd.endpoints && ActionCount(cd.endpoints[u].actions) > 0
  {
    set u | u in cd.endpoints && ActionCount(cd.endpoints[u].actions) > 0
  }

  /** The primary endpoint's URL: the least playable URL, if any. */
  function PrimaryUrl(cd: CachedDevice): (r: Option<string>)
    ensures r.None? <==> Playable(cd) == {}
    ensures r.Some? ==> IsLeast(r.value, Playable(cd))
  {
    var urls := SortedKeys(Playable(cd));
    if |urls| == 0 then None
    else
      SortedKeysHead(Playable(cd));
      Some(urls[0])
  }

  /** Go collects the playable URLs in map-iteration order and sorts them;
      whatever the order, the head is the same least URL. */
  lemma PrimaryIndependentOfOrder(cd: CachedDevice, urls: seq<string>)
    requires Distinct(urls)
    requires forall u :: u in urls <==> u in Playable(cd)
    requires |urls| > 0
    ensures PrimaryUrl(cd) == Some(SortStrings(urls)[0])
  {
    SortStringsIsSortedKeys(urls, Playable(cd));
  }

  /** The device handed back by the read path for the chosen endpoint. */
  function DeviceOf(cd: CachedDevice, ep: Endpoint): Device {
    Device(cd.vendor, ep.controlUrl, ep.connMgrUrl, cd.identity, ep.actions, ep.media)
  }

  datatype Selection = Selection(ip: string, device: Device)

  /** `selectFromCache`: the `index`-th IP in ascending order together with
      its primary endpoint; `None` for an index out of range or a device
      with no playable endpoint. */
  function SelectFromCache(s: Store, index: int): (r: Option<Selection>)
    ensures r.Some? <==> 0 <= index < |s.Keys| && Playable(s[SortedCache(s)[index]]) != {}
    ensures r.Some? ==>
      var cd := s[SortedCache(s)[index]];
      && r.value.ip == SortedCache(s)[index]
      && forall m :: IsLeast(m, Playable(cd)) ==> r.value.device == DeviceOf(cd, cd.endpoints[m])
  {
    var keys := SortedCache(s);
    if index < 0 || index >= |keys| then None
    else
      var ip := keys[index];
      var cd := s[ip];
      match PrimaryUrl(cd)
      case None => None
      case Some(url) =>
        LeastUnique(Playable(cd));
        Some(Selection(ip, DeviceOf(cd, cd.endpoints[url])))
  }

  /** In a well-keyed store the selected control URL is the least playable
      URL of the chosen device. */
  lemma SelectFromCachePicksLeast(s: Store, index: int)
    requires WellKeyed(s)
    requires SelectFromCache(s, index).Some?
    ensures var cd := s[SortedCache(s)[index]];
      IsLeast(SelectFromCache(s, index).value.device.controlUrl, Playable(cd))
  {
    var cd := s[SortedCache(s)[index]];
    LeastExists(Playable(cd));
    var m :| IsLeast(m, Playable(cd));
    assert cd.endpoints[m].controlUrl == m;
  }

  /** Of two endpoints, one with an empty actions map and one with some
      action, the second is the primary, whichever URL sorts first. */
  lemma PrimarySkipsUnplayable(vendor: string, identity: Option<Identity>, a: string, ea: Endpoint, b: string, eb: Endpoint)
    requires a != b
    requires ea.actions == Some(map[]) && ActionCount(eb.actions) > 0
    ensures PrimaryUrl(CachedDevice(vendor, identity, map[a := ea, b := eb])) == Some(b)
  {
    var cd := CachedDevice(vendor, identity, map[a := ea, b := eb]);
    assert Playable(cd) == {b};
    BelowReflexive(b);
    assert IsLeast(b, Playable(cd));
    LeastUnique(Playable(cd));
  }

  // ---------------------------------------------------------------------
  // Cache commands
  // ---------------------------------------------------------------------

  /** `handleForgetCache`, delete semantics: `target` is "all" or an IP,
      `confirmed` is the answer to the prompt (asked only when something
      would be deleted). */
  function ForgetCache(s: Store, target: string, confirmed: bool): (r: Store)
    ensures |s| == 0 ==> r == s
    ensures !confirmed ==> r == s
    ensures target !in s && target != "all" ==> r == s
    ensures |s| > 0 && confirmed && target == "all" ==> r == map[]
    ensures |s| > 0 && confirmed && target != "all" && target in s ==>
      r.Keys == s.Keys - {target} && forall ip :: ip in r ==> r[ip] == s[ip]
  {
    if |s| == 0 then s
    else if target == "all" then (if confirmed then map[] else s)
    else if target !in s then s
    else if !confirmed then s
    else s - {target}
  }

  /** Forgetting an IP affects no other IP, and forgetting twice is
      forgetting once. */
  lemma ForgetCacheIdempotent(s: Store, target: string)
    ensures ForgetCache(ForgetCache(s, target, true), target, true) == ForgetCache(s, target, true)
  {
  }

  /** `orNA`: "n/a" stands in for an empty value. */
  function OrNA(v: string): (r: string)
    ensures |r| > 0
    ensures v != "" ==> r == v
  {
    if v == "" then "n/a" else v
  }

  /** "n/a" and "..." as UTF-8 bytes. */
  const NotAvailable: seq<Byte> := [0x6E, 0x2F, 0x61]
  const Dots: seq<Byte> := [0x2E, 0x2E, 0x2E]

  /** `col(v, w)` (`w >= 3`, as at every call site): an empty value shows
      as "n/a". Go tests and cuts the UTF-8 value in bytes but pads it in
      characters: a value longer than `w` bytes keeps its first `w - 3`
      bytes, wherever that cut falls, followed by "..."; a shorter one is
      followed by one space per column it leaves free. */
  function Col(v: seq<Byte>, w: nat): (r: seq<Byte>)
    requires w >= 3
    ensures var x := if v == [] then NotAvailable else v;
      && (|x| > w ==> |r| == w && r == x[..w - 3] + Dots)
      && (|x| <= w ==>
            && RuneCount(x) <= w
            && |r| == |x| + (w - RuneCount(x))
            && r[..|x|] == x
            && forall i :: |x| <= i < |r| ==> r[i] == 0x20)
  {
    var x := if v == [] then NotAvailable else v;
    if |x| > w then x[..w - 3] + Dots
    else
      RuneCountAtMostLength(x);
      x + seq(w - RuneCount(x), _ => 0x20)
  }

  /** A value that fits in `w` bytes shows in exactly `w` columns. */
  lemma ColFillsWidth(v: seq<Byte>, w: nat)
    requires w >= 3
    requires |v| <= w
    ensures RuneCount(Col(v, w)) == w
  {
    var x := if v == [] then NotAvailable else v;
    var r := Col(v, w);
    var pad := r[|x|..];
    assert r == x + pad;
    AsciiRuneCount(pad);
    RuneCountAppend(x, pad);
  }

  /** An ASCII value always takes exactly `w` bytes and `w` columns. */
  lemma ColAscii(v: seq<Byte>, w: nat)
    requires w >= 3 && IsAscii(v)
    ensures |Col(v, w)| == w
    ensures RuneCount(Col(v, w)) == w
  {
    var x := if v == [] then NotAvailable else v;
    var r := Col(v, w);
    AsciiRuneCount(x);
    if |x| > w {
      AsciiRuneCount(x[..w - 3]);
      RuneCountAppend(x[..w - 3], Dots);
    } else {
      ColFillsWidth(v, w);
    }
  }

  /** Cutting in bytes can split a character: seven "é" (C3 A9) are 14
      bytes, so a 12-wide column keeps 9 bytes, the last of them the first
      half of the fifth "é". */
  lemma ColSplitsCharacter()
    ensures var v: seq<Byte> := [0xC3, 0xA9, 0xC3, 0xA9, 0xC3, 0xA9, 0xC3, 0xA9, 0xC3, 0xA9, 0xC3, 0xA9, 0xC3, 0xA9];
      Col(v, 12) == v[..9] + Dots && !AtBoundary(v, 9)
  {
  }

  /** `col` cutting only between characters: the cut moves back to the
      start of a character it would split. */
  function ColAtBoundary(v: seq<Byte>, w: nat): (r: seq<Byte>)
    requires w >= 3
    ensures var x := if v == [] then NotAvailable else v;
      && (|x| > w ==> exists k :: 0 <= k <= w - 3 && (k == 0 || AtBoundary(x, k)) && r == x[..k] + Dots)
      && (|x| <= w ==> r == Col(v, w))
  {
    var x := if v == [] then NotAvailable else v;
    if |x| > w then x[..BoundaryAtOrBefore(x, w - 3)] + Dots
    else Col(v, w)
  }

  /** On ASCII, where every position is a boundary, the two agree. */
  lemma ColAtBoundaryAgrees(v: seq<Byte>, w: nat)
    requires w >= 3 && IsAscii(v)
    ensures ColAtBoundary(v, w) == Col(v, w)
  {
  }

  /** And on seven "é" it keeps four whole characters. */
  lemma ColAtBoundaryKeepsCharacter()
    ensures var v: seq<Byte> := [0xC3, 0xA9, 0xC3, 0xA9, 0xC3, 0xA9, 0xC3, 0xA9, 0xC3, 0xA9, 0xC3, 0xA9, 0xC3, 0xA9];
      ColAtBoundary(v, 12) == v[..8] + Dots
  {
  }

  /** The media-type filter of the details view: "*" for "show all", nil
      for no filter, else the trimmed non-empty comma-separated entries. */
  function MediaFilter(cfg: Config): (r: Option<set<string>>)
    ensures cfg.showMediaAll ==> r == Some({"*"})
    ensures !cfg.showMediaAll && cfg.showMedia == "" ==> r.None?
    ensures !cfg.showMediaAll && cfg.showMedia != "" ==>
      && r.Some?
      && forall v :: v in r.value <==> v != "" && exists p :: p in Split(cfg.showMedia, ",") && v == TrimSpace(p)
  {
    if cfg.showMediaAll then Some({"*"})
    else if cfg.showMedia == "" then None
    else Some(set p | p in Split(cfg.showMedia, ",") && TrimSpace(p) != "" :: TrimSpace(p))
  }
}

=== FILE: cache_hit.dfy ===
/**
 * The cache hit of the endpoint-keyed generation (`avtransport.TryCache`):
 * the primary endpoint of the target IP, offered to the user, rewrites the
 * config so that playback talks to the cached URLs directly.
 *
 * The store is the loaded one; the answer to the prompt is `confirmed`.
 */
module CacheHit {
  import opened Wrappers
  import opened Models
  import opened StringOrder
  import opened DeviceCache
  import Utils

  /** The verdict, whether the user was asked, and the config after. */
  datatype Hit = Hit(ok: bool, asked: bool, cfg: Config)

  /** The config pointed at cached URLs: host, port and path cleared so the
      builder is bypassed, the vendor and both URLs taken from the cache. */
  function UseCached(cfg: Config, vendor: string, controlUrl: string, connMgrUrl: string): (r: Config)
    ensures r.tip == "" && r.tport == "" && r.tpath == ""
    ensures r.tvVendor == vendor && r.cachedControlUrl == controlUrl && r.cachedConnMgrUrl == connMgrUrl
    ensures r.(tip := cfg.tip, tport := cfg.tport, tpath := cfg.tpath, tvVendor := cfg.tvVendor,
               cachedControlUrl := cfg.cachedControlUrl, cachedConnMgrUrl := cfg.cachedConnMgrUrl) == cfg
  {
    cfg.(tvVendor := vendor, tpath := "", tport := "", tip := "",
         cachedControlUrl := controlUrl, cachedConnMgrUrl := connMgrUrl)
  }

  /** `TryCache`: needs a target IP, a cached device for it with at least
      one endpoint, and a playable endpoint; the user is asked only then. */
  function TryCache(cfg: Config, s: Store, confirmed: bool): (r: Hit)
    ensures !r.ok ==> r.cfg == cfg
    ensures r.asked <==> cfg.tip != "" && cfg.tip in s && Playable(s[cfg.tip]) != {}
    ensures r.ok <==> r.asked && confirmed
    ensures r.ok ==>
      var cd := s[cfg.tip];
      forall u :: IsLeast(u, Playable(cd)) ==>
        var ep := cd.endpoints[u];
        r.cfg == UseCached(cfg, cd.vendor, ep.controlUrl, ep.connMgrUrl)
  {
    if cfg.tip == "" then Hit(false, false, cfg)
    else if cfg.tip !in s || |s[cfg.tip].endpoints| == 0 then Hit(false, false, cfg)
    else
      var cd := s[cfg.tip];
      match PrimaryUrl(cd)
      case None => Hit(false, false, cfg)
      case Some(u) =>
        LeastUnique(Playable(cd));
        var ep := cd.endpoints[u];
        if !confirmed then Hit(false, true, cfg)
        else Hit(true, true, UseCached(cfg, cd.vendor, ep.controlUrl, ep.connMgrUrl))
  }

  /** Go gathers the playable URLs in map-iteration order and sorts them:
      whatever that order, the endpoint used is the head of the sorted list. */
  lemma TryCacheIndependentOfOrder(cfg: Config, s: Store, urls: seq<string>)
    requires cfg.tip in s
    requires Distinct(urls) && |urls| > 0
    requires forall u :: u in urls <==> u in Playable(s[cfg.tip])
    requires TryCache(cfg, s, true).ok
    ensures var cd := s[cfg.tip];
      var u := SortStrings(urls)[0];
      && u in cd.endpoints
      && TryCache(cfg, s, true).cfg
           == UseCached(cfg, cd.vendor, cd.endpoints[u].controlUrl, cd.endpoints[u].connMgrUrl)
  {
    var cd := s[cfg.tip];
    PrimaryIndependentOfOrder(cd, urls);
  }

  /** After a hit the URL builder yields "", so playback can only use the
      cached control URL; in a well-keyed store that URL is the primary's. */
  lemma TryCacheBypassesBuilder(cfg: Config, s: Store)
    requires WellKeyed(s)
    requires TryCache(cfg, s, true).ok
    ensures var r := TryCache(cfg, s, true).cfg;
      && Utils.ControlUrl(r) == ""
      && IsLeast(r.cachedControlUrl, Playable(s[cfg.tip]))
  {
    var cd := s[cfg.tip];
    LeastExists(Playable(cd));
    var m :| IsLeast(m, Playable(cd));
    assert cd.endpoints[m].controlUrl == m;
  }

  /** A device whose only endpoint has an empty actions map is never
      offered, even though it is cached. */
  lemma TryCacheNeedsActions(cfg: Config, s: Store, url: string, ep: Endpoint, confirmed: bool)
    requires cfg.tip != "" && cfg.tip in s
    requires s[cfg.tip].endpoints == map[url := ep] && ep.actions == Some(map[])
    ensures TryCache(cfg, s, confirmed) == Hit(false, false, cfg)
  {
    assert Playable(s[cfg.tip]) == {};
  }
}

=== FILE: discovery.dfy ===
/**
 * The discovery steps of the flat-cache generation (`tvctrl`
 * `avtransport/discovery_utils.go`): the SSDP hit that overrides the
 * config, the flat cache hit, and the update a probe hands to the cache.
 *
 * `cache.StoreInCache` of that generation is not part of this model, so
 * each step returns the update it passes to it. Network results are
 * parameters: the SSDP device lists, `fetch` for `ssdp.FetchAndDetect`,
 * `identify` for `identity.Enrich` (a function of the URL it is asked
 * about), `probe` for `Probe`, and the renderer's `Services` answering the
 * requests `EnrichCapabilities` and `ValidateActions` make.
 */
module Discovery {
  import opened Wrappers
  import opened Models
  import opened LegacyModels
  import opened DeviceCache
  import opened Ssdp
  import opened Soap
  import opened Scpd
  import opened MediaProtocols
  import opened Enrich
  import Utils
  import Probe

  // ---------------------------------------------------------------------
  // TryCache (flat store)
  // ---------------------------------------------------------------------

  datatype FlatHit = FlatHit(ok: bool, asked: bool, cfg: Config)

  /** The flat `TryCache`: any cached record for the target IP is offered,
      whatever it knows about actions. */
  function FlatTryCache(cfg: Config, s: FlatStore, confirmed: bool): (r: FlatHit)
    ensures !r.ok ==> r.cfg == cfg
    ensures r.asked <==> cfg.tip != "" && cfg.tip in s
    ensures r.ok <==> r.asked && confirmed
    ensures r.ok ==>
      var dev := s[cfg.tip];
      && r.cfg.tip == "" && r.cfg.tport == "" && r.cfg.tpath == ""
      && r.cfg.tvVendor == dev.vendor
      && r.cfg.cachedControlUrl == dev.controlUrl && r.cfg.cachedConnMgrUrl == dev.connMgrUrl
      && r.cfg.(tip := cfg.tip, tport := cfg.tport, tpath := cfg.tpath, tvVendor := cfg.tvVendor,
                cachedControlUrl := cfg.cachedControlUrl, cachedConnMgrUrl := cfg.cachedConnMgrUrl) == cfg
  {
    if cfg.tip == "" || cfg.tip !in s then FlatHit(false, false, cfg)
    else if !confirmed then FlatHit(false, true, cfg)
    else
      var dev := s[cfg.tip];
      FlatHit(true, true, cfg.(tvVendor := dev.vendor, tpath := "", tport := "", tip := "",
                               cachedControlUrl := dev.controlUrl, cachedConnMgrUrl := dev.connMgrUrl))
  }

  /** Unlike the endpoint-keyed cache, the flat hit accepts a record with
      no known action, and after it the URL builder yields "". */
  lemma FlatTryCacheIgnoresActions(cfg: Config, s: FlatStore)
    requires cfg.tip != "" && cfg.tip in s && s[cfg.tip].actions.None?
    ensures FlatTryCache(cfg, s, true).ok
    ensures Utils.ControlUrl(FlatTryCache(cfg, s, true).cfg) == ""
  {
  }

  // ---------------------------------------------------------------------
  // TrySSDP
  // ---------------------------------------------------------------------

  /** What `ssdp.FetchAndDetect` reports about the device description. */
  datatype Tv = Tv(ip: string, port: string, controlUrl: string, vendor: string,
                   connMgrCtrl: string, avTransportScpd: string)

  /** A discovered value, when there is one. */
  function NonEmptyOr(v: string, current: string): string {
    if v != "" then v else current
  }

  /** The config after discovery: each of host, port, path, vendor and
      connection-manager URL is taken from the device only when the device
      reported one. */
  function Override(cfg: Config, tv: Tv): (r: Config)
    ensures r.tip == (if tv.ip != "" then tv.ip else cfg.tip)
    ensures r.tport == (if tv.port != "" then tv.port else cfg.tport)
    ensures r.tpath == (if tv.controlUrl != "" then tv.controlUrl else cfg.tpath)
    ensures r.tvVendor == (if tv.vendor != "" then tv.vendor else cfg.tvVendor)
    ensures r.cachedConnMgrUrl == (if tv.connMgrCtrl != "" then tv.connMgrCtrl else cfg.cachedConnMgrUrl)
    ensures r.(tip := cfg.tip, tport := cfg.tport, tpath := cfg.tpath, tvVendor := cfg.tvVendor,
               cachedConnMgrUrl := cfg.cachedConnMgrUrl) == cfg
  {
    cfg.(tip := NonEmptyOr(tv.ip, cfg.tip), tport := NonEmptyOr(tv.port, cfg.tport),
         tpath := NonEmptyOr(tv.controlUrl, cfg.tpath), tvVendor := NonEmptyOr(tv.vendor, cfg.tvVendor),
         cachedConnMgrUrl := NonEmptyOr(tv.connMgrCtrl, cfg.cachedConnMgrUrl))
  }

  /** Overriding twice with the same report changes nothing more, and an
      empty report changes nothing at all. */
  lemma OverrideIdempotent(cfg: Config, tv: Tv)
    ensures Override(Override(cfg, tv), tv) == Override(cfg, tv)
    ensures tv == Tv("", "", "", "", "", "") ==> Override(cfg, tv) == cfg
  {
  }

  /** What the renderer answers during enrichment: `describe` is the
      decoded service description at a URL (its action names, or the
      error), `sink` the decoded Sink of the ConnectionManager at a control
      URL, and `send` the transport the SOAP action probes go through. */
  datatype Services = Services(
    describe: string -> Result<seq<string>, string>,
    sink: string -> Result<string, string>,
    send: HttpRequest -> HttpOutcome)

  /** `EnrichCapabilities(tv.AVTransportSCPD, tv.ConnectionManagerCtrl,
      Target{ControlURL: controlUrl})`: it fails exactly when the service
      description does; otherwise the declared actions and the seven safe
      ones are known, each safe one with its probe outcome at `controlUrl`,
      and the media map is the parsed Sink, or empty when that failed. */
  function EnrichDevice(tv: Tv, controlUrl: string, svc: Services): (r: Result<Capabilities, string>)
    ensures r.Failure? <==> svc.describe(tv.avTransportScpd).Failure?
    ensures r.Failure? ==> r.error == svc.describe(tv.avTransportScpd).error
    ensures r.Success? ==>
      && (forall a :: a in r.value.actions <==> a in svc.describe(tv.avTransportScpd).value || a in SafeActions)
      && (forall a :: a in SafeActions ==> r.value.actions[a] == SoapProbe(controlUrl, ActionBody(a), svc.send))
      && r.value.media == (if svc.sink(tv.connMgrCtrl).Success? then ParseSink(svc.sink(tv.connMgrCtrl).value) else map[])
  {
    var scpd := svc.describe(tv.avTransportScpd);
    var validated := ValidateActions(controlUrl, svc.send);
    var r := EnrichCapabilities(scpd, validated, svc.sink(tv.connMgrCtrl));
    if scpd.Success? then
      EnrichWithValidation(scpd.value, validated, svc.sink(tv.connMgrCtrl), r);
      r
    else r
  }

  datatype SsdpHit = SsdpHit(ok: bool, fetched: Option<string>, cfg: Config, update: Option<Device>)

  /** The devices TrySSDP works from: the NOTIFY listeners, or, only when
      listening heard none, the active search. */
  function Heard(notify: seq<SsdpDevice>, discovered: seq<SsdpDevice>): seq<SsdpDevice> {
    if |notify| == 0 then discovered else notify
  }

  /** `TrySSDP`. Enrichment runs against the control URL built from the
      overridden config; the `err` checked below it is the identity error,
      which replaced the enrichment error, so a failed identity lookup also
      drops the capabilities. */
  function TrySsdp(
    cfg: Config, notify: seq<SsdpDevice>, discovered: seq<SsdpDevice>,
    fetch: string -> Result<Tv, string>, svc: Services,
    identify: string -> Result<Identity, string>): (r: SsdpHit)
    ensures r.ok <==> |Heard(notify, discovered)| > 0 && fetch(Heard(notify, discovered)[0].location).Success?
    ensures r.fetched.Some? <==> |Heard(notify, discovered)| > 0
    ensures r.fetched.Some? ==> r.fetched.value == Heard(notify, discovered)[0].location
    ensures !r.ok ==> r.cfg == cfg && r.update.None?
    ensures r.ok ==>
      var tv := fetch(r.fetched.value).value;
      && r.cfg == Override(cfg, tv)
      && r.update.Some?
      && r.update.value.controlUrl == Utils.ControlUrl(r.cfg)
      && r.update.value.vendor == tv.vendor && r.update.value.connMgrUrl == tv.connMgrCtrl
  {
    var devices := Heard(notify, discovered);
    if |devices| == 0 then SsdpHit(false, None, cfg, None)
    else
      var location := devices[0].location;
      match fetch(location)
      case Failure(_) => SsdpHit(false, Some(location), cfg, None)
      case Success(tv) =>
        var cfg' := Override(cfg, tv);
        var caps := EnrichDevice(tv, Utils.ControlUrl(cfg'), svc);
        var info := identify(Utils.BaseUrl(cfg'));
        var base := Device(tv.vendor, Utils.ControlUrl(cfg'), tv.connMgrCtrl, None, None, None);
        var withIdentity := if info.Success? then base.(identity := Some(info.value)) else base;
        var update :=
          if info.Success? && caps.Success? then withIdentity.(actions := Some(caps.value.actions), media := Some(caps.value.media))
          else withIdentity;
        SsdpHit(true, Some(location), cfg', Some(update))
  }

  /** The update carries an identity exactly when the renderer's base URL,
      after the override, answered the identity lookup; it carries
      capabilities exactly when, in addition, the device's service
      description could be read, and then they include the seven safe
      actions validated at the update's control URL. */
  lemma TrySsdpUpdate(
    cfg: Config, notify: seq<SsdpDevice>, discovered: seq<SsdpDevice>,
    fetch: string -> Result<Tv, string>, svc: Services,
    identify: string -> Result<Identity, string>)
    requires TrySsdp(cfg, notify, discovered, fetch, svc, identify).ok
    ensures var r := TrySsdp(cfg, notify, discovered, fetch, svc, identify);
      var tv := fetch(r.fetched.value).value;
      var info := identify(Utils.BaseUrl(r.cfg));
      var caps := EnrichDevice(tv, Utils.ControlUrl(r.cfg), svc);
      var u := r.update.value;
      && (u.identity.Some? <==> info.Success?)
      && (info.Success? ==> u.identity.value == info.value)
      && (u.actions.Some? <==> info.Success? && svc.describe(tv.avTransportScpd).Success?)
      && (u.media.Some? <==> u.actions.Some?)
      && (u.actions.Some? ==> u.actions.value == caps.value.actions && u.media.value == caps.value.media)
      && (u.actions.Some? ==> forall a :: a in SafeActions ==>
            a in u.actions.value && u.actions.value[a] == SoapProbe(u.controlUrl, ActionBody(a), svc.send))
  {
  }

  /** The active search matters only when listening heard nothing. */
  lemma TrySsdpPrefersNotify(
    cfg: Config, notify: seq<SsdpDevice>, d1: seq<SsdpDevice>, d2: seq<SsdpDevice>,
    fetch: string -> Result<Tv, string>, svc: Services,
    identify: string -> Result<Identity, string>)
    requires |notify| > 0
    ensures TrySsdp(cfg, notify, d1, fetch, svc, identify) == TrySsdp(cfg, notify, d2, fetch, svc, identify)
  {
  }

  /** A failed identity lookup drops the capabilities even when enrichment
      succeeded: whatever the renderer's services answer, the update is the
      same and carries no actions and no media. */
  lemma IdentityFailureDropsCapabilities(
    cfg: Config, notify: seq<SsdpDevice>, discovered: seq<SsdpDevice>,
    fetch: string -> Result<Tv, string>, svc1: Services, svc2: Services,
    identify: string -> Result<Identity, string>)
    requires TrySsdp(cfg, notify, discovered, fetch, svc1, identify).ok
    requires identify(Utils.BaseUrl(TrySsdp(cfg, notify, discovered, fetch, svc1, identify).cfg)).Failure?
    ensures TrySsdp(cfg, notify, discovered, fetch, svc1, identify)
         == TrySsdp(cfg, notify, discovered, fetch, svc2, identify)
    ensures TrySsdp(cfg, notify, discovered, fetch, svc1, identify).update.value.actions.None?
    ensures TrySsdp(cfg, notify, discovered, fetch, svc1, identify).update.value.media.None?
  {
  }

  /** When the device reports host, port and an absolute control path, the
      update's control URL is exactly that endpoint. */
  lemma TrySsdpControlUrl(
    cfg: Config, notify: seq<SsdpDevice>, discovered: seq<SsdpDevice>,
    fetch: string -> Result<Tv, string>, svc: Services,
    identify: string -> Result<Identity, string>)
    requires TrySsdp(cfg, notify, discovered, fetch, svc, identify).ok
    requires var r := TrySsdp(cfg, notify, discovered, fetch, svc, identify);
      var tv := fetch(r.fetched.value).value;
      tv.ip != "" && tv.port != "" && |tv.controlUrl| > 0 && tv.controlUrl[0] == '/'
    ensures var r := TrySsdp(cfg, notify, discovered, fetch, svc, identify);
      var tv := fetch(r.fetched.value).value;
      r.update.value.controlUrl == "http://" + tv.ip + ":" + tv.port + tv.controlUrl
  {
  }

  // ---------------------------------------------------------------------
  // probeAVTransport
  // ---------------------------------------------------------------------

  datatype ProbeStep = ProbeStep(ok: bool, err: Option<string>, cfg: Config, update: Option<Device>)

  /** `probeAVTransport` of this generation: `probe` is the control URL
      `Probe` found (or its error), the safe actions are validated at that
      URL through `send`, and the identity is asked of "http://" + the
      target IP. */
  function FlatProbeAvTransport(
    cfg: Config, probe: Result<string, string>, send: HttpRequest -> HttpOutcome,
    identify: string -> Result<Identity, string>): (r: ProbeStep)
    ensures r.ok <==> cfg.tip != "" && probe.Success?
    ensures r.err.Some? <==> !r.ok
    ensures cfg.tip == "" ==> r.err == Some("probe requires -Tip")
    ensures cfg.tip != "" && probe.Failure? ==> r.err == Some(probe.error)
    ensures !r.ok ==> r.cfg == cfg && r.update.None?
    ensures r.ok ==> r.cfg == cfg.(cachedControlUrl := probe.value) && r.update.Some?
    ensures r.ok ==> r.update.value.controlUrl == probe.value && r.update.value.vendor == cfg.tvVendor
    ensures r.ok ==> r.update.value.actions == Some(ValidateActions(probe.value, send))
  {
    if cfg.tip == "" then ProbeStep(false, Some("probe requires -Tip"), cfg, None)
    else
      match probe
      case Failure(e) => ProbeStep(false, Some(e), cfg, None)
      case Success(url) =>
        var observed := ValidateActions(url, send);
        var cfg' := cfg.(cachedControlUrl := url);
        var info := identify("http://" + cfg.tip);
        var base := Device(cfg.tvVendor, url, "", None, None, None);
        var withIdentity := if info.Success? then base.(identity := Some(info.value)) else base;
        var update := if |observed| > 0 then withIdentity.(actions := Some(observed)) else withIdentity;
        ProbeStep(true, None, cfg', Some(update))
  }

  /** Both generations build the same update for the same probe result:
      the found URL, the configured vendor, the identity when fetched, and
      the validated actions. */
  lemma FlatProbeAgreesWithProbe(
    cfg: Config, url: string, send: HttpRequest -> HttpOutcome,
    identify: string -> Result<Identity, string>)
    requires cfg.tip != ""
    ensures FlatProbeAvTransport(cfg, Success(url), send, identify).update
      == Some(Probe.ProbeUpdate(cfg, url, identify("http://" + cfg.tip), ValidateActions(url, send)))
  {
  }

  /** A probed update always carries the seven safe actions and nothing
      else, each with whether the found endpoint answered it; a renderer
      that answers none of them still gets all seven, as false. */
  lemma FlatProbeValidatesSafeActions(
    cfg: Config, url: string, send: HttpRequest -> HttpOutcome,
    identify: string -> Result<Identity, string>)
    requires cfg.tip != ""
    ensures var u := FlatProbeAvTransport(cfg, Success(url), send, identify).update.value;
      && u.actions.Some?
      && (forall a :: a in u.actions.value <==> a in SafeActions)
      && (forall a :: a in SafeActions ==> u.actions.value[a] == SoapProbe(url, ActionBody(a), send))
    ensures var u := FlatProbeAvTransport(cfg, Success(url), _ => TransportError, identify).update.value;
      |u.actions.value| == 7 && forall a :: a in u.actions.value ==> !u.actions.value[a]
  {
    ValidateActionsAllFail(url);
  }
}

=== FILE: draw.dfy ===
/**
 * `clipText` of the interactive front end (`internal/ui/draw.go`): cutting
 * a value to the width of its column. Go measures and slices strings in
 * bytes of UTF-8, so the model works on byte sequences; the ellipsis "…"
 * is the three bytes E2 80 A6.
 */
module UiDraw {
  import opened Text

  const Ellipsis: seq<Byte> := [0xE2, 0x80, 0xA6]

  /** `clipText`: a value that fits is kept; otherwise it is cut to `max`
      bytes, or, when there is room, to `max - 1` bytes and an ellipsis.
      A negative width makes Go's slice panic, so it is excluded. */
  function ClipText(s: seq<Byte>, max: int): (r: seq<Byte>)
    requires max >= 0
    ensures |s| <= max ==> r == s
    ensures |s| > max ==> |r| == (if max <= 1 then max else max + 2)
    ensures |s| > max && max > 1 ==> r[|r| - 3..] == Ellipsis
  {
    if |s| <= max then s
    else if max <= 1 then s[..max]
    else s[..max - 1] + Ellipsis
  }

  /** The result is a prefix of the value, possibly followed by an
      ellipsis, and at most two bytes longer than the value. */
  lemma ClipIsPrefix(s: seq<Byte>, max: int)
    requires max >= 0
    ensures var r := ClipText(s, max);
      exists k :: 0 <= k <= |s| && (r == s[..k] || r == s[..k] + Ellipsis)
    ensures |ClipText(s, max)| <= |s| + 2
  {
    var r := ClipText(s, max);
    if |s| <= max {
      assert r == s[..|s|];
    } else if max <= 1 {
      assert r == s[..max];
    } else {
      assert r == s[..max - 1] + Ellipsis;
    }
  }

  /** Clipping twice is clipping once. */
  lemma ClipIdempotent(s: seq<Byte>, max: int)
    requires max >= 0
    ensures ClipText(ClipText(s, max), max) == ClipText(s, max)
  {
    var r := ClipText(s, max);
    if |s| > max > 1 {
      assert r[..max - 1] == s[..max - 1];
    }
  }

  // ---------------------------------------------------------------------
  // Width on screen
  // ---------------------------------------------------------------------

  /** A UTF-8 continuation byte (10xxxxxx) never starts a character. */
  predicate IsContinuation(b: Byte) {
    0x80 <= b < 0xC0
  }

  /** The characters a well-formed UTF-8 byte string shows as: one per
      byte that is not a continuation byte. On malformed input Go's range
      loop yields one U+FFFD per invalid byte, which this count does not
      follow (a stray continuation byte counts 0 here, 1 there). */
  function RuneCount(s: seq<Byte>): nat {
    if |s| == 0 then 0
    else (if IsContinuation(s[0]) then 0 else 1) + RuneCount(s[1..])
  }

  lemma {:induction false} RuneCountAppend(a: seq<Byte>, b: seq<Byte>)
    ensures RuneCount(a + b) == RuneCount(a) + RuneCount(b)
  {
    if |a| == 0 {
      assert a + b == b;
    } else {
      assert (a + b)[1..] == a[1..] + b;
      RuneCountAppend(a[1..], b);
    }
  }

  /** A byte string never shows in more characters than it has bytes. */
  lemma {:induction false} RuneCountAtMostLength(s: seq<Byte>)
    ensures RuneCount(s) <= |s|
  {
    if |s| > 0 {
      RuneCountAtMostLength(s[1..]);
    }
  }

  predicate IsAscii(s: seq<Byte>) {
    forall i :: 0 <= i < |s| ==> s[i] < 0x80
  }

  lemma {:induction false} AsciiRuneCount(s: seq<Byte>)
    requires IsAscii(s)
    ensures RuneCount(s) == |s|
  {
    if |s| > 0 {
      AsciiRuneCount(s[1..]);
    }
  }

  /** An ASCII value shows, once clipped, in exactly as many columns as
      fit: its own width or `max`, whichever is smaller. */
  lemma ClipFitsColumn(s: seq<Byte>, max: int)
    requires max >= 0 && IsAscii(s)
    ensures RuneCount(ClipText(s, max)) == if |s| <= max then |s| else max
  {
    if |s| <= max {
      AsciiRuneCount(s);
    } else if max <= 1 {
      AsciiRuneCount(s[..max]);
    } else {
      AsciiRuneCount(s[..max - 1]);
      RuneCountAppend(s[..max - 1], Ellipsis);
      assert RuneCount(Ellipsis) == 1;
    }
  }

  // ---------------------------------------------------------------------
  // Cutting inside a character
  // ---------------------------------------------------------------------

  /** Position `k` is between two characters of `s`. */
  predicate AtBoundary(s: seq<Byte>, k: nat)
    requires k <= |s|
  {
    k == |s| || !IsContinuation(s[k])
  }

  /** Byte slicing can cut a character in two: "ééé" (C3 A9 three times)
      clipped to 4 keeps the first byte of the second "é" before the
      ellipsis. */
  lemma ClipSplitsCharacter()
    ensures var s: seq<Byte> := [0xC3, 0xA9, 0xC3, 0xA9, 0xC3, 0xA9];
      ClipText(s, 4) == s[..3] + Ellipsis && !AtBoundary(s, 3)
  {
  }

  /** The last boundary at or before `k`, or 0. */
  function BoundaryAtOrBefore(s: seq<Byte>, k: nat): (r: nat)
    requires k <= |s|
    ensures r <= k
    ensures r == 0 || AtBoundary(s, r)
    ensures forall j :: r < j <= k ==> !AtBoundary(s, j)
    decreases k
  {
    if k == 0 || AtBoundary(s, k) then k else BoundaryAtOrBefore(s, k - 1)
  }

  /** `clipText` cutting only between characters: the cut moves back to
      the start of a character it would split. */
  function ClipTextAtBoundary(s: seq<Byte>, max: int): (r: seq<Byte>)
    requires max >= 0
    ensures |s| <= max ==> r == s
    ensures |s| > max ==>
      exists k :: 0 <= k <= max && (k == 0 || AtBoundary(s, k)) && (r == s[..k] || r == s[..k] + Ellipsis)
    ensures |r| <= (if max <= 1 then max else max + 2)
  {
    if |s| <= max then s
    else if max <= 1 then
      var k := BoundaryAtOrBefore(s, max);
      s[..k]
    else
      var k := BoundaryAtOrBefore(s, max - 1);
      s[..k] + Ellipsis
  }

  /** On ASCII, where every position is a boundary, the two agree. */
  lemma ClipAtBoundaryAgrees(s: seq<Byte>, max: int)
    requires max >= 0 && IsAscii(s)
    ensures ClipTextAtBoundary(s, max) == ClipText(s, max)
  {
  }

  /** And on the value above it keeps the whole first "é". */
  lemma ClipAtBoundaryKeepsCharacter()
    ensures var s: seq<Byte> := [0xC3, 0xA9, 0xC3, 0xA9, 0xC3, 0xA9];
      ClipTextAtBoundary(s, 4) == s[..2] + Ellipsis
  {
    var s: seq<Byte> := [0xC3, 0xA9, 0xC3, 0xA9, 0xC3, 0xA9];
    assert !AtBoundary(s, 3) && AtBoundary(s, 2);
  }
}

=== FILE: enrich.dfy ===
/**
 * Capability enrichment (`enrich.go`): declared actions from the service
 * description, overridden by the validated safe actions, plus the media
 * protocols of the ConnectionManager.
 */
module Enrich {
  import opened Wrappers
  import opened Models
  import opened Soap
  import opened Scpd
  import opened MediaProtocols

  datatype Capabilities = Capabilities(actions: Actions, media: Media)

  /** The action map of a successful enrichment: declared actions, with the
      validated ones laid over them. */
  function OverlayActions(declared: Actions, validated: Actions): (r: Actions)
    ensures r.Keys == declared.Keys + validated.Keys
    ensures forall a :: a in validated ==> r[a] == validated[a]
    ensures forall a :: a in declared && a !in validated ==> r[a] == declared[a]
  {
    declared + validated
  }

  /** `EnrichCapabilities(avScpdURL, connMgrControlURL, target)` in the
      order the calls happen: `scpd` is what the description fetch decoded,
      `validated` is what `ValidateActions(target)` then returned, `sink` is
      the ConnectionManager's decoded Sink. */
  function EnrichCapabilities(
    scpd: Result<seq<string>, string>,
    validated: Actions,
    sink: Result<string, string>
  ): (r: Result<Capabilities, string>)
    ensures scpd.Failure? <==> r.Failure?
    ensures scpd.Failure? ==> r.error == scpd.error
    ensures r.Success? ==>
      && r.value.actions == OverlayActions(FetchActions(scpd).value, validated)
      && r.value.media == (if sink.Success? then ParseSink(sink.value) else map[])
  {
    match FetchActions(scpd)
    case Failure(e) => Failure(e)
    case Success(declared) =>
      var media := match FetchMediaProtocols(sink)
        case Success(m) => m
        case Failure(_) => map[];
      Success(Capabilities(OverlayActions(declared, validated), media))
  }

  /** A description failure aborts enrichment before the ConnectionManager
      is asked: the outcome does not depend on the Sink at all. */
  lemma ScpdFailureIgnoresProtocolInfo(
    e: string, validated: Actions, sink1: Result<string, string>, sink2: Result<string, string>)
    ensures EnrichCapabilities(Failure(e), validated, sink1)
         == EnrichCapabilities(Failure(e), validated, sink2)
         == Failure(e)
  {
  }

  /** A ConnectionManager failure is not an error: the media map is empty. */
  lemma ProtocolInfoFailureGivesEmptyMedia(names: seq<string>, validated: Actions, e: string)
    ensures var r := EnrichCapabilities(Success(names), validated, Failure(e));
      r.Success? && r.value.media == map[]
  {
  }

  /** With real validation (whose keys are exactly the seven safe
      actions, as `ValidateActions` guarantees): the result knows every
      declared action and the seven safe ones; a safe action carries its
      probe outcome, so one the endpoint does not answer ends up false even
      when declared, and declared-only actions stay true. */
  lemma EnrichWithValidation(
    names: seq<string>, validated: Actions, sink: Result<string, string>, r: Result<Capabilities, string>)
    requires forall a :: a in validated <==> a in SafeActions
    requires r == EnrichCapabilities(Success(names), validated, sink)
    ensures r.Success?
    ensures forall a :: a in r.value.actions <==> a in names || a in SafeActions
    ensures forall a :: a in SafeActions ==> r.value.actions[a] == validated[a]
    ensures forall a :: a in names && a !in SafeActions ==> r.value.actions[a]
    ensures |r.value.actions| > 0
  {
    assert SafeActions[0] in r.value.actions;
    NonEmptyMap(r.value.actions, SafeActions[0]);
  }
}

=== FILE: flags.dfy ===
/**
 * The command-line consistency check (`badFlagUse` in `cmd/flags.go`) and
 * the defaults it compares against (`models.DefaultConfig`).
 */
module Flags {
  import opened Wrappers
  import opened Models

  /** What `badFlagUse` returns: whether the flags are rejected, and why. */
  datatype Verdict = Verdict(bad: bool, msg: string)

  const ScanProbeOnlyMessage: string := "flag --probe-only is not supported in scan mode"
  const ScanTargetMessage: string := "scan mode requires a target IP or subnet when SSDP discovery is disabled"
  const ListDetailsMessage: string := "flags --list-cache and --details-cache cannot be used together"
  const SelectOverrideMessage: string := "cannot override TV connection parameters when a cached target is selected"
  const TimeoutMessage: string := "flag --ssdp-timeout requires SSDP discovery to be enabled (--ssdp)"

  /** `badFlagUse`: the checks in their written order; the first that
      fails decides. The mode is compared exactly, without trimming or
      case folding. */
  function BadFlagUse(cfg: Config): (r: Verdict)
    ensures !r.bad ==> r.msg == ""
    ensures r.bad ==> r.msg in {ScanProbeOnlyMessage, ScanTargetMessage, ListDetailsMessage,
                                SelectOverrideMessage, TimeoutMessage}
  {
    var def := DefaultConfig;
    if cfg.mode == "scan" && cfg.probeOnly then Verdict(true, ScanProbeOnlyMessage)
    else if cfg.mode == "scan" && !cfg.discover && cfg.tip == "" && cfg.subnet == "" then
      Verdict(true, ScanTargetMessage)
    else if cfg.listCache && cfg.cacheDetails >= 0 then Verdict(true, ListDetailsMessage)
    else if cfg.selectCache != def.selectCache &&
            (cfg.tip != def.tip || cfg.tport != def.tport || cfg.tpath != def.tpath || cfg.tvVendor != def.tvVendor) then
      Verdict(true, SelectOverrideMessage)
    else if !cfg.discover && cfg.ssdpTimeout != def.ssdpTimeout then Verdict(true, TimeoutMessage)
    else Verdict(false, "")
  }

  // ---------------------------------------------------------------------
  // The same check as a table of rules
  // ---------------------------------------------------------------------

  /** One restriction: when it is violated, and what the user is told. */
  datatype Rule = Rule(violated: Config -> bool, msg: string)

  /** The restrictions as the help text states them, one per flag
      combination, in the order they are checked. */
  const Rules: seq<Rule> := [
    Rule((c: Config) => c.mode == "scan" && c.probeOnly, ScanProbeOnlyMessage),
    Rule((c: Config) => c.mode == "scan" && !c.discover && c.tip == "" && c.subnet == "", ScanTargetMessage),
    Rule((c: Config) => c.listCache && c.cacheDetails >= 0, ListDetailsMessage),
    Rule((c: Config) => c.selectCache != -1 && (c.tip != "" || c.tport != "" || c.tpath != "" || c.tvVendor != ""),
         SelectOverrideMessage),
    Rule((c: Config) => !c.discover && c.ssdpTimeout != 60 * Second, TimeoutMessage)
  ]

  /** The index of the first rule `cfg` violates. */
  function FirstViolated(rules: seq<Rule>, cfg: Config): (r: Option<nat>)
    ensures r.Some? ==> r.value < |rules| && rules[r.value].violated(cfg)
    ensures r.Some? ==> forall j :: 0 <= j < r.value ==> !rules[j].violated(cfg)
    ensures r.None? ==> forall j :: 0 <= j < |rules| ==> !rules[j].violated(cfg)
  {
    if |rules| == 0 then None
    else if rules[0].violated(cfg) then Some(0)
    else
      match FirstViolated(rules[1..], cfg)
      case None => None
      case Some(i) => Some(i + 1)
  }

  /** `badFlagUse` rejects exactly the configurations that violate some
      rule, with the message of the first rule violated, and otherwise
      answers (false, ""). */
  lemma BadFlagUseFirstRule(cfg: Config, f: Option<nat>)
    requires f == FirstViolated(Rules, cfg)
    ensures f.Some? ==> BadFlagUse(cfg) == Verdict(true, Rules[f.value].msg)
    ensures f.None? ==> BadFlagUse(cfg) == Verdict(false, "")
  {
    if f.None? {
      assert forall j :: 0 <= j < 5 ==> !Rules[j].violated(cfg);
      assert !Rules[0].violated(cfg) && !Rules[1].violated(cfg) && !Rules[2].violated(cfg);
      assert !Rules[3].violated(cfg) && !Rules[4].violated(cfg);
    } else {
      var i := f.value;
      assert Rules[i].violated(cfg);
      assert forall j :: 0 <= j < i ==> !Rules[j].violated(cfg);
      if i == 0 {
      } else if i == 1 {
        assert !Rules[0].violated(cfg);
      } else if i == 2 {
        assert !Rules[0].violated(cfg) && !Rules[1].violated(cfg);
      } else if i == 3 {
        assert !Rules[0].violated(cfg) && !Rules[1].violated(cfg) && !Rules[2].violated(cfg);
      } else {
        assert !Rules[0].violated(cfg) && !Rules[1].violated(cfg) && !Rules[2].violated(cfg);
        assert !Rules[3].violated(cfg);
      }
    }
  }

  /** `DefaultConfig` passes every check. */
  lemma DefaultConfigAccepted()
    ensures BadFlagUse(DefaultConfig) == Verdict(false, "")
    ensures FirstViolated(Rules, DefaultConfig).None?
  {
    BadFlagUseFirstRule(DefaultConfig, FirstViolated(Rules, DefaultConfig));
  }

  /** A cached-target selection with an explicit TV IP is refused, unless
      an earlier scan or cache-listing check already refused the flags. */
  lemma SelectWithTipRefused(cfg: Config)
    requires cfg.selectCache != -1 && cfg.tip != ""
    requires cfg.mode != "scan" && !(cfg.listCache && cfg.cacheDetails >= 0)
    ensures BadFlagUse(cfg) == Verdict(true, SelectOverrideMessage)
  {
  }

  /** The mode test is exact: "SCAN" with `--probe-only` is not a scan and
      passes the first two checks. */
  lemma UpperCaseScanNotChecked(cfg: Config)
    requires cfg.mode == "SCAN" && cfg.probeOnly && !cfg.listCache
    requires cfg.selectCache == -1 && cfg.discover
    ensures BadFlagUse(cfg) == Verdict(false, "")
  {
  }

  /** The defaults the checks compare against, and those of the flags
      registered without a configuration default. */
  lemma Defaults()
    ensures DefaultConfig.selectCache == -1 && DefaultConfig.cacheDetails == -1
    ensures DefaultConfig.useCache && !DefaultConfig.autoCache
    ensures !DefaultConfig.discover && DefaultConfig.ssdpTimeout == 60_000_000_000
    ensures DefaultConfig.mode == "auto" && DefaultConfig.servePort == "8000" && DefaultConfig.ldir == "./directory"
    ensures DefaultConfig.tip == "" && DefaultConfig.tport == "" && DefaultConfig.tpath == "" && DefaultConfig.tvVendor == ""
  {
  }
}

=== FILE: legacy_cache.dfy ===
/**
 * The older flat device cache (`internal/edit_cache.go`): one record per
 * IP, first-known-wins scalars, key-wise action union, and a confirmation
 * prompt whose answer is the parameter `confirmed`.
 */
module LegacyCache {
  import opened Wrappers
  import opened Models
  import opened LegacyModels
  import opened StringOrder

  /** The stored record for `ip`, or the zero record (Go's map index). */
  function Lookup(s: FlatStore, ip: string): FlatDevice {
    if ip in s then s[ip] else ZeroFlatDevice
  }

  /** The prompt is shown only when auto-caching is off and no control URL
      is stored yet for the IP. */
  predicate AsksConfirmation(cfg: LegacyConfig, s: FlatStore) {
    !cfg.autoCache && Lookup(s, cfg.tip).controlUrl == ""
  }

  /** Key-wise union of action maps: incoming values win on shared keys. */
  function MergeActions(stored: Option<Actions>, incoming: Actions): (r: Actions)
    ensures r.Keys == incoming.Keys + (if stored.Some? then stored.value.Keys else {})
    ensures forall k :: k in incoming ==> r[k] == incoming[k]
    ensures stored.Some? ==> forall k :: k in stored.value && k !in incoming ==> r[k] == stored.value[k]
  {
    stored.GetOr(map[]) + incoming
  }

  /** The record after merging `u` into `dev`. */
  function MergeFlat(dev: FlatDevice, u: FlatDevice): (r: FlatDevice)
    ensures r.controlUrl == (if dev.controlUrl != "" then dev.controlUrl else u.controlUrl)
    ensures r.vendor == (if dev.vendor != "" then dev.vendor else u.vendor)
    ensures r.connMgrUrl == dev.connMgrUrl
    ensures r.identity == (if u.identity.Some? then u.identity else dev.identity)
    ensures r.media == (if u.media.Some? then u.media else dev.media)
    ensures u.actions.None? ==> r.actions == dev.actions
    ensures u.actions.Some? ==> r.actions == Some(MergeActions(dev.actions, u.actions.value))
  {
    FlatDevice(
      if dev.vendor == "" && u.vendor != "" then u.vendor else dev.vendor,
      if dev.controlUrl == "" && u.controlUrl != "" then u.controlUrl else dev.controlUrl,
      dev.connMgrUrl,
      if u.identity.Some? then u.identity else dev.identity,
      if u.actions.Some? then Some(MergeActions(dev.actions, u.actions.value)) else dev.actions,
      if u.media.Some? then u.media else dev.media)
  }

  /** Legacy `storeInCache`. */
  function LegacyStoreInCache(cfg: LegacyConfig, s: FlatStore, u: FlatDevice, confirmed: bool): (r: FlatStore)
    ensures !cfg.useCache || cfg.selectCache != -1 ==> r == s
    ensures AsksConfirmation(cfg, s) && !confirmed ==> r == s
    ensures cfg.useCache && cfg.selectCache == -1 && (confirmed || !AsksConfirmation(cfg, s)) ==>
      r == s[cfg.tip := MergeFlat(Lookup(s, cfg.tip), u)]
  {
    if !cfg.useCache || cfg.selectCache != -1 then s
    else if AsksConfirmation(cfg, s) && !confirmed then s
    else s[cfg.tip := MergeFlat(Lookup(s, cfg.tip), u)]
  }

  /** Only the entry of `cfg.tip` may change. */
  lemma LegacyStoreOnlyTouchesTip(cfg: LegacyConfig, s: FlatStore, u: FlatDevice, confirmed: bool)
    ensures var r := LegacyStoreInCache(cfg, s, u, confirmed);
      && r.Keys <= s.Keys + {cfg.tip}
      && forall ip :: ip in s && ip != cfg.tip ==> ip in r && r[ip] == s[ip]
  {
  }

  /** First-known-wins: a stored control URL or vendor survives any merge. */
  lemma LegacyFirstKnownWins(cfg: LegacyConfig, s: FlatStore, u: FlatDevice, confirmed: bool)
    requires cfg.tip in s
    ensures var d := LegacyStoreInCache(cfg, s, u, confirmed)[cfg.tip];
      && (s[cfg.tip].controlUrl != "" ==> d.controlUrl == s[cfg.tip].controlUrl)
      && (s[cfg.tip].vendor != "" ==> d.vendor == s[cfg.tip].vendor)
  {
  }

  /** Once a control URL is stored, later merges no longer ask. */
  lemma LegacyAsksAtMostOnce(cfg: LegacyConfig, s: FlatStore, u: FlatDevice)
    requires cfg.useCache && cfg.selectCache == -1
    requires u.controlUrl != ""
    ensures !AsksConfirmation(cfg, LegacyStoreInCache(cfg, s, u, true))
  {
  }

  /** Merging the same observation twice is merging it once: union and
      first-known-wins are both idempotent. */
  lemma LegacyStoreIdempotent(cfg: LegacyConfig, s: FlatStore, u: FlatDevice)
    ensures var once := LegacyStoreInCache(cfg, s, u, true);
      LegacyStoreInCache(cfg, once, u, true) == once
  {
    var once := LegacyStoreInCache(cfg, s, u, true);
    if cfg.useCache && cfg.selectCache == -1 {
      var d := once[cfg.tip];
      if u.actions.Some? {
        assert MergeActions(d.actions, u.actions.value) == d.actions.value;
      }
      assert MergeFlat(d, u) == d;
    }
  }

  /** Legacy `selectFromCache`: the `index`-th IP in ascending order and its
      record as stored. */
  function LegacySelectFromCache(s: FlatStore, index: int): (r: Option<(string, FlatDevice)>)
    ensures r.Some? <==> 0 <= index < |s.Keys|
    ensures r.Some? ==>
      && r.value.0 in s
      && r.value.1 == s[r.value.0]
      && |set ip | ip in s && Less(ip, r.value.0)| == index
  {
    var keys := SortedKeys(s.Keys);
    if index < 0 || index >= |keys| then None
    else
      RankInSortedKeys(s.Keys, index);
      Some((keys[index], s[keys[index]]))
  }

  /** The `i`-th element of the sorted keys has exactly `i` smaller keys. */
  lemma RankInSortedKeys(ks: set<string>, i: nat)
    requires i < |ks|
    ensures |set k | k in ks && Less(k, SortedKeys(ks)[i])| == i
  {
    var r := SortedKeys(ks);
    var smaller := set k | k in ks && Less(k, r[i]);
    var prefix := set j | 0 <= j < i :: r[j];
    assert smaller == prefix by {
      forall k | k in smaller
        ensures k in prefix
      {
        var j :| 0 <= j < |r| && r[j] == k;
        if j >= i {
          if j > i {
            assert Less(r[i], r[j]);
            BelowAntisymmetric(r[i], r[j]);
          }
        }
      }
    }
    SeqPrefixImageSize(r, i);
  }

  /** The first `i` elements of a duplicate-free sequence form a set of
      size `i`. */
  lemma {:induction false} SeqPrefixImageSize(r: seq<string>, i: nat)
    requires i <= |r|
    requires StrictlySorted(r)
    ensures |set j | 0 <= j < i :: r[j]| == i
    decreases i
  {
    if i > 0 {
      SeqPrefixImageSize(r, i - 1);
      var a := set j | 0 <= j < i - 1 :: r[j];
      var b := set j | 0 <= j < i :: r[j];
      assert b == a + {r[i - 1]};
      assert r[i - 1] !in a;
    }
  }

  /** Legacy `handleForgetCache`, delete semantics. `target` is "all",
      "interactive" (then `typed` is the IP read from standard input) or an
      IP; `confirmed` answers the prompt. */
  function LegacyForgetCache(s: FlatStore, target: string, typed: string, confirmed: bool): (r: FlatStore)
    ensures |s| == 0 || !confirmed ==> r == s
    ensures |s| > 0 && confirmed && target == "all" ==> r == map[]
    ensures var ip := if target == "interactive" then typed else target;
      target != "all" ==> (ip !in s ==> r == s) && (ip in s && confirmed ==> r == s - {ip})
    ensures forall k :: k in r ==> k in s && r[k] == s[k]
  {
    if |s| == 0 then s
    else if target == "all" then (if confirmed then map[] else s)
    else
      var ip := if target == "interactive" then typed else target;
      if ip !in s || !confirmed then s else s - {ip}
  }

  /** Forgetting the same target twice forgets no more than once. */
  lemma LegacyForgetIdempotent(s: FlatStore, target: string, typed: string, confirmed: bool)
    ensures var once := LegacyForgetCache(s, target, typed, confirmed);
      LegacyForgetCache(once, target, typed, confirmed) == once
  {
  }
}

=== FILE: legacy_discovery.dfy ===
/**
 * The discovery steps of the older generation (`internal/discovery_utils.go`),
 * which write the flat store inline instead of going through the cache
 * merge: `trySSDP` and `probeAVTransport`.
 *
 * Loading and saving are the in-memory store passed in and returned (a
 * save error is ignored there too). Network results are parameters as in
 * `Discovery`.
 */
module LegacyDiscovery {
  import opened Wrappers
  import opened Models
  import opened LegacyModels
  import opened LegacyCache
  import opened LegacyUtils
  import opened Ssdp
  import opened Soap
  import opened Scpd
  import opened Enrich
  import opened Discovery

  // ---------------------------------------------------------------------
  // trySSDP
  // ---------------------------------------------------------------------

  /** The legacy override: host, port, path and vendor, each only when the
      device reported it. */
  function LegacyOverride(c: LegacyConfig, tv: Tv): (r: LegacyConfig)
    ensures r.tip == (if tv.ip != "" then tv.ip else c.tip)
    ensures r.tport == (if tv.port != "" then tv.port else c.tport)
    ensures r.tpath == (if tv.controlUrl != "" then tv.controlUrl else c.tpath)
    ensures r.tvVendor == (if tv.vendor != "" then tv.vendor else c.tvVendor)
    ensures r.(tip := c.tip, tport := c.tport, tpath := c.tpath, tvVendor := c.tvVendor) == c
  {
    c.(tip := NonEmptyOr(tv.ip, c.tip), tport := NonEmptyOr(tv.port, c.tport),
       tpath := NonEmptyOr(tv.controlUrl, c.tpath), tvVendor := NonEmptyOr(tv.vendor, c.tvVendor))
  }

  /** A step of the legacy code either finishes or dereferences nil; a
      crash keeps the cache as it was saved before the dereference. */
  datatype LegacyRun = Done(ok: bool, cfg: LegacyConfig, store: FlatStore) | NilDereference(store: FlatStore)

  /** The first inline write: the identity replaced wholesale. */
  function WithIdentity(s: FlatStore, ip: string, info: Identity): (r: FlatStore)
    ensures ip in r && r[ip].identity == Some(info)
    ensures r[ip].(identity := Lookup(s, ip).identity) == Lookup(s, ip)
    ensures forall k :: k != ip ==> (k in r <==> k in s) && (k in s ==> r[k] == s[k])
  {
    s[ip := Lookup(s, ip).(identity := Some(info))]
  }

  /** The second inline write, with the enrichment result: control URL and
      vendor filled only when empty, actions and media replaced wholesale. */
  function WithCapabilities(s: FlatStore, ip: string, controlUrl: string, vendor: string, c: Capabilities): (r: FlatStore)
    ensures ip in r
    ensures r[ip].controlUrl == (if Lookup(s, ip).controlUrl == "" then controlUrl else Lookup(s, ip).controlUrl)
    ensures r[ip].vendor == (if Lookup(s, ip).vendor == "" then vendor else Lookup(s, ip).vendor)
    ensures r[ip].actions == Some(c.actions) && r[ip].media == Some(c.media)
    ensures r[ip].identity == Lookup(s, ip).identity && r[ip].connMgrUrl == Lookup(s, ip).connMgrUrl
    ensures forall k :: k != ip ==> (k in r <==> k in s) && (k in s ==> r[k] == s[k])
  {
    var dev := Lookup(s, ip);
    var dev1 := if dev.controlUrl == "" then dev.(controlUrl := controlUrl) else dev;
    var dev2 := if dev1.vendor == "" then dev1.(vendor := vendor) else dev1;
    s[ip := dev2.(actions := Some(c.actions), media := Some(c.media))]
  }

  /** `trySSDP` as written. Enrichment runs against the control URL of the
      overridden config; after a successful identity lookup the second
      write reads `caps.Actions` even when enrichment failed, which it does
      exactly when the service description could not be read, and `caps`
      is nil. */
  function LegacyTrySsdpAsWritten(
    c: LegacyConfig, s: FlatStore, notify: seq<SsdpDevice>, discovered: seq<SsdpDevice>,
    fetch: string -> Result<Tv, string>, svc: Services,
    identify: string -> Result<Identity, string>): (r: LegacyRun)
    ensures r.NilDereference? <==>
      && |Heard(notify, discovered)| > 0
      && fetch(Heard(notify, discovered)[0].location).Success?
      && identify(LegacyBaseUrl(LegacyOverride(c, fetch(Heard(notify, discovered)[0].location).value))).Success?
      && svc.describe(fetch(Heard(notify, discovered)[0].location).value.avTransportScpd).Failure?
    ensures r.NilDereference? ==>
      var c' := LegacyOverride(c, fetch(Heard(notify, discovered)[0].location).value);
      r.store == WithIdentity(s, c'.tip, identify(LegacyBaseUrl(c')).value)
  {
    var devices := Heard(notify, discovered);
    if |devices| == 0 then Done(false, c, s)
    else
      match fetch(devices[0].location)
      case Failure(_) => Done(false, c, s)
      case Success(tv) =>
        var c' := LegacyOverride(c, tv);
        var caps := EnrichDevice(tv, LegacyControlUrl(c'), svc);
        match identify(LegacyBaseUrl(c'))
        case Failure(_) => Done(true, c', s)
        case Success(info) =>
          var s1 := WithIdentity(s, c'.tip, info);
          if caps.Failure? then NilDereference(s1)
          else Done(true, c', WithCapabilities(s1, c'.tip, LegacyControlUrl(c'), tv.vendor, caps.value))
  }

  /** The crash: a renderer whose service description cannot be read but
      whose identity can brings the legacy discovery down, whatever its
      ConnectionManager and action probes answer; the identity write saved
      just before survives it. */
  lemma LegacyTrySsdpCrashes(
    c: LegacyConfig, s: FlatStore, d: SsdpDevice, tv: Tv, svc: Services,
    identify: string -> Result<Identity, string>)
    requires svc.describe(tv.avTransportScpd).Failure?
    requires identify(LegacyBaseUrl(LegacyOverride(c, tv))).Success?
    ensures var c' := LegacyOverride(c, tv);
      LegacyTrySsdpAsWritten(c, s, [d], [], _ => Success(tv), svc, identify)
        == NilDereference(WithIdentity(s, c'.tip, identify(LegacyBaseUrl(c')).value))
  {
  }

  /** `trySSDP` with the nil check the newer generation has: capabilities
      are written only when enrichment returned some. */
  function LegacyTrySsdp(
    c: LegacyConfig, s: FlatStore, notify: seq<SsdpDevice>, discovered: seq<SsdpDevice>,
    fetch: string -> Result<Tv, string>, svc: Services,
    identify: string -> Result<Identity, string>): (r: LegacyRun)
    ensures r.Done?
    ensures r.ok <==> |Heard(notify, discovered)| > 0 && fetch(Heard(notify, discovered)[0].location).Success?
    ensures !r.ok ==> r.cfg == c && r.store == s
    ensures r.ok ==> r.cfg == LegacyOverride(c, fetch(Heard(notify, discovered)[0].location).value)
  {
    var devices := Heard(notify, discovered);
    if |devices| == 0 then Done(false, c, s)
    else
      match fetch(devices[0].location)
      case Failure(_) => Done(false, c, s)
      case Success(tv) =>
        var c' := LegacyOverride(c, tv);
        var caps := EnrichDevice(tv, LegacyControlUrl(c'), svc);
        match identify(LegacyBaseUrl(c'))
        case Failure(_) => Done(true, c', s)
        case Success(info) =>
          var s1 := WithIdentity(s, c'.tip, info);
          if caps.Failure? then Done(true, c', s1)
          else Done(true, c', WithCapabilities(s1, c'.tip, LegacyControlUrl(c'), tv.vendor, caps.value))
  }

  /** What the corrected legacy discovery stores: nothing unless the
      identity lookup succeeds; then, whatever enrichment did, the identity
      replaced wholesale, stored control URL and vendor kept, capabilities
      replaced only when the service description could be read (and then
      with the seven safe actions validated at the control URL); other IPs
      untouched. */
  lemma LegacyTrySsdpStores(
    c: LegacyConfig, s: FlatStore, notify: seq<SsdpDevice>, discovered: seq<SsdpDevice>,
    fetch: string -> Result<Tv, string>, svc: Services,
    identify: string -> Result<Identity, string>)
    requires LegacyTrySsdp(c, s, notify, discovered, fetch, svc, identify).ok
    ensures var r := LegacyTrySsdp(c, s, notify, discovered, fetch, svc, identify);
      var tv := fetch(Heard(notify, discovered)[0].location).value;
      var caps := EnrichDevice(tv, LegacyControlUrl(r.cfg), svc);
      var info := identify(LegacyBaseUrl(r.cfg));
      var ip := r.cfg.tip;
      var before := Lookup(s, ip);
      && (info.Failure? ==> r.store == s)
      && (info.Success? ==>
            && ip in r.store
            && r.store[ip].identity == Some(info.value)
            && (before.controlUrl != "" ==> r.store[ip].controlUrl == before.controlUrl)
            && (before.vendor != "" ==> r.store[ip].vendor == before.vendor)
            && (svc.describe(tv.avTransportScpd).Failure? ==>
                  r.store[ip].actions == before.actions && r.store[ip].media == before.media)
            && (svc.describe(tv.avTransportScpd).Success? ==>
                  && r.store[ip].actions == Some(caps.value.actions) && r.store[ip].media == Some(caps.value.media)
                  && forall a :: a in SafeActions ==>
                       r.store[ip].actions.value[a] == SoapProbe(LegacyControlUrl(r.cfg), ActionBody(a), svc.send)))
      && forall k :: k != ip ==> (k in r.store <==> k in s) && (k in s ==> r.store[k] == s[k])
  {
  }

  /** Wherever the written code does not crash, the corrected one does the
      same thing. */
  lemma LegacyTrySsdpAgrees(
    c: LegacyConfig, s: FlatStore, notify: seq<SsdpDevice>, discovered: seq<SsdpDevice>,
    fetch: string -> Result<Tv, string>, svc: Services,
    identify: string -> Result<Identity, string>)
    requires !LegacyTrySsdpAsWritten(c, s, notify, discovered, fetch, svc, identify).NilDereference?
    ensures LegacyTrySsdpAsWritten(c, s, notify, discovered, fetch, svc, identify)
      == LegacyTrySsdp(c, s, notify, discovered, fetch, svc, identify)
  {
  }

  // ---------------------------------------------------------------------
  // probeAVTransport
  // ---------------------------------------------------------------------

  datatype LegacyProbe = LegacyProbe(ok: bool, err: Option<string>, cfg: LegacyConfig, store: FlatStore)

  /** The inline write after a successful identity lookup: identity
      replaced, control URL and vendor filled when empty, observed actions
      merged key by key into the stored ones. */
  function ProbeRecord(dev: FlatDevice, url: string, vendor: string, info: Identity, observed: Actions): (r: FlatDevice)
    ensures r.identity == Some(info) && r.media == dev.media && r.connMgrUrl == dev.connMgrUrl
    ensures r.controlUrl == (if dev.controlUrl == "" then url else dev.controlUrl)
    ensures r.vendor == (if dev.vendor == "" then vendor else dev.vendor)
    ensures |observed| == 0 ==> r.actions == dev.actions
    ensures |observed| > 0 ==>
      && r.actions.Some?
      && r.actions.value.Keys == observed.Keys + (if dev.actions.Some? then dev.actions.value.Keys else {})
      && (forall k :: k in observed ==> r.actions.value[k] == observed[k])
      && (dev.actions.Some? ==> forall k :: k in dev.actions.value && k !in observed ==> r.actions.value[k] == dev.actions.value[k])
  {
    var d1 := dev.(identity := Some(info));
    var d2 := if d1.controlUrl == "" then d1.(controlUrl := url) else d1;
    var d3 := if d2.vendor == "" then d2.(vendor := vendor) else d2;
    if |observed| > 0 then d3.(actions := Some(MergeActions(d3.actions, observed))) else d3
  }

  /** Legacy `probeAVTransport`: `probe` is what `avtransport.Probe` found,
      the safe actions are validated at that URL through `send`, and the
      identity is asked of "http://" + the target IP. */
  function LegacyProbeAvTransport(
    c: LegacyConfig, s: FlatStore, probe: Result<string, string>, send: HttpRequest -> HttpOutcome,
    identify: string -> Result<Identity, string>): (r: LegacyProbe)
    ensures r.ok <==> c.tip != "" && probe.Success?
    ensures r.err.Some? <==> !r.ok
    ensures c.tip == "" ==> r.err == Some("probe requires -Tip")
    ensures c.tip != "" && probe.Failure? ==> r.err == Some(probe.error)
    ensures !r.ok ==> r.cfg == c && r.store == s
    ensures r.ok ==> r.cfg == c.(cachedControlUrl := probe.value)
    ensures r.ok && identify("http://" + c.tip).Failure? ==> r.store == s
    ensures r.ok && identify("http://" + c.tip).Success? ==>
      r.store == s[c.tip := ProbeRecord(Lookup(s, c.tip), probe.value, c.tvVendor,
                                        identify("http://" + c.tip).value, ValidateActions(probe.value, send))]
  {
    if c.tip == "" then LegacyProbe(false, Some("probe requires -Tip"), c, s)
    else
      match probe
      case Failure(e) => LegacyProbe(false, Some(e), c, s)
      case Success(url) =>
        var observed := ValidateActions(url, send);
        var c' := c.(cachedControlUrl := url);
        match identify("http://" + c.tip)
        case Failure(_) => LegacyProbe(true, None, c', s)
        case Success(info) =>
          LegacyProbe(true, None, c', s[c.tip := ProbeRecord(Lookup(s, c.tip), url, c.tvVendor, info, observed)])
  }

  /** After a probe the cached URL is the one used for playback, whatever
      host, port and path say. */
  lemma LegacyProbeSetsControlUrl(
    c: LegacyConfig, s: FlatStore, url: string, send: HttpRequest -> HttpOutcome,
    identify: string -> Result<Identity, string>)
    requires c.tip != "" && url != ""
    ensures LegacyControlUrl(LegacyProbeAvTransport(c, s, Success(url), send, identify).cfg) == url
  {
  }

  /** A probe whose identity lookup succeeds always stores the seven safe
      actions, each with whether the found endpoint answered it, on top of
      the actions already stored for the IP, which it keeps. */
  lemma LegacyProbeStoresSafeActions(
    c: LegacyConfig, s: FlatStore, url: string, send: HttpRequest -> HttpOutcome,
    identify: string -> Result<Identity, string>)
    requires c.tip != "" && identify("http://" + c.tip).Success?
    ensures var r := LegacyProbeAvTransport(c, s, Success(url), send, identify);
      var before := Lookup(s, c.tip).actions;
      && c.tip in r.store && r.store[c.tip].actions.Some?
      && (forall a :: a in r.store[c.tip].actions.value <==>
            a in SafeActions || (before.Some? && a in before.value))
      && (forall a :: a in SafeActions ==> r.store[c.tip].actions.value[a] == SoapProbe(url, ActionBody(a), send))
      && (forall a :: before.Some? && a in before.value && a !in SafeActions ==>
            r.store[c.tip].actions.value[a] == before.value[a])
  {
  }

  /** The inline probe write agrees with the legacy cache merge on
      actions: it is the key-wise union of `storeInCache`. */
  lemma ProbeRecordMergesLikeStore(dev: FlatDevice, url: string, vendor: string, info: Identity, observed: Actions)
    requires |observed| > 0
    ensures ProbeRecord(dev, url, vendor, info, observed).actions
      == MergeFlat(dev, FlatDevice(vendor, url, "", Some(info), Some(observed), None)).actions
  {
  }
}

=== FILE: legacy_models.dfy ===
/**
 * Data shapes of the older generation of the engine (`package internal`
 * and the flat `cache.Device` record it persists).
 */
module LegacyModels {
  import opened Wrappers
  import opened Models

  /** The legacy run configuration. `selectCache` is read by the legacy
      cache and script code although the legacy declaration omits it; it is
      kept here with the same meaning as in `Config`. */
  datatype LegacyConfig = LegacyConfig(
    mode: string,
    probeOnly: bool,
    discover: bool,
    autoCache: bool,
    useCache: bool,
    forgetCache: string,
    listCache: bool,
    deepSearch: bool,
    subnet: string,
    tip: string,
    tport: string,
    tpath: string,
    tvVendor: string,
    lip: string,
    lfile: string,
    ldir: string,
    servePort: string,
    cachedControlUrl: string,
    selectCache: int
  )

  /** One device per IP, with a single control URL. */
  datatype FlatDevice = FlatDevice(
    vendor: string,
    controlUrl: string,
    connMgrUrl: string,
    identity: Option<Identity>,
    actions: Option<Actions>,
    media: Option<Media>)

  /** `cache.Device{}`, what indexing a map at a missing IP yields. */
  const ZeroFlatDevice: FlatDevice := FlatDevice("", "", "", None, None, None)

  type FlatStore = map<string, FlatDevice>
}

=== FILE: legacy_stream.dfy ===
/**
 * Stream mode of the older generation (`internal/stream_mode.go`): a
 * registry with the transport-stream container only, a MIME choice with a
 * single fallback, and a source that must be a named, valid local file.
 */
module LegacyStream {
  import opened Wrappers
  import opened Text
  import opened Models
  import opened LegacyModels
  import Stream

  /** The legacy transport-stream container. */
  datatype LegacyContainer = LegacyTs

  function LegacyKey(c: LegacyContainer): string {
    "ts"
  }

  function LegacyMimeCandidates(c: LegacyContainer): (r: seq<string>)
    ensures |r| == 3 && r[0] == "video/mpeg"
  {
    ["video/mpeg", "application/octet-stream", "video/mp2t"]
  }

  /** The legacy `containerRegistry`. */
  const LegacyRegistry: map<string, LegacyContainer> := map["ts" := LegacyTs]

  /** `GetContainer`: trimmed, lower-cased lookup in a registry that knows
      only "ts"; the error names the key as given. */
  function LegacyGetContainer(key: string): (r: Result<LegacyContainer, string>)
    ensures r.Success? <==> ToLower(TrimSpace(key)) == "ts"
    ensures r.Success? ==> LegacyKey(r.value) == ToLower(TrimSpace(key))
    ensures r.Failure? ==> r.error == "unknown container: " + key
  {
    var k := ToLower(TrimSpace(key));
    if k in LegacyRegistry then Success(LegacyRegistry[k]) else Failure("unknown container: " + key)
  }

  /** The legacy registry is the current one cut down to "ts": every key
      the legacy lookup accepts the current one accepts too, with the same
      candidates; "mp4" is known only to the current one. */
  lemma LegacyRegistryIsTsOnly(key: string)
    ensures LegacyGetContainer(key).Success? ==>
      && Stream.GetContainer(key).Success?
      && Stream.MimeCandidates(Stream.GetContainer(key).value) == LegacyMimeCandidates(LegacyGetContainer(key).value)
    ensures ToLower(TrimSpace(key)) == "mp4" ==> LegacyGetContainer(key).Failure? && Stream.GetContainer(key).Success?
  {
    if LegacyGetContainer(key).Success? {
      Stream.RegistryByKey();
      assert Stream.GetContainer(key).value == Stream.Ts;
    }
  }

  /** `BuildStreamURL`, as in the current generation: one leading "/" of
      the path is dropped. */
  function LegacyBuildStreamUrl(cfg: LegacyConfig, streamPath: string): (r: string)
    ensures HasPrefix(streamPath, "/") ==> r == "http://" + cfg.lip + ":" + cfg.servePort + streamPath
    ensures !HasPrefix(streamPath, "/") ==> r == "http://" + cfg.lip + ":" + cfg.servePort + "/" + streamPath
  {
    var p := TrimPrefix(streamPath, "/");
    "http://" + cfg.lip + ":" + cfg.servePort + "/" + p
  }

  /** The two builders agree on the same local address and port. */
  lemma LegacyBuildStreamUrlAgrees(c: LegacyConfig, cfg: Config, streamPath: string)
    requires c.lip == cfg.lip && c.servePort == cfg.servePort
    ensures LegacyBuildStreamUrl(c, streamPath) == Stream.BuildStreamUrl(cfg, streamPath)
  {
  }

  /** `BuildStreamSource`: a blank file argument is rejected before the
      validator runs; a validation error (`Some`) is passed on; otherwise
      the untrimmed argument is the file to stream. */
  function LegacyBuildStreamSource(cfg: LegacyConfig, validate: string -> Option<string>): (r: Result<string, string>)
    ensures TrimSpace(cfg.lfile) == "" ==> r == Failure(MissingFileMessage)
    ensures TrimSpace(cfg.lfile) != "" && validate(cfg.lfile).Some? ==> r == Failure(validate(cfg.lfile).value)
    ensures r.Success? <==> TrimSpace(cfg.lfile) != "" && validate(cfg.lfile).None?
    ensures r.Success? ==> r.value == cfg.lfile
  {
    if TrimSpace(cfg.lfile) == "" then Failure(MissingFileMessage)
    else match validate(cfg.lfile)
      case Some(e) => Failure(e)
      case None => Success(cfg.lfile)
  }

  const MissingFileMessage: string :=
    "stream mode currently requires -Lf as a byte source (later: screen/camera/remote sources will be added)"

  /** Whatever the validator says, a whitespace-only argument never reaches
      it. */
  lemma BlankFileNeverValidated(cfg: LegacyConfig, v1: string -> Option<string>, v2: string -> Option<string>)
    requires forall i :: 0 <= i < |cfg.lfile| ==> IsSpace(cfg.lfile[i])
    ensures LegacyBuildStreamSource(cfg, v1) == LegacyBuildStreamSource(cfg, v2) == Failure(MissingFileMessage)
  {
    assert |TrimLeft(cfg.lfile)| == 0 || !IsSpace(TrimLeft(cfg.lfile)[0]);
  }

  /** The legacy `selectMime`: "video/mpeg" when nothing is announced or
      nothing of the container's is; otherwise the first announced
      candidate. */
  function LegacySelectMime(c: LegacyContainer, supported: Media): (r: string)
    ensures |supported| == 0 ==> r == "video/mpeg"
    ensures r in LegacyMimeCandidates(c)
  {
    if |supported| == 0 then "video/mpeg"
    else
      match Stream.FirstSupported(LegacyMimeCandidates(c), supported)
      case Some(i) => LegacyMimeCandidates(c)[i]
      case None => "video/mpeg"
  }

  /** The legacy choice is the current one for the transport-stream
      container and a source that is not a screen capture. */
  lemma LegacySelectMimeAgrees(supported: Media)
    ensures LegacySelectMime(LegacyTs, supported) == Stream.SelectMime(Stream.Ts, supported, false)
  {
  }

  /** And so, when something of the container's is announced, it is the
      first announced candidate. */
  lemma LegacySelectMimeFirstAnnounced(supported: Media, i: nat)
    requires i < 3 && LegacyMimeCandidates(LegacyTs)[i] in supported
    requires forall j :: 0 <= j < i ==> LegacyMimeCandidates(LegacyTs)[j] !in supported
    ensures LegacySelectMime(LegacyTs, supported) == LegacyMimeCandidates(LegacyTs)[i]
  {
    var cands := LegacyMimeCandidates(LegacyTs);
    var f := Stream.FirstSupported(cands, supported);
    assert |supported| > 0;
    assert f.Some?;
  }
}

=== FILE: legacy_utils.dfy ===
/**
 * The older `Config` URL methods (`internal/utils.go`). `NormalizeMode`
 * and `confirm` there have the same bodies as in package `utils` and are
 * modelled once, in `Utils`.
 */
module LegacyUtils {
  import opened Text
  import opened LegacyModels
  import opened Utils

  /** `Config.ControlURL`: a cached URL wins whatever host, port and path
      say; otherwise the URL is built as in `Utils.ControlUrl`. */
  function LegacyControlUrl(c: LegacyConfig): (r: string)
    ensures c.cachedControlUrl != "" ==> r == c.cachedControlUrl
    ensures c.cachedControlUrl == "" ==>
      (r == "" <==> c.tip == "" || c.tport == "")
    ensures c.cachedControlUrl == "" && r != "" ==>
      r == LegacyBaseUrl(c) + LeadingSlash(c.tpath)
  {
    if c.cachedControlUrl != "" then c.cachedControlUrl
    else if c.tip == "" || c.tport == "" then ""
    else "http://" + c.tip + ":" + c.tport + LeadingSlash(c.tpath)
  }

  function LegacyBaseUrl(c: LegacyConfig): string {
    "http://" + c.tip + ":" + c.tport
  }

  /** Without a cached URL the legacy builder agrees with the current one on
      the same host, port and path. */
  lemma LegacyControlUrlAgrees(c: LegacyConfig, cfg: Models.Config)
    requires c.cachedControlUrl == ""
    requires c.tip == cfg.tip && c.tport == cfg.tport && c.tpath == cfg.tpath
    ensures LegacyControlUrl(c) == ControlUrl(cfg)
  {
  }

  /** `Config.MediaURL`: the file's base name under the local address and
      serve port. */
  function LegacyMediaUrl(c: LegacyConfig): (r: string)
    ensures HasPrefix(r, "http://" + c.lip + ":" + c.servePort + "/")
    ensures TrimTrailingSlashes(c.lfile) != "" ==> AfterLastSlash(r) == BaseName(c.lfile)
  {
    var root := "http://" + c.lip + ":" + c.servePort;
    var name := BaseName(c.lfile);
    assert (root + "/" + name)[..|root + "/"|] == root + "/";
    if TrimTrailingSlashes(c.lfile) != "" then
      AfterLastSlashOfJoin(root, name);
      root + "/" + name
    else root + "/" + name
  }

  /** The legacy media URL is the current one for the same local address,
      port and file. */
  lemma LegacyMediaUrlAgrees(c: LegacyConfig, cfg: Models.Config)
    requires c.lip == cfg.lip && c.servePort == cfg.servePort && c.lfile == cfg.lfile
    ensures LegacyMediaUrl(c) == MediaUrl(cfg)
  {
  }
}

=== FILE: media.dfy ===
/**
 * Media protocol discovery (`media.go`): the ConnectionManager:1
 * `GetProtocolInfo` request and the parsing of its `Sink` value, a
 * comma-separated list of `protocol:network:contentFormat:additionalInfo`
 * protocolInfo entries (UPnP ConnectionManager:1, SinkProtocolInfo).
 */
module MediaProtocols {
  import opened Wrappers
  import opened Models
  import opened Text
  import opened Soap

  const GetProtocolInfoBody: string :=
    "<u:GetProtocolInfo xmlns:u=\"urn:schemas-upnp-org:service:ConnectionManager:1\"/>"
  const GetProtocolInfoAction: string :=
    "\"urn:schemas-upnp-org:service:ConnectionManager:1#GetProtocolInfo\""

  /** `soapRequestRaw`: the caller's body wrapped in the envelope, sent
      with the caller's SOAPAction. */
  function SoapRequestRaw(url: string, body: string, soapAction: string): (r: HttpRequest)
    ensures UnwrapBody(r.body) == Some(body)
    ensures r.url == url && r.contentType == ContentType && r.soapAction == soapAction
  {
    UnwrapDynamicBody(body);
    HttpRequest(url, DynamicBody(body), ContentType, soapAction)
  }

  /** The request `FetchMediaProtocols` sends to the ConnectionManager. */
  function ProtocolInfoRequest(connMgrUrl: string): (r: HttpRequest)
    ensures UnwrapBody(r.body) == Some(GetProtocolInfoBody)
    ensures r.soapAction == GetProtocolInfoAction
  {
    SoapRequestRaw(connMgrUrl, GetProtocolInfoBody, GetProtocolInfoAction)
  }

  /** The (MIME, profile) pair of one entry: the third and fourth
      colon-separated fields, when there are at least four. */
  function SinkEntry(line: string): (r: Option<(string, string)>)
    ensures r.Some? <==> |Split(line, ":")| >= 4
    ensures r.Some? ==> r.value == (Split(line, ":")[2], Split(line, ":")[3])
  {
    var parts := Split(line, ":");
    if |parts| >= 4 then Some((parts[2], parts[3])) else None
  }

  /** The accumulation loop: each well-formed entry appends its profile to
      its MIME's list. */
  function AddEntries(m: Media, lines: seq<string>): Media
    decreases |lines|
  {
    if |lines| == 0 then m
    else
      var m' := match SinkEntry(lines[0])
        case None => m
        case Some((mime, profile)) =>
          m[mime := (if mime in m then m[mime] else []) + [profile]];
      AddEntries(m', lines[1..])
  }

  /** Reference definition: the profiles announced for `mime`, in input
      order, duplicates kept. */
  function ProfilesFor(lines: seq<string>, mime: string): seq<string>
    decreases |lines|
  {
    if |lines| == 0 then []
    else
      var here := match SinkEntry(lines[0])
        case Some((m, p)) => if m == mime then [p] else []
        case None => [];
      here + ProfilesFor(lines[1..], mime)
  }

  lemma {:induction false} AddEntriesIsProfilesFor(m: Media, lines: seq<string>, mime: string)
    ensures mime in AddEntries(m, lines) <==> mime in m || ProfilesFor(lines, mime) != []
    ensures mime in AddEntries(m, lines) ==>
      AddEntries(m, lines)[mime] == (if mime in m then m[mime] else []) + ProfilesFor(lines, mime)
    decreases |lines|
  {
    if |lines| > 0 {
      var m' := match SinkEntry(lines[0])
        case None => m
        case Some((k, profile)) =>
          m[k := (if k in m then m[k] else []) + [profile]];
      AddEntriesIsProfilesFor(m', lines[1..], mime);
    }
  }

  /** The media map announced by a Sink string: every MIME with at least
      one well-formed entry, mapped to its profiles in input order. */
  function ParseSink(sink: string): (r: Media)
    ensures forall mime :: mime in r <==> ProfilesFor(Split(sink, ","), mime) != []
    ensures forall mime :: mime in r ==> r[mime] == ProfilesFor(Split(sink, ","), mime)
  {
    var r := AddEntries(map[], Split(sink, ","));
    forall mime
      ensures mime in r <==> ProfilesFor(Split(sink, ","), mime) != []
      ensures mime in r ==> r[mime] == ProfilesFor(Split(sink, ","), mime)
    {
      AddEntriesIsProfilesFor(map[], Split(sink, ","), mime);
    }
    r
  }

  /** `FetchMediaProtocols` after the exchange: `sink` is the decoded Sink
      value, or the transport/decode error. */
  function FetchMediaProtocols(sink: Result<string, string>): (r: Result<Media, string>)
    ensures sink.Failure? ==> r == Failure(sink.error)
    ensures sink.Success? ==> r == Success(ParseSink(sink.value))
  {
    match sink
    case Failure(e) => Failure(e)
    case Success(s) => Success(ParseSink(s))
  }

  /** Every announced MIME has a non-empty profile list. */
  lemma ParseSinkListsNonEmpty(sink: string)
    ensures forall mime :: mime in ParseSink(sink) ==> |ParseSink(sink)[mime]| > 0
  {
  }

  /** An empty Sink announces nothing. */
  lemma ParseSinkEmpty()
    ensures ParseSink("") == map[]
  {
    assert Split("", ",") == [""];
    assert Split("", ":") == [""];
    var r := ParseSink("");
    forall mime
      ensures mime !in r
    {
      assert ProfilesFor([""], mime) == [];
    }
  }

  /** Fields after the fourth are dropped: the profile is exactly the
      fourth field. */
  lemma SinkEntryDropsExtraFields(a: string, b: string, c: string, d: string, e: string)
    requires ':' !in a && ':' !in b && ':' !in c && ':' !in d && ':' !in e
    ensures SinkEntry(a + ":" + b + ":" + c + ":" + d + ":" + e) == Some((c, d))
  {
    var parts := [a, b, c, d, e];
    SplitJoin(parts, ':');
    JoinFive(a, b, c, d, e, ':');
  }

  lemma JoinFive(a: string, b: string, c: string, d: string, e: string, sep: char)
    ensures Join([a, b, c, d, e], [sep]) == a + [sep] + b + [sep] + c + [sep] + d + [sep] + e
  {
    assert [a, b, c, d, e][1..] == [b, c, d, e];
    JoinFour(b, c, d, e, sep);
  }

  lemma JoinFour(a: string, b: string, c: string, d: string, sep: char)
    ensures Join([a, b, c, d], [sep]) == a + [sep] + b + [sep] + c + [sep] + d
  {
    assert [a, b, c, d][1..] == [b, c, d];
    assert [b, c, d][1..] == [c, d];
    JoinTwo(c, d, sep);
  }

  lemma JoinTwo(a: string, b: string, sep: char)
    ensures Join([a, b], [sep]) == a + [sep] + b
  {
    assert [a, b][1..] == [b];
  }

  /** A four-field entry yields its third and fourth fields. */
  lemma SinkEntryFourFields(a: string, b: string, c: string, d: string)
    requires ':' !in a && ':' !in b && ':' !in c && ':' !in d
    ensures SinkEntry(a + ":" + b + ":" + c + ":" + d) == Some((c, d))
  {
    JoinFour(a, b, c, d, ':');
    SplitJoin([a, b, c, d], ':');
  }

  lemma ExampleSplit(sd: string, hd: string)
    requires ',' !in sd && ',' !in hd
    ensures Split(sd + "," + hd, ",") == [sd, hd]
  {
    JoinTwo(sd, hd, ',');
    SplitJoin([sd, hd], ',');
  }

  /** Two entries for the same MIME: one key, both profiles, in order. */
  lemma ParseSinkSameMime(l1: string, l2: string, mime: string, p1: string, p2: string)
    requires ',' !in l1 && ',' !in l2
    requires SinkEntry(l1) == Some((mime, p1)) && SinkEntry(l2) == Some((mime, p2))
    ensures ParseSink(l1 + "," + l2) == map[mime := [p1, p2]]
  {
    ExampleSplit(l1, l2);
    var lines := [l1, l2];
    var r := ParseSink(l1 + "," + l2);
    var expected := map[mime := [p1, p2]];
    forall m
      ensures m in r <==> m in expected
      ensures m in r ==> r[m] == expected[m]
    {
      assert lines[1..] == [l2];
      assert [l2][1..] == [];
      assert ProfilesFor([l2], m) == (if m == mime then [p2] else []);
      assert ProfilesFor(lines, m) == (if m == mime then [p1, p2] else []);
    }
    assert r == expected;
  }

  /** The common head of both entries of the worked example. */
  const Mp4HttpGet: string := "http-get:*:video/mp4:"

  lemma Mp4HttpGetFields(d: string)
    ensures Mp4HttpGet + d == "http-get" + ":" + "*" + ":" + "video/mp4" + ":" + d
  {
    assert Mp4HttpGet == "http-get" + ":" + "*" + ":" + "video/mp4" + ":";
  }

  lemma Mp4HttpGetEntry(d: string)
    requires ':' !in d
    ensures SinkEntry(Mp4HttpGet + d) == Some(("video/mp4", d))
  {
    Mp4HttpGetFields(d);
    SinkEntryFourFields("http-get", "*", "video/mp4", d);
  }

  /** Two HTTP-GET MP4 entries with profiles `d1` and `d2`. */
  lemma Mp4HttpGetPair(d1: string, d2: string)
    requires ':' !in d1 && ',' !in d1 && ':' !in d2 && ',' !in d2
    ensures ParseSink(Mp4HttpGet + d1 + "," + Mp4HttpGet + d2) == map["video/mp4" := [d1, d2]]
  {
    Mp4HttpGetEntry(d1);
    Mp4HttpGetEntry(d2);
    assert ',' !in Mp4HttpGet;
    assert Mp4HttpGet + d1 + "," + Mp4HttpGet + d2 == (Mp4HttpGet + d1) + "," + (Mp4HttpGet + d2);
    ParseSinkSameMime(Mp4HttpGet + d1, Mp4HttpGet + d2, "video/mp4", d1, d2);
  }

  /** The worked example: the Sink
      "http-get:*:video/mp4:*,http-get:*:video/mp4:DLNA.ORG_PN=AVC_MP4_BL_L3L_SD"
      gives one key with both profiles in order. */
  lemma ParseSinkExample()
    ensures ParseSink(Mp4HttpGet + "*" + "," + Mp4HttpGet + "DLNA.ORG_PN=AVC_MP4_BL_L3L_SD")
      == map["video/mp4" := ["*", "DLNA.ORG_PN=AVC_MP4_BL_L3L_SD"]]
  {
    Mp4HttpGetPair("*", "DLNA.ORG_PN=AVC_MP4_BL_L3L_SD");
  }
}

=== FILE: metadata.dfy ===
/**
 * The vendor table for `CurrentURIMetaData` (`avtransport/metadata.go`):
 * only LG receives a DIDL-Lite document, which names the media URL in its
 * one `<res>` element; every other vendor gets no metadata.
 */
module Metadata {
  import opened Text

  /** What playback is pointed at. */
  datatype Target = Target(controlUrl: string, mediaUrl: string)

  /** The DIDL-Lite document up to the resource element. */
  const LgPreamble: string :=
    "<?xml version=\"1.0\" encoding=\"utf-8\"?>\n"
    + "<DIDL-Lite \n"
    + " xmlns=\"urn:schemas-upnp-org:metadata-1-0/DIDL-Lite/\"\n"
    + " xmlns:dc=\"http://purl.org/dc/elements/1.1/\"\n"
    + " xmlns:upnp=\"urn:schemas-upnp-org:metadata-1-0/upnp/\">\n"
    + "\n"
    + "  <item id=\"0\" parentID=\"0\" restricted=\"1\">\n"
    + "    <dc:title>Video</dc:title>\n"
    + "    <upnp:class>object.item.videoItem.movie</upnp:class>\n"
    + "    "

  /** The opening and closing tag of the resource element. */
  const ResOpen: string := "<res protocolInfo=\"http-get:*:video/mp4:*\">"
  const ResClose: string := "</res>"

  /** The DIDL-Lite document after the resource element. */
  const LgEpilogue: string := "\n  </item>\n\n</DIDL-Lite>"

  /** `lgMetadata`: one video item whose resource is the media URL. The
      document is the fixed text around the URL, which is inserted as it
      is, without escaping. */
  function LgMetadata(t: Target): (r: string)
    ensures |r| == |LgPreamble| + |ResOpen| + |t.mediaUrl| + |ResClose| + |LgEpilogue|
    ensures r[..|LgPreamble| + |ResOpen|] == LgPreamble + ResOpen
    ensures r[|r| - |ResClose| - |LgEpilogue|..] == ResClose + LgEpilogue
  {
    var r := LgPreamble + ResOpen + t.mediaUrl + ResClose + LgEpilogue;
    assert r == (LgPreamble + ResOpen) + t.mediaUrl + (ResClose + LgEpilogue);
    r
  }

  /** Cutting a concatenation of five pieces at the piece boundaries. */
  lemma FivePieces(a: string, b: string, c: string, d: string, e: string)
    ensures var r := a + b + c + d + e;
      var i := |a| + |b|;
      && r[|a|..i] == b
      && r[i..i + |c|] == c
      && r[i + |c|..i + |c| + |d|] == d
  {
  }

  /** `sonyMetadata` and `philipsMetadata`: no document yet. */
  function SonyMetadata(t: Target): (r: string)
    ensures |r| == 0
  {
    ""
  }

  function PhilipsMetadata(t: Target): (r: string)
    ensures |r| == 0
  {
    ""
  }

  /** `MetadataForVendor`: exact, case-sensitive vendor match. */
  function MetadataForVendor(vendor: string, t: Target): (r: string)
    ensures vendor == "lg" ==> r == LgMetadata(t)
    ensures vendor != "lg" ==> r == ""
  {
    match vendor
    case "samsung" => ""
    case "lg" => LgMetadata(t)
    case "sony" => SonyMetadata(t)
    case "philips" => PhilipsMetadata(t)
    case _ => ""
  }

  /** The LG document names the media URL inside its `<res>` element: the
      URL sits right after the element's opening tag and right before its
      closing tag. */
  lemma LgMetadataWrapsMediaUrl(t: Target)
    ensures var r := MetadataForVendor("lg", t);
      var at := |LgPreamble| + |ResOpen|;
      && r[|LgPreamble|..at] == ResOpen
      && r[at..at + |t.mediaUrl|] == t.mediaUrl
      && r[at + |t.mediaUrl|..at + |t.mediaUrl| + |ResClose|] == ResClose
  {
    FivePieces(LgPreamble, ResOpen, t.mediaUrl, ResClose, LgEpilogue);
  }

  /** Two targets get the same LG document exactly when their media URLs
      agree: the control URL plays no part. */
  lemma LgMetadataInjective(t1: Target, t2: Target)
    ensures MetadataForVendor("lg", t1) == MetadataForVendor("lg", t2) <==> t1.mediaUrl == t2.mediaUrl
  {
    var r1, r2 := LgMetadata(t1), LgMetadata(t2);
    if r1 == r2 {
      var n := |LgPreamble| + |ResOpen| + |ResClose| + |LgEpilogue|;
      assert |t1.mediaUrl| == |r1| - n == |t2.mediaUrl|;
      FivePieces(LgPreamble, ResOpen, t1.mediaUrl, ResClose, LgEpilogue);
      FivePieces(LgPreamble, ResOpen, t2.mediaUrl, ResClose, LgEpilogue);
    }
  }

  /** The match is on the exact spelling: "LG" gets no metadata. */
  lemma MetadataCaseSensitive(t: Target)
    ensures MetadataForVendor("LG", t) == ""
    ensures |MetadataForVendor("lg", t)| > 0
  {
  }
}

=== FILE: models.dfy ===
/**
 * The run configuration (`models.Config`) shared by every component, and
 * the capability maps that flow from enrichment into the device cache.
 */
module Models {

  /** One second in nanoseconds, the unit of Go's `time.Duration`. */
  const Second: int := 1_000_000_000

  /** Action name to "supported", as built by SCPD decoding and validation. */
  type Actions = map<string, bool>

  /** MIME type to the DLNA profile strings announced for it, in order. */
  type Media = map<string, seq<string>>

  /** Descriptive device facts keyed by `friendly_name`, `manufacturer`,
      `model_name`, `model_number`, `udn` and `presentation`; the values are
      opaque to the engine. */
  type Identity = map<string, string>

  datatype Config = Config(
    interactive: bool,
    mode: string,
    probeOnly: bool,
    // cache commands
    selectCache: int,
    cacheDetails: int,
    autoCache: bool,
    useCache: bool,
    forgetCache: string,
    listCache: bool,
    showMedia: string,
    showMediaAll: bool,
    showActions: bool,
    // discovery
    discover: bool,
    deepSearch: bool,
    subnet: string,
    ssdpTimeout: int,
    // the renderer
    tip: string,
    tport: string,
    tpath: string,
    tvVendor: string,
    // the local side
    lip: string,
    lfile: string,
    ldir: string,
    servePort: string,
    // resolved from the cache
    cachedConnMgrUrl: string,
    cachedControlUrl: string,
    serverUp: bool
  )

  /** The all-zero `Config{}`. */
  const ZeroConfig: Config := Config(
    false, "", false,
    0, 0, false, false, "", false, "", false, false,
    false, false, "", 0,
    "", "", "", "",
    "", "", "", "",
    "", "", false)

  /** `models.DefaultConfig`: the zero config with the listed overrides. */
  const DefaultConfig: Config := ZeroConfig.(
    ssdpTimeout := 60 * Second,
    discover := false,
    interactive := false,
    selectCache := -1,
    cacheDetails := -1,
    showMedia := "",
    showMediaAll := false,
    showActions := false,
    autoCache := false,
    useCache := true,
    probeOnly := false,
    mode := "auto",
    servePort := "8000",
    ldir := "./directory")
}

=== FILE: order.dfy ===
/**
 * Go's `sort.Strings` order (byte-wise comparison of UTF-8, which is the
 * same as comparing code points) and the two ways the engine turns a map's
 * key set into a sorted slice: collect in map-iteration order then sort, or
 * (canonically) list the keys in ascending order.
 */
module StringOrder {

  /** `a <= b` in lexicographic order. */
  predicate Below(a: string, b: string)
    decreases |a|
  {
    |a| == 0 || (|b| > 0 && (a[0] < b[0] || (a[0] == b[0] && Below(a[1..], b[1..]))))
  }

  predicate Less(a: string, b: string) {
    Below(a, b) && a != b
  }

  lemma {:induction false} BelowReflexive(a: string)
    ensures Below(a, a)
    decreases |a|
  {
    if |a| > 0 {
      BelowReflexive(a[1..]);
    }
  }

  lemma {:induction false} BelowAntisymmetric(a: string, b: string)
    requires Below(a, b) && Below(b, a)
    ensures a == b
    decreases |a|
  {
    if |a| > 0 {
      BelowAntisymmetric(a[1..], b[1..]);
      assert a == [a[0]] + a[1..];
      assert b == [b[0]] + b[1..];
    }
  }

  lemma {:induction false} BelowTransitive(a: string, b: string, c: string)
    requires Below(a, b) && Below(b, c)
    ensures Below(a, c)
    decreases |a|
  {
    if |a| > 0 && a[0] == b[0] && b[0] == c[0] {
      BelowTransitive(a[1..], b[1..], c[1..]);
    }
  }

  lemma {:induction false} BelowTotal(a: string, b: string)
    ensures Below(a, b) || Below(b, a)
    decreases |a|
  {
    if |a| > 0 && |b| > 0 && a[0] == b[0] {
      BelowTotal(a[1..], b[1..]);
    }
  }

  /** Strictly ascending, hence also free of duplicates. */
  predicate StrictlySorted(xs: seq<string>) {
    forall i, j :: 0 <= i < j < |xs| ==> Less(xs[i], xs[j])
  }

  /** Ascending, duplicates allowed: what `sort.Strings` promises. */
  predicate Sorted(xs: seq<string>) {
    forall i, j :: 0 <= i < j < |xs| ==> Below(xs[i], xs[j])
  }

  /** `m` is the smallest element of `s`. */
  predicate IsLeast(m: string, s: set<string>) {
    m in s && forall y :: y in s ==> Below(m, y)
  }

  lemma {:induction false} LeastExists(s: set<string>)
    requires s != {}
    ensures exists m :: IsLeast(m, s)
    decreases |s|
  {
    var x :| x in s;
    if s != {x} {
      LeastExists(s - {x});
      var m :| IsLeast(m, s - {x});
      BelowTotal(x, m);
      if Below(x, m) {
        forall y | y in s
          ensures Below(x, y)
        {
          if y == x {
            BelowReflexive(x);
          } else {
            BelowTransitive(x, m, y);
          }
        }
        assert IsLeast(x, s);
      } else {
        BelowReflexive(m);
        assert IsLeast(m, s);
      }
    } else {
      BelowReflexive(x);
      assert IsLeast(x, s);
    }
  }

  lemma LeastUnique(s: set<string>)
    ensures forall a, b :: IsLeast(a, s) && IsLeast(b, s) ==> a == b
  {
    forall a, b | IsLeast(a, s) && IsLeast(b, s)
      ensures a == b
    {
      BelowAntisymmetric(a, b);
    }
  }

  /** A string below every element of an ascending sequence can head it. */
  lemma ConsSorted(x: string, xs: seq<string>)
    requires Sorted(xs)
    requires forall j :: 0 <= j < |xs| ==> Below(x, xs[j])
    ensures Sorted([x] + xs)
  {
    forall i, j | 0 <= i < j < |[x] + xs|
      ensures Below(([x] + xs)[i], ([x] + xs)[j])
    {
      if i > 0 {
        assert ([x] + xs)[i] == xs[i - 1];
      }
    }
  }

  /** A string strictly below every element of a strictly ascending
      sequence can head it. */
  lemma ConsStrictlySorted(x: string, xs: seq<string>)
    requires StrictlySorted(xs)
    requires forall j :: 0 <= j < |xs| ==> Less(x, xs[j])
    ensures StrictlySorted([x] + xs)
  {
    forall i, j | 0 <= i < j < |[x] + xs|
      ensures Less(([x] + xs)[i], ([x] + xs)[j])
    {
      if i > 0 {
        assert ([x] + xs)[i] == xs[i - 1];
      }
    }
  }

  /** The least key is strictly below every other key. */
  lemma LeastBelowOthers(m: string, s: set<string>, rest: seq<string>)
    requires IsLeast(m, s)
    requires forall x :: x in rest <==> x in s - {m}
    ensures forall j :: 0 <= j < |rest| ==> Less(m, rest[j])
  {
    forall j | 0 <= j < |rest|
      ensures Less(m, rest[j])
    {
      assert rest[j] in s - {m};
    }
  }

  /** The keys of `s` in ascending order: Go's deterministic key listing. */
  function SortedKeys(s: set<string>): (r: seq<string>)
    ensures |r| == |s|
    ensures forall x :: x in r <==> x in s
    ensures StrictlySorted(r)
    decreases |s|
  {
    if s == {} then []
    else
      LeastExists(s);
      LeastUnique(s);
      var m :| IsLeast(m, s);
      var rest := SortedKeys(s - {m});
      LeastBelowOthers(m, s, rest);
      ConsStrictlySorted(m, rest);
      [m] + rest
  }

  /** The first key in ascending order is the least one. */
  lemma SortedKeysHead(s: set<string>)
    requires s != {}
    ensures IsLeast(SortedKeys(s)[0], s)
  {
    var r := SortedKeys(s);
    forall y | y in s
      ensures Below(r[0], y)
    {
      var j :| 0 <= j < |r| && r[j] == y;
      if j == 0 {
        BelowReflexive(y);
      }
    }
  }

  /** Two strictly ascending sequences with the same elements are equal. */
  lemma {:induction false} StrictlySortedUnique(a: seq<string>, b: seq<string>)
    requires StrictlySorted(a) && StrictlySorted(b)
    requires forall x :: x in a <==> x in b
    ensures a == b
    decreases |a|
  {
    assert |b| > 0 ==> b[0] in b;
    if |a| > 0 {
      assert |b| > 0 by {
        assert a[0] in b;
      }
      if a[0] != b[0] {
        assert a[0] in a && b[0] in b;
        var i :| 0 <= i < |b| && b[i] == a[0];
        var j :| 0 <= j < |a| && a[j] == b[0];
        assert Less(b[0], a[0]);
        assert Less(a[0], b[0]);
        BelowAntisymmetric(a[0], b[0]);
      }
      forall x
        ensures x in a[1..] <==> x in b[1..]
      {
        if x in a[1..] {
          var j :| 1 <= j < |a| && a[j] == x;
          assert Less(a[0], x);
          assert x in b;
        }
        if x in b[1..] {
          var j :| 1 <= j < |b| && b[j] == x;
          assert Less(b[0], x);
          assert x in a;
        }
      }
      StrictlySortedUnique(a[1..], b[1..]);
      assert a == [a[0]] + a[1..];
      assert b == [b[0]] + b[1..];
    }
  }

  // ---------------------------------------------------------------------
  // sort.Strings over an arbitrary iteration order
  // ---------------------------------------------------------------------

  /** Below the head of an ascending sequence is below all of it. */
  lemma BelowHeadBelowAll(x: string, xs: seq<string>)
    requires Sorted(xs) && |xs| > 0 && Below(x, xs[0])
    ensures forall j :: 0 <= j < |xs| ==> Below(x, xs[j])
  {
    forall j | 0 <= j < |xs|
      ensures Below(x, xs[j])
    {
      if j > 0 {
        BelowTransitive(x, xs[0], xs[j]);
      }
    }
  }

  /** Inserting `x` above the head keeps the head below everything. */
  lemma HeadBelowInserted(h: string, x: string, tail: seq<string>, rest: seq<string>)
    requires Below(h, x)
    requires forall j :: 0 <= j < |tail| ==> Below(h, tail[j])
    requires multiset(rest) == multiset(tail) + multiset{x}
    ensures forall j :: 0 <= j < |rest| ==> Below(h, rest[j])
  {
    forall j | 0 <= j < |rest|
      ensures Below(h, rest[j])
    {
      var y := rest[j];
      assert y in multiset(rest);
      if y != x {
        assert y in multiset(tail);
        assert y in tail;
      }
    }
  }

  function Insert(x: string, xs: seq<string>): (r: seq<string>)
    requires Sorted(xs)
    ensures Sorted(r)
    ensures multiset(r) == multiset(xs) + multiset{x}
    decreases |xs|
  {
    if |xs| == 0 then [x]
    else if Below(x, xs[0]) then
      BelowHeadBelowAll(x, xs);
      ConsSorted(x, xs);
      [x] + xs
    else
      BelowTotal(x, xs[0]);
      var rest := Insert(x, xs[1..]);
      assert Sorted(xs[1..]);
      BelowReflexive(xs[0]);
      BelowHeadBelowAll(xs[0], xs);
      HeadBelowInserted(xs[0], x, xs[1..], rest);
      ConsSorted(xs[0], rest);
      assert xs == [xs[0]] + xs[1..];
      [xs[0]] + rest
  }

  /** `sort.Strings` applied to the keys in whatever order `range` gave them. */
  function SortStrings(xs: seq<string>): (r: seq<string>)
    ensures Sorted(r)
    ensures multiset(r) == multiset(xs)
    decreases |xs|
  {
    if |xs| == 0 then []
    else
      assert xs == xs[..|xs| - 1] + [xs[|xs| - 1]];
      Insert(xs[|xs| - 1], SortStrings(xs[..|xs| - 1]))
  }

  /** No element occurs twice. */
  predicate Distinct(xs: seq<string>) {
    forall i, j :: 0 <= i < j < |xs| ==> xs[i] != xs[j]
  }

  /** A duplicate-free sequence has as many distinct elements as entries. */
  lemma {:induction false} DistinctCardinality(xs: seq<string>)
    requires Distinct(xs)
    ensures |set x | x in xs| == |xs|
    decreases |xs|
  {
    if |xs| > 0 {
      var t := xs[1..];
      assert Distinct(t);
      DistinctCardinality(t);
      assert (set x | x in xs) == {xs[0]} + (set x | x in t);
      assert xs[0] !in t;
    }
  }

  lemma SortedDistinctIsStrict(xs: seq<string>)
    requires Sorted(xs)
    requires forall x :: x in multiset(xs) ==> multiset(xs)[x] == 1
    ensures StrictlySorted(xs)
  {
    forall i, j | 0 <= i < j < |xs|
      ensures Less(xs[i], xs[j])
    {
      if xs[i] == xs[j] {
        assert multiset(xs)[xs[i]] >= 2 by {
          assert xs == xs[..i] + [xs[i]] + xs[i + 1..j] + [xs[j]] + xs[j + 1..];
        }
      }
    }
  }

  lemma {:induction false} DistinctMultiplicity(xs: seq<string>)
    requires Distinct(xs)
    ensures forall x :: x in multiset(xs) ==> multiset(xs)[x] == 1
    decreases |xs|
  {
    if |xs| > 0 {
      var t := xs[..|xs| - 1];
      assert Distinct(t);
      DistinctMultiplicity(t);
      assert xs == t + [xs[|xs| - 1]];
      assert xs[|xs| - 1] !in t;
    }
  }

  /** Sorting a duplicate-free enumeration of a key set gives the same
      sequence whatever the enumeration order: the result depends only on
      the set. */
  lemma SortStringsIsSortedKeys(xs: seq<string>, s: set<string>)
    requires Distinct(xs)
    requires forall x :: x in xs <==> x in s
    ensures SortStrings(xs) == SortedKeys(s)
  {
    var r := SortStrings(xs);
    DistinctMultiplicity(xs);
    SortedDistinctIsStrict(r);
    forall x
      ensures x in r <==> x in s
    {
      assert x in r <==> x in multiset(r);
      assert x in xs <==> x in multiset(xs);
    }
    StrictlySortedUnique(r, SortedKeys(s));
  }
}

=== FILE: probe.dfy ===
/**
 * The direct AVTransport probe (`probe.go`): a fixed port x path matrix of
 * candidate control URLs, tried in order until the SOAP probe accepts one,
 * under a deadline; and `probeAVTransport`, which turns a found endpoint
 * into a cache update.
 *
 * The per-URL SOAP probe is the oracle `accept`. The deadline is an attempt
 * budget: with a monotone clock the attempts that start before the deadline
 * are a prefix of the matrix, so "attempt k starts" is "k < budget".
 */
module Probe {
  import opened Wrappers
  import opened Models
  import opened Soap
  import opened Scpd
  import opened DeviceCache
  import opened StringOrder

  /** The ports tried, outermost loop, in this order. */
  const ProbePorts: seq<string> := ["9197", "7678", "8187", "9119", "8080"]

  /** The control paths tried without deep search. */
  const DefaultList: seq<string> := [
    "/dmr/upnp/control/AVTransport1",
    "/upnp/control/AVTransport",
    "/MediaRenderer/AVTransport/Control",
    "/AVTransport/control"
  ]

  /** The control paths tried with deep search; one path is listed twice. */
  const BigList: seq<string> := [
    "/upnp/control/AVTransport",
    "/AVTransport/control",
    "/MediaRenderer/AVTransport/Control",
    "/dmr/upnp/control/AVTransport1",
    "/smp_7_/AVTransport",
    "/smp_9_/AVTransport",
    "/upnp/control/AVTransport1",
    "/sony/AVTransport",
    "/upnp/control/AVTransport/1",
    "/upnp/control/AVTransport",
    "/upnp/control/avtransport",
    "/renderer/control/AVTransport",
    "/device/AVTransport/control",
    "/control/AVTransport",
    "/AVTransport/Control",
    "/avtransport/control"
  ]

  function PathList(deep: bool): (r: seq<string>)
    ensures |r| == if deep then 16 else 4
  {
    if deep then BigList else DefaultList
  }

  /** The big list repeats the LG path (in its "common" and its "LG
      webOS" group), so deep search sends that probe twice per port. */
  lemma BigListRepeatsLgPath()
    ensures BigList[0] == BigList[9] == "/upnp/control/AVTransport"
    ensures exists i, j :: 0 <= i < j < |BigList| && BigList[i] == BigList[j]
  {
    assert BigList[0] == BigList[9];
  }

  // ---------------------------------------------------------------------
  // The candidate matrix
  // ---------------------------------------------------------------------

  function CandidateUrl(ip: string, port: string, path: string): string {
    "http://" + ip + ":" + port + path
  }

  /** Two candidates for the same IP with equally long ports are equal only
      when port and path are. */
  lemma CandidateUrlInjective(ip: string, p1: string, q1: string, p2: string, q2: string)
    requires |p1| == |p2|
    requires CandidateUrl(ip, p1, q1) == CandidateUrl(ip, p2, q2)
    ensures p1 == p2 && q1 == q2
  {
    var u := CandidateUrl(ip, p1, q1);
    var n := |"http://" + ip + ":"|;
    assert p1 == u[n..n + |p1|] && q1 == u[n + |p1|..];
    var v := CandidateUrl(ip, p2, q2);
    assert p2 == v[n..n + |p2|] && q2 == v[n + |p2|..];
  }

  /** One port's row of candidates, in path order. */
  function Row(ip: string, port: string, paths: seq<string>): (r: seq<string>)
    ensures |r| == |paths|
    ensures forall j :: 0 <= j < |paths| ==> r[j] == CandidateUrl(ip, port, paths[j])
  {
    seq(|paths|, j requires 0 <= j < |paths| => CandidateUrl(ip, port, paths[j]))
  }

  /** All candidates: ports outer, paths inner. */
  function Candidates(ip: string, ports: seq<string>, paths: seq<string>): (r: seq<string>)
    ensures |r| == |ports| * |paths|
    ensures forall k :: 0 <= k < |r| ==> |r[k]| > |"http://"|
    decreases |ports|
  {
    if |ports| == 0 then []
    else Row(ip, ports[0], paths) + Candidates(ip, ports[1..], paths)
  }

  /** Attempt `i * |paths| + j` (0-based) asks for port `i` and path `j`. */
  lemma {:induction false} CandidateAt(ip: string, ports: seq<string>, paths: seq<string>, i: nat, j: nat)
    requires i < |ports| && j < |paths|
    ensures i * |paths| + j < |ports| * |paths|
    ensures Candidates(ip, ports, paths)[i * |paths| + j] == CandidateUrl(ip, ports[i], paths[j])
    decreases i
  {
    var n := |paths|;
    if i > 0 {
      CandidateAt(ip, ports[1..], paths, i - 1, j);
      assert i * n + j == (i - 1) * n + j + n;
      assert |ports| * n == (|ports| - 1) * n + n;
    }
  }

  // ---------------------------------------------------------------------
  // Probing: the reference definition
  // ---------------------------------------------------------------------

  datatype ProbeError = TimedOut | NotFound

  function ErrorMessage(e: ProbeError): string {
    match e
    case TimedOut => "AVTransport probe timed out"
    case NotFound => "no AVTransport endpoint found"
  }

  /** What a probe run returns, and how many candidates it sent. */
  datatype ProbeRun = ProbeRun(result: Result<string, ProbeError>, attempts: nat)

  /** Probing `cands` from index `k` on: the deadline is looked at before
      each attempt, and exhaustion is reported only after the last one. */
  function ProbeFrom(cands: seq<string>, accept: string -> bool, budget: nat, k: nat): ProbeRun
    requires k <= |cands|
    decreases |cands| - k
  {
    if k == |cands| then ProbeRun(Failure(NotFound), k)
    else if k >= budget then ProbeRun(Failure(TimedOut), k)
    else if accept(cands[k]) then ProbeRun(Success(cands[k]), k + 1)
    else ProbeFrom(cands, accept, budget, k + 1)
  }

  /** What a run means: the first accepted candidate among those the budget
      lets through; a time-out only when the budget runs out first; and the
      exhaustion error only after the whole matrix was rejected. */
  lemma ProbeRunMeaning(cands: seq<string>, accept: string -> bool, budget: nat)
    ensures var run := ProbeFrom(cands, accept, budget, 0);
      && run.attempts <= |cands|
      && (run.result.Success? <==> exists k :: 0 <= k < |cands| && k < budget && accept(cands[k]))
      && (run.result.Success? ==>
            && 0 < run.attempts <= budget
            && cands[run.attempts - 1] == run.result.value
            && accept(run.result.value)
            && forall k :: 0 <= k < run.attempts - 1 ==> !accept(cands[k]))
      && (run.result == Failure(TimedOut) <==>
            budget < |cands| && forall k :: 0 <= k < budget ==> !accept(cands[k]))
      && (run.result == Failure(TimedOut) ==> run.attempts == budget)
      && (run.result == Failure(NotFound) <==>
            budget >= |cands| && forall k :: 0 <= k < |cands| ==> !accept(cands[k]))
      && (run.result == Failure(NotFound) ==> run.attempts == |cands|)
  {
    ProbeFromMeaning(cands, accept, budget, 0);
  }

  lemma {:induction false} ProbeFromMeaning(cands: seq<string>, accept: string -> bool, budget: nat, k: nat)
    requires k <= |cands| && k <= budget
    requires forall i :: 0 <= i < k ==> !accept(cands[i])
    ensures var run := ProbeFrom(cands, accept, budget, k);
      && k <= run.attempts <= |cands|
      && (run.result.Success? <==> exists i :: 0 <= i < |cands| && i < budget && accept(cands[i]))
      && (run.result.Success? ==>
            && 0 < run.attempts <= budget
            && cands[run.attempts - 1] == run.result.value
            && accept(run.result.value)
            && forall i :: 0 <= i < run.attempts - 1 ==> !accept(cands[i]))
      && (run.result == Failure(TimedOut) <==>
            budget < |cands| && forall i :: 0 <= i < budget ==> !accept(cands[i]))
      && (run.result == Failure(TimedOut) ==> run.attempts == budget)
      && (run.result == Failure(NotFound) <==>
            budget >= |cands| && forall i :: 0 <= i < |cands| ==> !accept(cands[i]))
      && (run.result == Failure(NotFound) ==> run.attempts == |cands|)
    decreases |cands| - k
  {
    if k == |cands| {
    } else if k >= budget {
    } else if accept(cands[k]) {
    } else {
      ProbeFromMeaning(cands, accept, budget, k + 1);
    }
  }

  /** The first accepted candidate within the budget is the answer. */
  lemma FirstAcceptedWins(cands: seq<string>, accept: string -> bool, budget: nat, k: nat)
    requires k < |cands| && k < budget && accept(cands[k])
    requires forall i :: 0 <= i < k ==> !accept(cands[i])
    ensures ProbeFrom(cands, accept, budget, 0) == ProbeRun(Success(cands[k]), k + 1)
  {
    ProbeRunMeaning(cands, accept, budget);
    var run := ProbeFrom(cands, accept, budget, 0);
    assert run.result.Success?;
    assert run.attempts - 1 == k;
  }

  // ---------------------------------------------------------------------
  // probeEndpoint
  // ---------------------------------------------------------------------

  /** The nested port/path loop of `probeEndpoint` over given lists. The
      attempt count is the number of SOAP probes sent. */
  method ProbeMatrix(ip: string, ports: seq<string>, paths: seq<string>, accept: string -> bool, budget: nat)
    returns (r: Result<string, ProbeError>, attempts: nat)
    ensures ProbeRun(r, attempts) == ProbeFrom(Candidates(ip, ports, paths), accept, budget, 0)
  {
    ghost var cands := Candidates(ip, ports, paths);
    var n := |paths|;
    attempts := 0;
    var i := 0;
    while i < |ports|
      invariant 0 <= i <= |ports|
      invariant attempts == i * n && attempts <= |cands|
      invariant ProbeFrom(cands, accept, budget, 0) == ProbeFrom(cands, accept, budget, attempts)
    {
      var port := ports[i];
      var j := 0;
      while j < n
        invariant 0 <= j <= n
        invariant attempts == i * n + j && attempts <= |cands|
        invariant ProbeFrom(cands, accept, budget, 0) == ProbeFrom(cands, accept, budget, attempts)
      {
        CandidateAt(ip, ports, paths, i, j);
        if attempts >= budget {
          r := Failure(TimedOut);
          return;
        }
        var url := CandidateUrl(ip, port, paths[j]);
        attempts := attempts + 1;
        if accept(url) {
          r := Success(url);
          return;
        }
        j := j + 1;
      }
      assert attempts == (i + 1) * n;
      i := i + 1;
    }
    r := Failure(NotFound);
  }

  /** The candidates `probeEndpoint` tries for `ip`. */
  function Matrix(ip: string, deep: bool): (r: seq<string>)
    ensures |r| == |ProbePorts| * |PathList(deep)|
  {
    Candidates(ip, ProbePorts, PathList(deep))
  }

  /** `probeEndpoint`: the fixed ports, and the big list under deep search. */
  method ProbeEndpoint(ip: string, deep: bool, accept: string -> bool, budget: nat)
    returns (r: Result<string, ProbeError>, attempts: nat)
    ensures ProbeRun(r, attempts) == ProbeFrom(Matrix(ip, deep), accept, budget, 0)
  {
    var paths := if deep then BigList else DefaultList;
    r, attempts := ProbeMatrix(ip, ProbePorts, paths, accept, budget);
  }

  /** Every attempt index names one (port, path) pair. */
  lemma {:induction false} CandidateIndex(ip: string, ports: seq<string>, paths: seq<string>, k: nat)
    requires k < |Candidates(ip, ports, paths)|
    ensures exists i, j ::
      && 0 <= i < |ports| && 0 <= j < |paths| && k == i * |paths| + j
      && Candidates(ip, ports, paths)[k] == CandidateUrl(ip, ports[i], paths[j])
    decreases |ports|
  {
    var n := |paths|;
    var row := Row(ip, ports[0], paths);
    if k < n {
      assert Candidates(ip, ports, paths)[k] == row[k];
      assert k == 0 * n + k;
    } else {
      CandidateIndex(ip, ports[1..], paths, k - n);
      var i, j :| 0 <= i < |ports| - 1 && 0 <= j < n && k - n == i * n + j
        && Candidates(ip, ports[1..], paths)[k - n] == CandidateUrl(ip, ports[1..][i], paths[j]);
      assert k == (i + 1) * n + j;
      assert Candidates(ip, ports, paths)[k] == CandidateUrl(ip, ports[i + 1], paths[j]);
    }
  }

  /** When only the candidate for port `i0` and path `j0` answers, and the
      ports are equally long and the lists free of duplicates, the probe
      finds it on attempt `i0 * |paths| + j0 + 1`. */
  lemma OnlyAnswerIsFound(ip: string, ports: seq<string>, paths: seq<string>, i0: nat, j0: nat, budget: nat)
    requires i0 < |ports| && j0 < |paths|
    requires forall i :: 0 <= i < |ports| ==> |ports[i]| == |ports[i0]|
    requires Distinct(ports) && Distinct(paths)
    requires budget > i0 * |paths| + j0
    ensures var url := CandidateUrl(ip, ports[i0], paths[j0]);
      ProbeFrom(Candidates(ip, ports, paths), u => u == url, budget, 0)
        == ProbeRun(Success(url), i0 * |paths| + j0 + 1)
  {
    var url := CandidateUrl(ip, ports[i0], paths[j0]);
    var cands := Candidates(ip, ports, paths);
    var accept := (u: string) => u == url;
    var k0 := i0 * |paths| + j0;
    CandidateAt(ip, ports, paths, i0, j0);
    forall k | 0 <= k < k0
      ensures !accept(cands[k])
    {
      CandidateIndex(ip, ports, paths, k);
      var i, j :| 0 <= i < |ports| && 0 <= j < |paths| && k == i * |paths| + j
        && cands[k] == CandidateUrl(ip, ports[i], paths[j]);
      if cands[k] == url {
        CandidateUrlInjective(ip, ports[i], paths[j], ports[i0], paths[j0]);
        assert false;
      }
    }
    FirstAcceptedWins(cands, accept, budget, k0);
  }

  /** With the default list, a renderer answering only at port 8187 on
      "/AVTransport/control" is found by the 12th probe. */
  lemma DefaultListFinds8187OnTwelfthAttempt(ip: string, budget: nat)
    requires budget >= 12
    ensures var url := CandidateUrl(ip, "8187", "/AVTransport/control");
      ProbeFrom(Matrix(ip, false), u => u == url, budget, 0) == ProbeRun(Success(url), 12)
  {
    var ports := ProbePorts;
    assert Distinct(ports) by {
      assert ports[0][1] == '1' && ports[1][1] == '6' && ports[2][1] == '1' && ports[3][1] == '1' && ports[4][1] == '0';
      assert ports[0][0] == '9' && ports[2][0] == '8' && ports[3][0] == '9';
      assert ports[0][2] == '9' && ports[3][2] == '1';
    }
    var paths := DefaultList;
    assert Distinct(paths) by {
      assert |paths[0]| == 30 && |paths[1]| == 25 && |paths[2]| == 34 && |paths[3]| == 20;
    }
    OnlyAnswerIsFound(ip, ports, paths, 2, 3, budget);
  }

  // ---------------------------------------------------------------------
  // probeAVTransport
  // ---------------------------------------------------------------------

  /** Where a probe leaves the run: its verdict, the error text, and the
      possibly updated config and store. */
  datatype Outcome = Outcome(ok: bool, err: Option<string>, cfg: Config, store: Store)

  /** The cache update a successful probe builds: the vendor the user gave,
      the found URL, the identity only when it was fetched, and the
      validated actions when there are any. */
  function ProbeUpdate(cfg: Config, url: string, identity: Result<Identity, string>, observed: Actions): (u: Device)
    ensures u.controlUrl == url && u.vendor == cfg.tvVendor && u.connMgrUrl == ""
    ensures u.identity.Some? <==> identity.Success?
    ensures identity.Success? ==> u.identity.value == identity.value
    ensures u.actions.Some? <==> |observed| > 0
    ensures |observed| > 0 ==> u.actions.value == observed
    ensures u.media.None?
  {
    Device(
      cfg.tvVendor, url, "",
      if identity.Success? then Some(identity.value) else None,
      if |observed| > 0 then Some(observed) else None,
      None)
  }

  /** `probeAVTransport` over a candidate list `cands` and an action
      validator `validate`. */
  function ProbeOver(
    cfg: Config, s: Store, cands: seq<string>, accept: string -> bool, budget: nat,
    validate: string -> Actions, identity: Result<Identity, string>, now: nat): (o: Outcome)
    ensures cfg.tip == "" ==> !o.ok && o.err == Some("probe requires -Tip")
    ensures o.err.Some? <==> !o.ok
    ensures !o.ok ==> o.store == s
    ensures o.cfg == if o.ok then cfg.(cachedControlUrl := o.cfg.cachedControlUrl) else cfg
  {
    if cfg.tip == "" then Outcome(false, Some("probe requires -Tip"), cfg, s)
    else
      var run := ProbeFrom(cands, accept, budget, 0);
      match run.result
      case Failure(e) => Outcome(false, Some(ErrorMessage(e)), cfg, s)
      case Success(url) =>
        var cfg' := cfg.(cachedControlUrl := url);
        Outcome(true, None, cfg', StoreInCache(cfg', s, ProbeUpdate(cfg, url, identity, validate(url)), now))
  }

  /** `probeAVTransport`: probe the matrix for `cfg.tip`, validate the safe
      actions at the found URL through `send`, and record the result. The
      identity lookup of the renderer's root is the opaque `identity`.
      Success means some candidate within the budget answered, and the
      first such candidate becomes the cached control URL; the record
      written for the IP then carries exactly the seven validated safe
      actions at that URL. */
  function ProbeAvTransport(
    cfg: Config, s: Store, accept: string -> bool, budget: nat,
    send: HttpRequest -> HttpOutcome, identity: Result<Identity, string>, now: nat): (o: Outcome)
    ensures cfg.tip == "" ==> !o.ok && o.err == Some("probe requires -Tip") && o.store == s && o.cfg == cfg
    ensures var m := Matrix(cfg.tip, cfg.deepSearch);
      cfg.tip != "" ==> (o.ok <==> exists k :: 0 <= k < |m| && k < budget && accept(m[k]))
    ensures var m := Matrix(cfg.tip, cfg.deepSearch);
      o.ok ==> exists k :: 0 <= k < |m| && k < budget && m[k] == o.cfg.cachedControlUrl && accept(m[k])
    ensures var url := o.cfg.cachedControlUrl;
      o.ok && WritesCache(cfg) ==>
        && cfg.tip in o.store && url in o.store[cfg.tip].endpoints
        && o.store[cfg.tip].endpoints[url].actions == Some(ValidateActions(url, send))
  {
    var m := Matrix(cfg.tip, cfg.deepSearch);
    var validate := url => ValidateActions(url, send);
    if cfg.tip == "" then
      ProbeOver(cfg, s, m, accept, budget, validate, identity, now)
    else
      ProbeVerdict(cfg, s, m, accept, budget, validate, identity, now);
      MatrixUrlsNonEmpty(cfg.tip, cfg.deepSearch);
      if WritesCache(cfg) then
        ProbeStores(cfg, s, m, accept, budget, validate, identity, now);
        ProbeOver(cfg, s, m, accept, budget, validate, identity, now)
      else ProbeOver(cfg, s, m, accept, budget, validate, identity, now)
  }

  /** No candidate URL is empty. */
  lemma MatrixUrlsNonEmpty(ip: string, deep: bool)
    ensures forall k :: 0 <= k < |Matrix(ip, deep)| ==> Matrix(ip, deep)[k] != ""
  {
    forall k | 0 <= k < |Matrix(ip, deep)|
      ensures Matrix(ip, deep)[k] != ""
    {
      CandidateIndex(ip, ProbePorts, PathList(deep), k);
      var i, j :| 0 <= i < |ProbePorts| && 0 <= j < |PathList(deep)| && k == i * |PathList(deep)| + j
        && Candidates(ip, ProbePorts, PathList(deep))[k] == CandidateUrl(ip, ProbePorts[i], PathList(deep)[j]);
      assert |CandidateUrl(ip, ProbePorts[i], PathList(deep)[j])| >= 7;
    }
  }

  /** Without a target IP nothing is probed and nothing changes. */
  lemma ProbeNeedsTip(cfg: Config, s: Store, cands: seq<string>, accept: string -> bool, budget: nat,
                      validate: string -> Actions, identity: Result<Identity, string>, now: nat)
    requires cfg.tip == ""
    ensures var o := ProbeOver(cfg, s, cands, accept, budget, validate, identity, now);
      !o.ok && o.err == Some("probe requires -Tip") && o.cfg == cfg && o.store == s
  {
  }

  /** The probe succeeds exactly when some candidate within the budget is
      accepted, and then the cached control URL is the first such
      candidate; a failure says "timed out" exactly when the budget ran out
      before the matrix did. */
  lemma ProbeVerdict(cfg: Config, s: Store, cands: seq<string>, accept: string -> bool, budget: nat,
                     validate: string -> Actions, identity: Result<Identity, string>, now: nat)
    requires cfg.tip != ""
    ensures var o := ProbeOver(cfg, s, cands, accept, budget, validate, identity, now);
      && (o.ok <==> exists k :: 0 <= k < |cands| && k < budget && accept(cands[k]))
      && (o.ok ==> exists k ::
            && 0 <= k < |cands| && k < budget && cands[k] == o.cfg.cachedControlUrl
            && accept(cands[k]) && forall i :: 0 <= i < k ==> !accept(cands[i]))
      && (!o.ok ==> (o.err == Some(ErrorMessage(TimedOut)) <==> budget < |cands|))
  {
    ProbeRunMeaning(cands, accept, budget);
    var run := ProbeFrom(cands, accept, budget, 0);
    if run.result.Success? {
      assert cands[run.attempts - 1] == run.result.value;
    } else {
      assert ErrorMessage(TimedOut) != ErrorMessage(NotFound);
    }
  }

  /** A found endpoint is stored under the target IP with the validated
      actions (when there are any) and with the identity whenever the
      lookup succeeded; other IPs are untouched. */
  lemma ProbeStores(cfg: Config, s: Store, cands: seq<string>, accept: string -> bool, budget: nat,
                    validate: string -> Actions, identity: Result<Identity, string>, now: nat)
    requires cfg.tip != "" && WritesCache(cfg)
    requires forall k :: 0 <= k < |cands| ==> cands[k] != ""
    ensures var o := ProbeOver(cfg, s, cands, accept, budget, validate, identity, now);
      var url := o.cfg.cachedControlUrl;
      o.ok ==>
        && cfg.tip in o.store
        && url in o.store[cfg.tip].endpoints
        && (|validate(url)| > 0 ==> o.store[cfg.tip].endpoints[url].actions == Some(validate(url)))
        && (identity.Success? ==> o.store[cfg.tip].identity == Some(identity.value))
        && (forall ip :: ip in s && ip != cfg.tip ==> ip in o.store && o.store[ip] == s[ip])
  {
    ProbeRunMeaning(cands, accept, budget);
    var run := ProbeFrom(cands, accept, budget, 0);
    if run.result.Success? {
      var url := run.result.value;
      assert url == cands[run.attempts - 1];
      var cfg' := cfg.(cachedControlUrl := url);
      StoreInCacheTouchedEndpoint(cfg', s, ProbeUpdate(cfg, url, identity, validate(url)), now);
    }
  }
}

=== FILE: scan.dfy ===
/**
 * Subnet scanning (`avtransport/scan.go`): CIDR expansion on 32-bit
 * addresses, the dotted-quad conversions, and the scan loop.
 *
 * `net.ParseCIDR` is not modelled: its result is the parameter `parsed`,
 * an address with its prefix length (at most 32 for IPv4), or the parse
 * error. Addresses are naturals below 2^32; the bit operations are those
 * of `Bits32`. Or-ing bytes shifted to disjoint positions is written as
 * their sum.
 */
module Scan {
  import opened Wrappers
  import opened Text
  import opened Bits32
  import opened Models

  type Prefix = p: nat | p <= 32

  const WordLimit: nat := 0x1_0000_0000

  datatype IpAddr = V4(a: Byte, b: Byte, c: Byte, d: Byte) | V6
  datatype Cidr = Cidr(ip: IpAddr, prefix: Prefix)

  // ---------------------------------------------------------------------
  // Conversions
  // ---------------------------------------------------------------------

  /** `ipToUint32`: the four bytes, most significant first. */
  function IpToUint32(q: IpAddr): (n: nat)
    requires q.V4?
    ensures n < WordLimit
  {
    q.a * 0x100_0000 + q.b * 0x1_0000 + q.c * 0x100 + q.d
  }

  /** `byte(x)`: the low eight bits. */
  function ToByte(x: nat): (r: Byte)
    ensures r == Low(x, 8)
  {
    HighLow(x, 8);
    Pow2Values();
    Low(x, 8)
  }

  /** The four bytes of a word, as `byte(n >> 24)` … `byte(n)` give them. */
  function Octets(n: nat): (q: IpAddr)
    ensures q.V4?
  {
    V4(ToByte(High(n, 24)), ToByte(High(n, 16)), ToByte(High(n, 8)), ToByte(n))
  }

  /** The dotted-quad text of an IPv4 address. */
  function Dotted(q: IpAddr): string
    requires q.V4?
  {
    Join([NatToDec(q.a), NatToDec(q.b), NatToDec(q.c), NatToDec(q.d)], ".")
  }

  /** `uint32ToIP`. */
  function Uint32ToIp(n: nat): (r: string)
    requires n < WordLimit
    ensures ParseDotted(r) == Some(n)
  {
    ParseDottedOctets(n);
    Dotted(Octets(n))
  }

  /** Bytes to word and back gives the bytes. */
  lemma OctetsOfIp(q: IpAddr)
    requires q.V4?
    ensures Octets(IpToUint32(q)) == q
  {
    var n := IpToUint32(q);
    var h16 := q.a * 0x100 + q.b;
    var h8 := h16 * 0x100 + q.c;
    Pow2Values();
    HighLowUnique(n, 24, q.a, q.b * 0x1_0000 + q.c * 0x100 + q.d);
    HighLowUnique(n, 16, h16, q.c * 0x100 + q.d);
    HighLowUnique(n, 8, h8, q.d);
    HighLowUnique(q.a, 8, 0, q.a);
    HighLowUnique(h16, 8, q.a, q.b);
    HighLowUnique(h8, 8, h16, q.c);
  }

  /** Word to bytes and back gives the word. */
  lemma IpOfOctets(n: nat)
    requires n < WordLimit
    ensures IpToUint32(Octets(n)) == n
  {
    var h8, h16, h24 := High(n, 8), High(n, 16), High(n, 24);
    Pow2Values();
    HighHigh(n, 8, 8);
    HighHigh(n, 16, 8);
    HighLow(n, 8);
    HighLow(h8, 8);
    HighLow(h16, 8);
    HighLow(n, 24);
    assert h24 < 0x100;
    HighLowUnique(h24, 8, 0, h24);
  }

  /** `uint32ToIP(ipToUint32(ip))` prints the address it was given. */
  lemma Uint32ToIpOfIp(q: IpAddr)
    requires q.V4?
    ensures Uint32ToIp(IpToUint32(q)) == Dotted(q)
  {
    OctetsOfIp(q);
  }

  /** Reading a dotted quad back: four decimal fields below 256 separated
      by ".". */
  function ParseDotted(s: string): (r: Option<nat>)
  {
    var parts := Split(s, ".");
    if |parts| == 4 && AllDigits(parts[0]) && AllDigits(parts[1]) && AllDigits(parts[2]) && AllDigits(parts[3])
       && DigitsValue(parts[0]) < 0x100 && DigitsValue(parts[1]) < 0x100
       && DigitsValue(parts[2]) < 0x100 && DigitsValue(parts[3]) < 0x100
    then Some(IpToUint32(V4(DigitsValue(parts[0]), DigitsValue(parts[1]), DigitsValue(parts[2]), DigitsValue(parts[3]))))
    else None
  }

  /** The dotted quad of a word's bytes reads back as the same word. */
  lemma ParseDottedOctets(n: nat)
    requires n < WordLimit
    ensures ParseDotted(Dotted(Octets(n))) == Some(n)
  {
    var q := Octets(n);
    var parts := [NatToDec(q.a), NatToDec(q.b), NatToDec(q.c), NatToDec(q.d)];
    forall i | 0 <= i < 4
      ensures '.' !in parts[i]
    {
      assert AllDigits(parts[i]);
    }
    SplitJoin(parts, '.');
    NatToDecRoundTrip(q.a);
    NatToDecRoundTrip(q.b);
    NatToDecRoundTrip(q.c);
    NatToDecRoundTrip(q.d);
    IpOfOctets(n);
  }

  // ---------------------------------------------------------------------
  // expandCIDR
  // ---------------------------------------------------------------------

  /** `netmaskToUint32` of the IPv4 mask with `p` leading ones. */
  function Netmask(p: Prefix): nat {
    HighMask(32, 32 - p)
  }

  /** The address range `[lo, hi)`, ascending. */
  function Range(lo: nat, hi: nat): (r: seq<nat>)
    ensures |r| == if lo < hi then hi - lo else 0
    ensures forall i :: 0 <= i < |r| ==> r[i] == lo + i
  {
    seq(if lo < hi then hi - lo else 0, i requires 0 <= i => lo + i)
  }

  /** Every number of `[lo, hi)` is in the range. */
  lemma RangeCovers(lo: nat, hi: nat)
    ensures forall h :: lo <= h < hi ==> h in Range(lo, hi)
  {
    var r := Range(lo, hi);
    forall h | lo <= h < hi
      ensures h in r
    {
      assert r[h - lo] == h;
    }
  }

  /** The network address `start & mask` of the word `start` under prefix
      `p`: its low `32 - p` bits cleared (`NetworkIsMasked` shows the two
      agree). */
  function Network(start: nat, p: Prefix): (net: nat)
    ensures net <= start
  {
    LowBound(start, 32 - p);
    start - Low(start, 32 - p)
  }

  /** The broadcast address `network | ^mask`: the network address with its
      low `32 - p` bits set. */
  function Broadcast(start: nat, p: Prefix): nat {
    Network(start, p) + Pow2(32 - p) - 1
  }

  /** The network address is the one the masking in `expandCIDR`
      computes on 32-bit words. */
  lemma NetworkIsMasked(start: nat, p: Prefix)
    requires start < WordLimit
    ensures Network(start, p) == And(start, Netmask(p), 32)
  {
    Pow2Values();
    MaskedBlock(start, 32, 32 - p, Network(start, p), Netmask(p));
  }

  /** So is the broadcast address. */
  lemma BroadcastIsMasked(start: nat, p: Prefix)
    requires start < WordLimit
    ensures Broadcast(start, p) == Or(Network(start, p), Not(Netmask(p), 32), 32)
  {
    Pow2Values();
    MaskedBlock(start, 32, 32 - p, Network(start, p), Netmask(p));
  }

  /** The network address has no host bits, and the whole block fits in
      the 32-bit address space. */
  lemma NetworkAndBroadcast(start: nat, p: Prefix)
    requires start < WordLimit
    ensures Low(Network(start, p), 32 - p) == 0
    ensures Network(start, p) + Pow2(32 - p) <= WordLimit
  {
    var k := 32 - p;
    Pow2Values();
    LowOfCleared(start, k);
    BlockTop(start - Low(start, k), 32, k);
  }

  /** The host addresses as the loop of `expandCIDR` produces them, with the
      start `network + 1` computed in uint32, where it wraps to 0. */
  function ExpandAddrsAsWritten(start: nat, p: Prefix): (r: seq<nat>)
    ensures Network(start, p) + 1 < WordLimit ==> r == ExpandAddrs(start, p)
    ensures Network(start, p) + 1 == WordLimit ==>
      |r| == Broadcast(start, p) && (|r| > 0 ==> r[0] == 0)
    ensures forall i :: 0 <= i < |r| ==> r[i] < Broadcast(start, p)
  {
    var net := Network(start, p);
    var lo := (net + 1) % WordLimit;
    assert net + 1 < WordLimit ==> lo == net + 1;
    assert net + 1 == WordLimit ==> lo == 0;
    Range(lo, Broadcast(start, p))
  }

  /** The host addresses: every address strictly between network and
      broadcast address, each once, ascending. */
  function ExpandAddrs(start: nat, p: Prefix): (r: seq<nat>)
    ensures forall i :: 0 <= i < |r| ==> Network(start, p) < r[i] < Broadcast(start, p)
    ensures forall i, j :: 0 <= i < j < |r| ==> r[i] < r[j]
    ensures forall h :: Network(start, p) < h < Broadcast(start, p) ==> h in r
  {
    RangeCovers(Network(start, p) + 1, Broadcast(start, p));
    Range(Network(start, p) + 1, Broadcast(start, p))
  }

  /** The hosts are ascending, exclude network and broadcast address, and
      there are 2^(32-p) - 2 of them for p <= 30 and none for /31 and /32. */
  lemma ExpandAddrsMeaning(start: nat, p: Prefix)
    ensures var r := ExpandAddrs(start, p);
      && (forall i, j :: 0 <= i < j < |r| ==> r[i] < r[j])
      && (forall i :: 0 <= i < |r| ==> Network(start, p) < r[i] < Broadcast(start, p))
      && |r| == (if p <= 30 then Pow2(32 - p) - 2 else 0)
  {
    var k := 32 - p;
    if k >= 2 {
      PowMonotone(2, k);
      assert Pow2(2) == 4;
    } else if k == 1 {
      assert Pow2(1) == 2;
    }
  }

  /** Every host lies in the block: masking it with the prefix mask gives
      the network address. */
  lemma ExpandAddrsInBlock(start: nat, p: Prefix)
    requires start < WordLimit
    ensures var r := ExpandAddrs(start, p);
      forall i :: 0 <= i < |r| ==> r[i] < WordLimit && And(r[i], Netmask(p), 32) == Network(start, p)
  {
    var net := Network(start, p);
    var k := 32 - p;
    var r := ExpandAddrs(start, p);
    NetworkAndBroadcast(start, p);
    Pow2Values();
    forall i | 0 <= i < |r|
      ensures r[i] < WordLimit && And(r[i], Netmask(p), 32) == net
    {
      LowOfOffset(net, i + 1, k);
      AndHighMask(r[i], 32, k);
    }
  }

  /** A /24 block: the 254 hosts .1 … .254. */
  lemma ExpandSlash24(a: Byte, b: Byte, c: Byte, d: Byte)
    ensures var r := ExpandAddrs(IpToUint32(V4(a, b, c, d)), 24);
      && |r| == 254
      && Octets(r[0]) == V4(a, b, c, 1)
      && Octets(r[253]) == V4(a, b, c, 254)
  {
    var start := IpToUint32(V4(a, b, c, d));
    var h := a * 0x1_0000 + b * 0x100 + c;
    Pow2Values();
    assert start == Pow2(8) * h + d;
    HighLowUnique(start, 8, h, d);
    ExpandAddrsMeaning(start, 24);
    var r := ExpandAddrs(start, 24);
    assert r[0] == IpToUint32(V4(a, b, c, 1));
    assert r[253] == IpToUint32(V4(a, b, c, 254));
    OctetsOfIp(V4(a, b, c, 1));
    OctetsOfIp(V4(a, b, c, 254));
  }

  /** The all-ones address with prefix 32 (`255.255.255.255/32`): network
      and broadcast are both the all-ones word, `network + 1` wraps to 0, and
      the loop as written yields every other address, 2^32 - 1 of them,
      starting at 0.0.0.0; the intended expansion is empty. */
  lemma ExpandAllOnesAsWritten()
    ensures IpToUint32(V4(255, 255, 255, 255)) == WordLimit - 1
    ensures |ExpandAddrsAsWritten(WordLimit - 1, 32)| == WordLimit - 1
    ensures ExpandAddrsAsWritten(WordLimit - 1, 32)[0] == 0
    ensures ExpandAddrs(WordLimit - 1, 32) == []
  {
    var start := WordLimit - 1;
    assert Low(start, 0) == 0;
    assert Pow2(0) == 1;
    assert Network(start, 32) == start;
    assert Broadcast(start, 32) == start;
    assert (start + 1) % WordLimit == 0;
    assert ExpandAddrsAsWritten(start, 32) == Range(0, start);
  }

  /** Everywhere else the loop as written is the intended one. */
  lemma ExpandAsWrittenAgrees(start: nat, p: Prefix)
    requires start < WordLimit
    requires start != WordLimit - 1 || p != 32
    ensures ExpandAddrsAsWritten(start, p) == ExpandAddrs(start, p)
  {
    var net := Network(start, p);
    var k := 32 - p;
    NetworkAndBroadcast(start, p);
    assert net + 1 < WordLimit by {
      if k > 0 {
        assert Pow2(k) == 2 * Pow2(k - 1);
      } else {
        assert Low(start, 0) == 0;
      }
    }
    assert (net + 1) % WordLimit == net + 1;
  }

  /** `expandCIDR`: the parse error, the IPv4-only error, or the hosts of
      the block in dotted-quad form. */
  function ExpandCidr(parsed: Result<Cidr, string>): (r: Result<seq<string>, string>)
    ensures parsed.Failure? ==> r == Failure(parsed.error)
    ensures parsed.Success? && parsed.value.ip.V6? ==> r == Failure("only IPv4 CIDR supported")
    ensures parsed.Success? && parsed.value.ip.V4? ==>
      r.Success? && |r.value| == |ExpandAddrs(IpToUint32(parsed.value.ip), parsed.value.prefix)|
  {
    match parsed
    case Failure(e) => Failure(e)
    case Success(c) =>
      if c.ip.V6? then Failure("only IPv4 CIDR supported")
      else
        var start := IpToUint32(c.ip);
        var addrs := ExpandAddrs(start, c.prefix);
        NetworkAndBroadcast(start, c.prefix);
        ExpandAddrsMeaning(start, c.prefix);
        Success(seq(|addrs|, i requires 0 <= i < |addrs| => Uint32ToIp(addrs[i])))
  }

  /** Every host `expandCIDR` lists reads back as the address at the same
      position of the block's host range: the listing is the hosts of the
      block and nothing else, in ascending order. */
  lemma ExpandCidrHosts(c: Cidr)
    requires c.ip.V4?
    ensures var r := ExpandCidr(Success(c)).value;
      var addrs := ExpandAddrs(IpToUint32(c.ip), c.prefix);
      forall i :: 0 <= i < |r| ==> ParseDotted(r[i]) == Some(addrs[i])
  {
    var start := IpToUint32(c.ip);
    var addrs := ExpandAddrs(start, c.prefix);
    var r := ExpandCidr(Success(c)).value;
    ExpandAddrsInBlock(start, c.prefix);
    forall i | 0 <= i < |r|
      ensures ParseDotted(r[i]) == Some(addrs[i])
    {
      assert r[i] == Uint32ToIp(addrs[i]);
    }
  }

  /** `expandCIDR` as written: the same errors, and the dotted quads of
      the host loop whose start `network + 1` is computed in uint32. */
  function ExpandCidrAsWritten(parsed: Result<Cidr, string>): (r: Result<seq<string>, string>)
    ensures parsed.Failure? ==> r == Failure(parsed.error)
    ensures parsed.Success? && parsed.value.ip.V6? ==> r == Failure("only IPv4 CIDR supported")
    ensures parsed.Success? && parsed.value.ip.V4? ==>
      var addrs := ExpandAddrsAsWritten(IpToUint32(parsed.value.ip), parsed.value.prefix);
      && r.Success? && |r.value| == |addrs|
      && forall i :: 0 <= i < |r.value| ==> ParseDotted(r.value[i]) == Some(addrs[i])
  {
    match parsed
    case Failure(e) => Failure(e)
    case Success(c) =>
      if c.ip.V6? then Failure("only IPv4 CIDR supported")
      else
        var start := IpToUint32(c.ip);
        var addrs := ExpandAddrsAsWritten(start, c.prefix);
        NetworkAndBroadcast(start, c.prefix);
        Success(seq(|addrs|, i requires 0 <= i < |addrs| => Uint32ToIp(addrs[i])))
  }

  /** Only the all-ones /32 block is expanded differently by the loop as
      written. */
  lemma ExpandCidrAsWrittenAgrees(parsed: Result<Cidr, string>)
    requires parsed != Success(Cidr(V4(255, 255, 255, 255), 32))
    ensures ExpandCidrAsWritten(parsed) == ExpandCidr(parsed)
  {
    if parsed.Success? && parsed.value.ip.V4? {
      var c := parsed.value;
      var start := IpToUint32(c.ip);
      assert start == WordLimit - 1 ==> c.ip == V4(255, 255, 255, 255);
      ExpandAsWrittenAgrees(start, c.prefix);
    }
  }

  /** For `255.255.255.255/32` the written expansion lists 2^32 - 1 hosts
      starting at 0.0.0.0, where the intended one lists none. */
  lemma ExpandCidrAllOnesAsWritten()
    ensures var r := ExpandCidrAsWritten(Success(Cidr(V4(255, 255, 255, 255), 32)));
      r.Success? && |r.value| == WordLimit - 1 && ParseDotted(r.value[0]) == Some(0)
    ensures ExpandCidr(Success(Cidr(V4(255, 255, 255, 255), 32))) == Success([])
  {
    ExpandAllOnesAsWritten();
  }

  // ---------------------------------------------------------------------
  // ScanSubnet
  // ---------------------------------------------------------------------

  /** The hosts at which the probe succeeded, in scan order. */
  function Found(ips: seq<string>, cfg: Config, probe: Config -> bool): (r: seq<string>)
    ensures forall ip :: ip in r <==> ip in ips && probe(cfg.(tip := ip))
    decreases |ips|
  {
    if |ips| == 0 then []
    else
      var init := ips[..|ips| - 1];
      var ip := ips[|ips| - 1];
      assert ips == init + [ip];
      Found(init, cfg, probe) + (if probe(cfg.(tip := ip)) then [ip] else [])
  }

  /** The probing loop: every host in order, with the target IP set to it;
      a failed or erroring probe moves on to the next host. */
  method ProbeHosts(cfg: Config, ips: seq<string>, probe: Config -> bool) returns (found: seq<string>)
    ensures found == Found(ips, cfg, probe)
  {
    found := [];
    var i := 0;
    while i < |ips|
      invariant 0 <= i <= |ips|
      invariant found == Found(ips[..i], cfg, probe)
    {
      assert ips[..i + 1][..i] == ips[..i];
      if probe(cfg.(tip := ips[i])) {
        found := found + [ips[i]];
      }
      i := i + 1;
    }
    assert ips[..|ips|] == ips;
  }

  /** `ScanSubnet`: an invalid subnet is fatal; otherwise every host the
      written `expandCIDR` lists is probed in order. */
  method ScanSubnet(cfg: Config, parsed: Result<Cidr, string>, probe: Config -> bool)
    returns (fatal: Option<string>, probed: seq<string>, found: seq<string>)
    ensures ExpandCidrAsWritten(parsed).Failure? ==>
      fatal == Some("Invalid subnet: " + ExpandCidrAsWritten(parsed).error) && probed == [] && found == []
    ensures ExpandCidrAsWritten(parsed).Success? ==>
      fatal.None? && probed == ExpandCidrAsWritten(parsed).value && found == Found(probed, cfg, probe)
  {
    var expanded := ExpandCidrAsWritten(parsed);
    if expanded.Failure? {
      return Some("Invalid subnet: " + expanded.error), [], [];
    }
    probed := expanded.value;
    fatal := None;
    found := ProbeHosts(cfg, probed, probe);
  }
}

=== FILE: scpd.dfy ===
/**
 * Action discovery (`scpd.go`): the action set decoded from a service
 * description, and the validation of a fixed whitelist of safe actions by
 * probing each one at the control URL.
 */
module Scpd {
  import opened Wrappers
  import opened Models
  import opened Soap
  import opened StringOrder

  /** `FetchActions` after the HTTP GET and the XML decode: `decoded` is the
      list of `<action><name>` values, or the transport/decode error. Every
      name maps to true; an error gives no map. */
  function FetchActions(decoded: Result<seq<string>, string>): (r: Result<Actions, string>)
    ensures decoded.Failure? ==> r == Failure(decoded.error)
    ensures decoded.Success? ==>
      && r.Success?
      && (forall a :: a in r.value <==> a in decoded.value)
      && (forall a :: a in r.value ==> r.value[a])
  {
    match decoded
    case Failure(e) => Failure(e)
    case Success(names) => Success(map a | a in names :: true)
  }

  /** `safeActions`: read-only or reversible actions, in declared order. */
  const SafeActions: seq<string> := [
    "GetTransportInfo",
    "GetPositionInfo",
    "GetMediaInfo",
    "GetDeviceCapabilities",
    "GetTransportSettings",
    "Stop",
    "Pause"
  ]

  /** The probe body for one action: the action element in the
      AVTransport:1 namespace, carrying InstanceID 0. */
  function ActionBody(action: string): string {
    "<u:" + action + " xmlns:u=\"" + AvTransportNs + "\">\n\t\t\t<InstanceID>0</InstanceID>\n\t\t</u:" + action + ">"
  }

  /** `ValidateActions`: probes every safe action at `url` and records
      whether the endpoint answered. */
  function ValidateActions(url: string, send: HttpRequest -> HttpOutcome): (r: Actions)
    ensures forall a :: a in r <==> a in SafeActions
    ensures forall a :: a in r ==> r[a] == SoapProbe(url, ActionBody(a), send)
    ensures |r| > 0
  {
    var r := map a | a in SafeActions :: SoapProbe(url, ActionBody(a), send);
    NonEmptyMap(r, SafeActions[0]);
    r
  }

  /** A map with a key is not empty. */
  lemma NonEmptyMap(m: Actions, k: string)
    requires k in m
    ensures |m| > 0
  {
    assert k in m.Keys;
  }

  /** A map keyed by exactly the entries of a duplicate-free list has one
      key per entry. */
  lemma KeyedBySize(actions: seq<string>, m: Actions)
    requires Distinct(actions)
    requires forall a :: a in m <==> a in actions
    ensures |m| == |actions|
  {
    DistinctCardinality(actions);
    assert m.Keys == set a | a in actions;
  }

  /** The seven safe actions are pairwise different (their lengths are). */
  lemma SafeActionsDistinct()
    ensures Distinct(SafeActions)
  {
    var lens := seq(|SafeActions|, i requires 0 <= i < |SafeActions| => |SafeActions[i]|);
    assert lens == [16, 15, 12, 21, 20, 4, 5];
  }

  /** Even when every probe fails, all seven keys are present, each false:
      the map is never empty. */
  lemma ValidateActionsAllFail(url: string)
    ensures var r := ValidateActions(url, _ => TransportError);
      && |r| == |SafeActions| == 7
      && forall a :: a in r ==> !r[a]
  {
    SafeActionsDistinct();
    KeyedBySize(SafeActions, ValidateActions(url, _ => TransportError));
  }
}

=== FILE: script.dfy ===
/**
 * The legacy command-line driver (`internal/script.go`): pick a target by
 * SSDP, by the cache or by a direct probe, then hand it to playback.
 *
 * Playback, logging and the process exit are not performed: a run is the
 * sequence of `Event`s the driver would produce, in order, ending at the
 * first `Fatal` or `Exit`. The network, the cache file and the terminal
 * are the oracle values of a `World`.
 */
module Script {
  import opened Wrappers
  import opened Text
  import opened Models
  import opened LegacyModels
  import opened LegacyUtils
  import opened Ssdp
  import opened Soap
  import Discovery
  import opened LegacyDiscovery
  import opened Metadata

  /** What the driver does that can be observed from outside. */
  datatype Event =
    | Play(target: Target, metadata: string)   // `avtransport.Run`
    | Fatal(msg: string)                       // a fatal log line; the process stops
    | Exit(code: int)                          // `os.Exit`
    | Panic(msg: string)                       // a runtime panic; the process stops
    | SubnetScan(subnet: string)               // the package's `scanSubnet`

  predicate Terminal(e: Event) {
    e.Fatal? || e.Exit? || e.Panic?
  }

  /** What the Go runtime reports when a nil pointer is dereferenced. */
  const NilDereferenceMessage: string := "runtime error: invalid memory address or nil pointer dereference"

  /** Running `more` after `first`: nothing runs once the process has
      stopped. */
  function Then(first: seq<Event>, more: seq<Event>): (r: seq<Event>)
    ensures |first| > 0 && Terminal(first[|first| - 1]) ==> r == first
    ensures (|first| == 0 || !Terminal(first[|first| - 1])) ==> r == first + more
  {
    if |first| > 0 && Terminal(first[|first| - 1]) then first else first + more
  }

  /** The answers the outside world gives during one run: SSDP replies and
      the device description (`fetch`), the renderer's services that
      enrichment asks, the identity lookup, the user's answer at the cache
      prompt, the direct probe, and the transport the action validation
      after a probe goes through. */
  datatype World = World(
    notify: seq<SsdpDevice>,
    discovered: seq<SsdpDevice>,
    fetch: string -> Result<Discovery.Tv, string>,
    services: Discovery.Services,
    identify: string -> Result<Identity, string>,
    confirmed: bool,
    probe: Result<string, string>,
    send: HttpRequest -> HttpOutcome)

  /** A finished run: what happened, the cache afterwards, and whether the
      user was asked at the cache prompt. */
  datatype Outcome = Outcome(events: seq<Event>, store: FlatStore, prompted: bool)

  /** `runWithConfig`: play the configured media at the configured control
      URL, with the vendor's metadata. The explicit override by the cached
      URL changes nothing: `ControlURL` already prefers it. */
  function RunWithConfig(c: LegacyConfig): (e: Event)
    ensures e.Play?
    ensures e.target.controlUrl == LegacyControlUrl(c)
    ensures e.target.mediaUrl == LegacyMediaUrl(c)
    ensures e.metadata == MetadataForVendor(c.tvVendor, e.target)
  {
    var built := LegacyControlUrl(c);
    var controlUrl := if c.cachedControlUrl != "" then c.cachedControlUrl else built;
    var target := Target(controlUrl, LegacyMediaUrl(c));
    Play(target, MetadataForVendor(c.tvVendor, target))
  }

  /** `runManual`: the same playback as `runWithConfig`. */
  function RunManual(c: LegacyConfig): (e: Event)
    ensures e == RunWithConfig(c)
  {
    var target := Target(LegacyControlUrl(c), LegacyMediaUrl(c));
    Play(target, MetadataForVendor(c.tvVendor, target))
  }

  /** What `tryCache` decided: whether the prompt was shown, whether the
      cached device is used, and the configuration it leaves. */
  datatype CacheHit = CacheHit(ok: bool, asked: bool, cfg: LegacyConfig)

  /** `tryCache`: a known target IP with a cached entry is offered to the
      user; on "yes" the stored vendor and control URL replace host, port
      and path. */
  function TryCache(c: LegacyConfig, s: FlatStore, confirmed: bool): (r: CacheHit)
    ensures r.asked <==> c.tip != "" && c.tip in s
    ensures r.ok <==> r.asked && confirmed
    ensures !r.ok ==> r.cfg == c
    ensures r.ok ==> r.cfg.tip == "" && r.cfg.tport == "" && r.cfg.tpath == ""
    ensures r.ok ==> r.cfg.tvVendor == s[c.tip].vendor && r.cfg.cachedControlUrl == s[c.tip].controlUrl
    ensures r.cfg.(tip := c.tip, tport := c.tport, tpath := c.tpath, tvVendor := c.tvVendor,
                   cachedControlUrl := c.cachedControlUrl) == c
  {
    if c.tip == "" || c.tip !in s then CacheHit(false, false, c)
    else if !confirmed then CacheHit(false, true, c)
    else
      var dev := s[c.tip];
      CacheHit(true, true, c.(tvVendor := dev.vendor, tpath := "", tport := "", tip := "",
                             cachedControlUrl := dev.controlUrl))
  }

  /** After a cache hit playback goes to exactly the stored control URL,
      even an empty one (host and port are cleared, so nothing is built in
      its place), with the stored vendor's metadata and the same media. */
  lemma TryCachePlaysStored(c: LegacyConfig, s: FlatStore)
    requires TryCache(c, s, true).ok
    ensures var e := RunWithConfig(TryCache(c, s, true).cfg);
      && e.target == Target(s[c.tip].controlUrl, LegacyMediaUrl(c))
      && e.metadata == MetadataForVendor(s[c.tip].vendor, e.target)
  {
  }

  /** What `tryProbe` did: its return value, the events, and the cache. */
  datatype ProbeStep = ProbeStep(ok: bool, events: seq<Event>, store: FlatStore)

  const UnresolvedMessage: string := "Unable to resolve AVTransport endpoint"

  /** `tryProbe`: probe the target IP; a probe error is fatal; without
      playback the result is only reported; with playback, `-ProbeOnly`
      exits and otherwise the probed control URL is played. */
  function TryProbe(c: LegacyConfig, s: FlatStore, w: World, doPlayback: bool): (r: ProbeStep)
    ensures r.ok <==> c.tip != "" && w.probe.Success?
    ensures r.store == LegacyProbeAvTransport(c, s, w.probe, w.send, w.identify).store
    ensures !r.ok ==> r.events == [Fatal("Error: " + LegacyProbeAvTransport(c, s, w.probe, w.send, w.identify).err.value)]
    ensures r.ok && !doPlayback ==> r.events == []
    ensures r.ok && doPlayback && c.probeOnly ==> r.events == [Exit(0)]
    ensures r.ok && doPlayback && !c.probeOnly ==>
      r.events == [RunWithConfig(c.(cachedControlUrl := w.probe.value))]
  {
    var p := LegacyProbeAvTransport(c, s, w.probe, w.send, w.identify);
    if p.err.Some? then ProbeStep(p.ok, [Fatal("Error: " + p.err.value)], p.store)
    else if !doPlayback then ProbeStep(p.ok, [], p.store)
    else if c.probeOnly then ProbeStep(p.ok, [Exit(0)], p.store)
    else if p.ok then ProbeStep(true, [RunWithConfig(p.cfg)], p.store)
    else ProbeStep(false, [], p.store)
  }

  /** A successful probe plays the URL the probe found. */
  lemma TryProbePlaysProbedUrl(c: LegacyConfig, s: FlatStore, w: World)
    requires c.tip != "" && w.probe.Success? && w.probe.value != "" && !c.probeOnly
    ensures TryProbe(c, s, w, true).events[0].target.controlUrl == w.probe.value
  {
  }

  /** With playback, `tryProbe` produces one event: a playback exactly
      when it returns true and `-ProbeOnly` is off, otherwise a terminal
      event. */
  lemma TryProbeEvents(c: LegacyConfig, s: FlatStore, w: World)
    ensures var p := TryProbe(c, s, w, true);
      && |p.events| == 1
      && (p.ok <==> c.tip != "" && w.probe.Success?)
      && (p.ok && !c.probeOnly ==> p.events[0].Play?)
      && (!p.ok || c.probeOnly ==> Terminal(p.events[0]))
  {
  }

  /** The first two steps of `runAuto`: SSDP, then (only with `-UseCache`)
      the cache prompt. `play` is `None` when both failed and the probe
      runs on the unchanged configuration and cache; `Crashed` is a panic
      in the SSDP step, with the cache as saved before it. */
  datatype Resolved =
    | Resolved(play: Option<LegacyConfig>, store: FlatStore, prompted: bool)
    | Crashed(store: FlatStore)

  /** The cache step of `runAuto`, reached when SSDP found nothing. */
  function CacheStep(c: LegacyConfig, s: FlatStore, w: World): (r: Resolved)
    ensures r.Resolved? && r.store == s
    ensures r.prompted <==> c.useCache && c.tip != "" && c.tip in s
    ensures r.play.Some? <==> c.useCache && TryCache(c, s, w.confirmed).ok
  {
    if !c.useCache then Resolved(None, s, false)
    else
      var h := TryCache(c, s, w.confirmed);
      if h.ok then Resolved(Some(h.cfg), s, h.asked)
      else Resolved(None, s, h.asked)
  }

  /** SSDP and the cache with the nil-checked discovery. */
  function ResolveAuto(c: LegacyConfig, s: FlatStore, w: World): (r: Resolved)
    ensures r.Resolved?
    ensures r.play.None? ==> r.store == s
    ensures r.prompted ==> c.useCache
  {
    var d := LegacyTrySsdp(c, s, w.notify, w.discovered, w.fetch, w.services, w.identify);
    if d.ok then Resolved(Some(d.cfg), d.store, false)
    else CacheStep(c, s, w)
  }

  /** SSDP and the cache as written: the discovery step crashes exactly
      when the written `trySSDP` does, and otherwise the two agree. */
  function ResolveAutoAsWritten(c: LegacyConfig, s: FlatStore, w: World): (r: Resolved)
    ensures var d := LegacyTrySsdpAsWritten(c, s, w.notify, w.discovered, w.fetch, w.services, w.identify);
      && (r.Crashed? <==> d.NilDereference?)
      && (r.Crashed? ==> r.store == d.store)
    ensures !r.Crashed? ==> r == ResolveAuto(c, s, w)
  {
    var d := LegacyTrySsdpAsWritten(c, s, w.notify, w.discovered, w.fetch, w.services, w.identify);
    if d.NilDereference? then Crashed(d.store)
    else
      LegacyTrySsdpAgrees(c, s, w.notify, w.discovered, w.fetch, w.services, w.identify);
      if d.ok then Resolved(Some(d.cfg), d.store, false)
      else CacheStep(c, s, w)
  }

  /** `runAuto` as written: the SSDP step can crash, and the fatal "unable
      to resolve" fires when the fallback probe returns true, which is when
      it has just played. */
  function RunAutoAsWritten(c: LegacyConfig, s: FlatStore, w: World): (r: Outcome)
    ensures var a := ResolveAutoAsWritten(c, s, w);
      a.Crashed? ==> r == Outcome([Panic(NilDereferenceMessage)], a.store, false)
    ensures !ResolveAutoAsWritten(c, s, w).Crashed? ==>
      && 1 <= |r.events| <= 2 && r.events[0] == RunAuto(c, s, w).events[0]
      && r.store == RunAuto(c, s, w).store && r.prompted == RunAuto(c, s, w).prompted
    ensures |r.events| == 2 ==> r.events[1] == Fatal(UnresolvedMessage)
  {
    var a := ResolveAutoAsWritten(c, s, w);
    if a.Crashed? then Outcome([Panic(NilDereferenceMessage)], a.store, false)
    else if a.play.Some? then Outcome([RunWithConfig(a.play.value)], a.store, a.prompted)
    else
      var p := TryProbe(c, s, w, true);
      TryProbeEvents(c, s, w);
      Outcome(Then(p.events, if p.ok then [Fatal(UnresolvedMessage)] else []), p.store, a.prompted)
  }

  /** `runAuto` with the test the log message means: fatal only when the
      probe did not resolve an endpoint. */
  function RunAuto(c: LegacyConfig, s: FlatStore, w: World): (r: Outcome)
    ensures |r.events| == 1
  {
    var a := ResolveAuto(c, s, w);
    if a.play.Some? then Outcome([RunWithConfig(a.play.value)], a.store, a.prompted)
    else
      var p := TryProbe(c, s, w, true);
      Outcome(Then(p.events, if !p.ok then [Fatal(UnresolvedMessage)] else []), p.store, a.prompted)
  }

  /** The discrepancy: with no SSDP answer, no cache, and a probe that
      succeeds, the written `runAuto` plays and then stops with "unable to
      resolve". */
  lemma RunAutoFatalAfterPlay(c: LegacyConfig, s: FlatStore, w: World)
    requires |Discovery.Heard(w.notify, w.discovered)| == 0 && !c.useCache
    requires c.tip != "" && w.probe.Success? && !c.probeOnly
    ensures RunAutoAsWritten(c, s, w).events ==
      [RunWithConfig(c.(cachedControlUrl := w.probe.value)), Fatal(UnresolvedMessage)]
  {
  }

  /** Outside that case, and when the SSDP step does not crash, the written
      and the corrected `runAuto` agree. */
  lemma RunAutoAgrees(c: LegacyConfig, s: FlatStore, w: World)
    requires !LegacyTrySsdpAsWritten(c, s, w.notify, w.discovered, w.fetch, w.services, w.identify).NilDereference?
    requires ResolveAuto(c, s, w).play.Some? || c.tip == "" || w.probe.Failure? || c.probeOnly
    ensures RunAutoAsWritten(c, s, w) == RunAuto(c, s, w)
  {
  }

  /** The order of `runAuto`: SSDP first; the cache is offered only with
      `-UseCache` and only when SSDP found nothing; the probe last. Exactly
      one thing happens, and it is a playback exactly when one of the three
      resolved an endpoint (and `-ProbeOnly` did not stop the probe). */
  lemma RunAutoOrder(c: LegacyConfig, s: FlatStore, w: World, r: Outcome, d: LegacyRun)
    requires r == RunAuto(c, s, w)
    requires d == LegacyTrySsdp(c, s, w.notify, w.discovered, w.fetch, w.services, w.identify)
    ensures d.ok ==> r.events == [RunWithConfig(d.cfg)] && r.store == d.store && !r.prompted
    ensures !d.ok ==> (r.prompted <==> c.useCache && c.tip != "" && c.tip in s)
    ensures !d.ok && c.useCache && TryCache(c, s, w.confirmed).ok ==>
      r.events == [RunWithConfig(TryCache(c, s, w.confirmed).cfg)] && r.store == s
    ensures r.events[0].Play? <==>
      d.ok || (c.useCache && TryCache(c, s, w.confirmed).ok)
      || (c.tip != "" && w.probe.Success? && !c.probeOnly)
  {
  }

  /** `runScan`: SSDP discovery only, a subnet scan, or a probe of the one
      target IP without playback. The discovery is the written `trySSDP`,
      which can crash. */
  function RunScan(c: LegacyConfig, s: FlatStore, w: World): (r: Outcome)
    ensures forall i :: 0 <= i < |r.events| ==> !r.events[i].Play?
    ensures !r.prompted && |r.events| <= 1
    ensures var d := LegacyTrySsdpAsWritten(c, s, w.notify, w.discovered, w.fetch, w.services, w.identify);
      && (c.discover && d.NilDereference? ==> r == Outcome([Panic(NilDereferenceMessage)], d.store, false))
      && (!c.discover || !d.NilDereference? ==> r == RunScanCorrected(c, s, w))
  {
    if c.discover then
      var d := LegacyTrySsdpAsWritten(c, s, w.notify, w.discovered, w.fetch, w.services, w.identify);
      if d.NilDereference? then Outcome([Panic(NilDereferenceMessage)], d.store, false)
      else
        LegacyTrySsdpAgrees(c, s, w.notify, w.discovered, w.fetch, w.services, w.identify);
        Outcome([], d.store, false)
    else RunScanCorrected(c, s, w)
  }

  /** `runScan` over the nil-checked discovery. */
  function RunScanCorrected(c: LegacyConfig, s: FlatStore, w: World): (r: Outcome)
    ensures forall i :: 0 <= i < |r.events| ==> !r.events[i].Play? && !r.events[i].Panic?
    ensures !r.prompted && |r.events| <= 1
  {
    if c.discover then
      var d := LegacyTrySsdp(c, s, w.notify, w.discovered, w.fetch, w.services, w.identify);
      Outcome([], d.store, false)
    else if c.subnet != "" then Outcome([SubnetScan(c.subnet)], s, false)
    else
      var p := TryProbe(c, s, w, false);
      Outcome(p.events, p.store, false)
  }

  /** The scan's single-IP probe reports and never plays: it is silent on
      success and fatal on a probe error. */
  lemma RunScanProbe(c: LegacyConfig, s: FlatStore, w: World)
    requires !c.discover && c.subnet == ""
    ensures var r := RunScan(c, s, w);
      && (c.tip != "" && w.probe.Success? ==> r.events == [])
      && (c.tip == "" ==> r.events == [Fatal("Error: probe requires -Tip")])
  {
    assert "Error: " + "probe requires -Tip" == "Error: probe requires -Tip";
  }

  /** `RunScript`: an explicit cache selection plays straight away;
      otherwise the lower-cased mode picks the driver as written, and an
      unknown mode is fatal and named as the user spelt it. Every mode but
      scan ends with one event, or two when the fallback probe played and
      "unable to resolve" followed. */
  function RunScript(c: LegacyConfig, s: FlatStore, w: World): (r: Outcome)
    ensures c.selectCache != -1 ==> r == Outcome([RunWithConfig(c)], s, false)
    ensures c.selectCache == -1 && ToLower(c.mode) !in {"scan", "manual", "auto"} ==>
      r == Outcome([Fatal("Unknown mode: " + c.mode)], s, false)
    ensures ToLower(c.mode) != "scan" || c.selectCache != -1 ==> 1 <= |r.events| <= 2
    ensures |r.events| == 2 ==> r.events[1] == Fatal(UnresolvedMessage)
  {
    if c.selectCache != -1 then Outcome([RunWithConfig(c)], s, false)
    else
      match ToLower(c.mode)
      case "scan" => RunScan(c, s, w)
      case "manual" => Outcome([RunManual(c)], s, false)
      case "auto" => RunAutoAsWritten(c, s, w)
      case _ => Outcome([Fatal("Unknown mode: " + c.mode)], s, false)
  }

  /** `RunScript` over the corrected drivers: the nil-checked discovery and
      the `runAuto` whose fatal fires only when the probe failed. */
  function RunScriptCorrected(c: LegacyConfig, s: FlatStore, w: World): (r: Outcome)
    ensures c.selectCache != -1 ==> r == Outcome([RunWithConfig(c)], s, false)
    ensures c.selectCache == -1 && ToLower(c.mode) !in {"scan", "manual", "auto"} ==>
      r == Outcome([Fatal("Unknown mode: " + c.mode)], s, false)
    ensures ToLower(c.mode) != "scan" || c.selectCache != -1 ==> |r.events| == 1
  {
    if c.selectCache != -1 then Outcome([RunWithConfig(c)], s, false)
    else
      match ToLower(c.mode)
      case "scan" => RunScanCorrected(c, s, w)
      case "manual" => Outcome([RunManual(c)], s, false)
      case "auto" => RunAuto(c, s, w)
      case _ => Outcome([Fatal("Unknown mode: " + c.mode)], s, false)
  }

  /** Letter case in the mode does not matter: "AUTO", "Auto" and "auto"
      all run the automatic driver. */
  lemma RunScriptModeCase(c: LegacyConfig, s: FlatStore, w: World)
    requires c.selectCache == -1
    ensures ToLower(c.mode) == "auto" ==> RunScript(c, s, w) == RunAutoAsWritten(c, s, w)
    ensures ToLower(c.mode) == "manual" ==> RunScript(c, s, w) == Outcome([RunManual(c)], s, false)
    ensures ToLower(c.mode) == "scan" ==> RunScript(c, s, w) == RunScan(c, s, w)
  {
  }

  lemma RunScriptUpperCaseAuto(c: LegacyConfig, s: FlatStore, w: World)
    requires c.selectCache == -1 && c.mode == "AUTO"
    ensures RunScript(c, s, w) == RunAutoAsWritten(c, s, w)
  {
    assert ToLower(c.mode) == "auto";
    RunScriptModeCase(c, s, w);
  }

  /** Where neither discrepancy applies, the program as written and the
      corrected one do the same thing. */
  lemma RunScriptAgrees(c: LegacyConfig, s: FlatStore, w: World)
    requires !LegacyTrySsdpAsWritten(c, s, w.notify, w.discovered, w.fetch, w.services, w.identify).NilDereference?
    requires ResolveAuto(c, s, w).play.Some? || c.tip == "" || w.probe.Failure? || c.probeOnly
    ensures RunScript(c, s, w) == RunScriptCorrected(c, s, w)
  {
    if c.selectCache == -1 && ToLower(c.mode) == "auto" {
      RunAutoAgrees(c, s, w);
    }
  }

  /** The crash seen from the command line: in automatic mode, a renderer
      that answers SSDP and the identity lookup but whose service
      description cannot be read stops the run with a nil dereference, and
      only the identity write reaches the cache. */
  lemma RunScriptSsdpCrash(
    c: LegacyConfig, s: FlatStore, w: World, d: SsdpDevice, tv: Discovery.Tv)
    requires c.selectCache == -1 && ToLower(c.mode) == "auto"
    requires w.notify == [d] && w.fetch == (_ => Success(tv))
    requires w.services.describe(tv.avTransportScpd).Failure?
    requires w.identify(LegacyBaseUrl(LegacyOverride(c, tv))).Success?
    ensures var c' := LegacyOverride(c, tv);
      RunScript(c, s, w) == Outcome([Panic(NilDereferenceMessage)],
        WithIdentity(s, c'.tip, w.identify(LegacyBaseUrl(c')).value), false)
  {
    LegacyTrySsdpCrashes(c, s, d, tv, w.services, w.identify);
    assert Discovery.Heard(w.notify, w.discovered) == [d];
  }

  /** The mode is lower-cased but not trimmed: " auto" is unknown. */
  lemma RunScriptModeNotTrimmed(c: LegacyConfig, s: FlatStore, w: World)
    requires c.selectCache == -1 && c.mode == " auto"
    ensures RunScript(c, s, w).events == [Fatal("Unknown mode:  auto")]
  {
    assert ToLower(c.mode) == " auto";
    assert "Unknown mode: " + c.mode == "Unknown mode:  auto";
  }

  /** A scan never plays, whatever the configuration. */
  lemma RunScriptScanNeverPlays(c: LegacyConfig, s: FlatStore, w: World)
    requires c.selectCache == -1 && ToLower(c.mode) == "scan"
    ensures forall i :: 0 <= i < |RunScript(c, s, w).events| ==> !RunScript(c, s, w).events[i].Play?
  {
  }
}

=== FILE: soap.dfy ===
/**
 * SOAP 1.1 envelopes (section 4 of SOAP 1.1) and the presence test of an
 * AVTransport control URL. A UPnP action error comes back as HTTP 500
 * (section 3.2.2 of UPnP Device Architecture 1.1), so 500 still proves a
 * SOAP processor at the URL.
 *
 * The HTTP exchange is an oracle `send` from request to outcome.
 */
module Soap {
  import opened Wrappers
  import opened Text

  /** An HTTP POST as the engine builds it. */
  datatype HttpRequest = HttpRequest(url: string, body: string, contentType: string, soapAction: string)

  /** What came back: the request could not be built, the exchange failed
      (refused, timed out), or a status code arrived. */
  datatype HttpOutcome = RequestError | TransportError | Status(code: int)

  const ContentType: string := "text/xml; charset=utf-8"
  const AvTransportNs: string := "urn:schemas-upnp-org:service:AVTransport:1"
  const GetTransportInfoAction: string := "\"urn:schemas-upnp-org:service:AVTransport:1#GetTransportInfo\""

  const InstanceZero: string := "<InstanceID>0</InstanceID>"

  const ProbeHead: string :=
    "<?xml version=\"1.0\" encoding=\"utf-8\"?>\n"
    + "<s:Envelope xmlns:s=\"http://schemas.xmlsoap.org/soap/envelope/\"\n"
    + "            s:encodingStyle=\"http://schemas.xmlsoap.org/soap/encoding/\">\n"
    + "  <s:Body>\n"
    + "    "

  const ProbeTail: string := "\n    </u:GetTransportInfo>\n  </s:Body>\n</s:Envelope>"

  /** `probeSOAP`: the fixed GetTransportInfo envelope for instance 0. */
  const ProbeEnvelope: string :=
    ProbeHead + "<u:GetTransportInfo xmlns:u=\"" + AvTransportNs + "\">" + "\n      " + InstanceZero + ProbeTail

  /** The text `dynamicBody` puts before the caller's body. */
  const EnvelopeHead: string :=
    "<?xml version=\"1.0\" encoding=\"utf-8\"?>\n"
    + "\t<s:Envelope xmlns:s=\"http://schemas.xmlsoap.org/soap/envelope/\"\n"
    + "\t\t\t\ts:encodingStyle=\"http://schemas.xmlsoap.org/soap/encoding/\">\n"
    + "\t  <s:Body>"

  /** The text `dynamicBody` puts after the caller's body. */
  const EnvelopeTail: string := "</s:Body>\n\t</s:Envelope>"

  /** `dynamicBody`: wraps an action element in the SOAP envelope. */
  function DynamicBody(body: string): string {
    EnvelopeHead + body + EnvelopeTail
  }

  /** The wrapped body sits between the fixed head and tail. */
  lemma DynamicBodyLayout(body: string)
    ensures HasPrefix(DynamicBody(body), EnvelopeHead)
    ensures |DynamicBody(body)| == |EnvelopeHead| + |body| + |EnvelopeTail|
    ensures DynamicBody(body)[|EnvelopeHead|..|EnvelopeHead| + |body|] == body
    ensures DynamicBody(body)[|EnvelopeHead| + |body|..] == EnvelopeTail
  {
  }

  /** The inverse of `DynamicBody`: the action element of an envelope. */
  function UnwrapBody(envelope: string): (r: Option<string>)
  {
    if |envelope| >= |EnvelopeHead| + |EnvelopeTail|
       && envelope[..|EnvelopeHead|] == EnvelopeHead
       && envelope[|envelope| - |EnvelopeTail|..] == EnvelopeTail
    then Some(envelope[|EnvelopeHead|..|envelope| - |EnvelopeTail|])
    else None
  }

  /** Wrapping loses nothing: the body comes back out. */
  lemma UnwrapDynamicBody(body: string)
    ensures UnwrapBody(DynamicBody(body)) == Some(body)
  {
    DynamicBodyLayout(body);
  }

  /** Every envelope that unwraps is the wrapping of what it unwraps to. */
  lemma DynamicBodyOfUnwrap(envelope: string)
    requires UnwrapBody(envelope).Some?
    ensures DynamicBody(UnwrapBody(envelope).value) == envelope
  {
    var b := UnwrapBody(envelope).value;
    assert envelope == envelope[..|EnvelopeHead|] + b + envelope[|envelope| - |EnvelopeTail|..];
  }

  /** The body actually sent: an empty body sends the fixed probe; any
      other body is wrapped so that it comes back out unchanged. */
  function Envelope(body: string): (r: string)
    ensures body == "" ==> r == ProbeEnvelope
    ensures body != "" ==> UnwrapBody(r) == Some(body)
  {
    if body == "" then ProbeEnvelope
    else
      UnwrapDynamicBody(body);
      DynamicBody(body)
  }

  /** The request `soapProbe` sends. The SOAPAction header names
      GetTransportInfo whatever the body is. */
  function ProbeRequest(url: string, body: string): (r: HttpRequest)
    ensures r.url == url && r.contentType == ContentType
    ensures r.soapAction == GetTransportInfoAction
    ensures r.body == Envelope(body)
  {
    HttpRequest(url, Envelope(body), ContentType, GetTransportInfoAction)
  }

  /** "Endpoint present": a 200 or a 500 status. */
  predicate Present(o: HttpOutcome) {
    o.Status? && (o.code == 200 || o.code == 500)
  }

  /** `soapProbe` over the HTTP oracle `send`. */
  function SoapProbe(url: string, body: string, send: HttpRequest -> HttpOutcome): (r: bool)
    ensures r <==> send(ProbeRequest(url, body)) in {Status(200), Status(500)}
    ensures send(ProbeRequest(url, body)).RequestError? ==> !r
    ensures send(ProbeRequest(url, body)).TransportError? ==> !r
  {
    match send(ProbeRequest(url, body))
    case RequestError => false
    case TransportError => false
    case Status(code) => code == 200 || code == 500
  }

  /** A stub that always answers 500 is classified as present. */
  lemma Http500IsPresent(url: string, body: string)
    ensures SoapProbe(url, body, _ => Status(500))
  {
  }

  /** A stub that answers 404 is not. */
  lemma Http404IsAbsent(url: string, body: string)
    ensures !SoapProbe(url, body, _ => Status(404))
  {
  }
}

=== FILE: ssdp.dfy ===
/**
 * SSDP text handling (package `ssdp`): the response header parser, the
 * M-SEARCH datagram, the NOTIFY filter, and the active-discovery loop over
 * its search targets.
 *
 * Sockets and deadlines are left out: the packets read by `ListenNotify`
 * are a parameter, and `answer(st)` is what arrives after the searches for
 * target `st`, up to the read deadline.
 */
module Ssdp {
  import opened Text

  datatype SsdpDevice = SsdpDevice(location: string, server: string, usn: string)

  const NoDevice: SsdpDevice := SsdpDevice("", "", "")

  // ---------------------------------------------------------------------
  // parseSSDP
  // ---------------------------------------------------------------------

  /** The trimmed line starts with header `name` (given in upper case and
      with its colon), in any letter case. */
  predicate IsHeader(l: string, name: string) {
    HasPrefix(ToUpper(l), name)
  }

  /** The header's value: the trimmed text after `name`. */
  function HeaderValue(l: string, name: string): string
    requires IsHeader(l, name)
  {
    TrimSpace(l[|name|..])
  }

  /** One line of a response: LOCATION, SERVER or USN, checked in that
      order; any other line is ignored. */
  function ParseLine(d: SsdpDevice, raw: string): SsdpDevice {
    var l := TrimSpace(raw);
    if IsHeader(l, "LOCATION:") then d.(location := HeaderValue(l, "LOCATION:"))
    else if IsHeader(l, "SERVER:") then d.(server := HeaderValue(l, "SERVER:"))
    else if IsHeader(l, "USN:") then d.(usn := HeaderValue(l, "USN:"))
    else d
  }

  /** The lines folded in order into an initially empty device. Each
      field ends up as the value of the last line carrying its header:
      later duplicates overwrite earlier ones and absent headers give "". */
  function ParseLines(lines: seq<string>): (r: SsdpDevice)
    ensures r == SsdpDevice(LastValue(lines, "LOCATION:"), LastValue(lines, "SERVER:"), LastValue(lines, "USN:"))
    decreases |lines|
  {
    if |lines| == 0 then NoDevice
    else
      HeadersExclusive(TrimSpace(lines[|lines| - 1]));
      ParseLine(ParseLines(lines[..|lines| - 1]), lines[|lines| - 1])
  }

  /** `parseSSDP`: lines are separated by CRLF only, and per field the
      last line carrying the header wins. */
  function ParseSsdp(resp: string): (r: SsdpDevice)
    ensures var lines := Split(resp, "\r\n");
      r == SsdpDevice(LastValue(lines, "LOCATION:"), LastValue(lines, "SERVER:"), LastValue(lines, "USN:"))
  {
    ParseLines(Split(resp, "\r\n"))
  }

  /** Reference definition: the value of the last line carrying header
      `name`, or "" when no line does. */
  function LastValue(lines: seq<string>, name: string): string
    decreases |lines|
  {
    if |lines| == 0 then ""
    else
      var l := TrimSpace(lines[|lines| - 1]);
      if IsHeader(l, name) then HeaderValue(l, name) else LastValue(lines[..|lines| - 1], name)
  }

  /** No line starts with two of the three headers. */
  lemma HeadersExclusive(l: string)
    ensures IsHeader(l, "LOCATION:") ==> !IsHeader(l, "SERVER:") && !IsHeader(l, "USN:")
    ensures IsHeader(l, "SERVER:") ==> !IsHeader(l, "USN:")
  {
    if IsHeader(l, "LOCATION:") {
      assert ToUpper(l)[0] == 'L';
    }
    if IsHeader(l, "SERVER:") {
      assert ToUpper(l)[0] == 'S';
    }
  }

  // ---------------------------------------------------------------------
  // sendSearch
  // ---------------------------------------------------------------------

  const RequestLine: string := "M-SEARCH * HTTP/1.1"
  const HostLine: string := "HOST: 239.255.255.250:1900"
  const ManLine: string := "MAN: \"ssdp:discover\""
  const MxLine: string := "MX: 3"

  /** Four lines joined. */
  lemma JoinFour(d: string, e: string, f: string, g: string, sep: string)
    ensures Join([d, e, f, g], sep) == d + sep + e + sep + f + sep + g
  {
    assert Join([f, g], sep) == f + sep + g by {
      JoinCons(f, [g], sep);
    }
    assert Join([e, f, g], sep) == e + sep + Join([f, g], sep) by {
      JoinCons(e, [f, g], sep);
      assert [e] + [f, g] == [e, f, g];
    }
    assert Join([d, e, f, g], sep) == d + sep + Join([e, f, g], sep) by {
      JoinCons(d, [e, f, g], sep);
      assert [d] + [e, f, g] == [d, e, f, g];
    }
  }

  /** Seven lines joined. */
  lemma JoinSeven(a: string, b: string, c: string, d: string, e: string, f: string, g: string, sep: string)
    ensures Join([a, b, c, d, e, f, g], sep) == a + sep + b + sep + c + sep + d + sep + e + sep + f + sep + g
  {
    JoinFour(d, e, f, g, sep);
    assert Join([c, d, e, f, g], sep) == c + sep + Join([d, e, f, g], sep) by {
      JoinCons(c, [d, e, f, g], sep);
      assert [c] + [d, e, f, g] == [c, d, e, f, g];
    }
    assert Join([b, c, d, e, f, g], sep) == b + sep + Join([c, d, e, f, g], sep) by {
      JoinCons(b, [c, d, e, f, g], sep);
      assert [b] + [c, d, e, f, g] == [b, c, d, e, f, g];
    }
    assert Join([a, b, c, d, e, f, g], sep) == a + sep + Join([b, c, d, e, f, g], sep) by {
      JoinCons(a, [b, c, d, e, f, g], sep);
      assert [a] + [b, c, d, e, f, g] == [a, b, c, d, e, f, g];
    }
  }

  /** The M-SEARCH datagram for search target `st`: four fixed header
      lines, the target, and the blank line that ends the request. */
  function MSearch(st: string): (r: string)
    ensures r == RequestLine + "\r\n" + HostLine + "\r\n" + ManLine + "\r\n" + MxLine + "\r\n"
              + "ST: " + st + "\r\n" + "\r\n"
  {
    JoinSeven(RequestLine, HostLine, ManLine, MxLine, "ST: " + st, "", "", "\r\n");
    Join([RequestLine, HostLine, ManLine, MxLine, "ST: " + st, "", ""], "\r\n")
  }

  // ---------------------------------------------------------------------
  // ListenNotify
  // ---------------------------------------------------------------------

  /** A NOTIFY packet is kept when it announces "ssdp:alive" and names a
      location. */
  predicate AliveWithLocation(p: string) {
    Contains(p, "ssdp:alive") && ParseSsdp(p).location != ""
  }

  /** `ListenNotify` over the packets read before the deadline, in order. */
  function ListenNotify(packets: seq<string>): (r: seq<SsdpDevice>)
    ensures |r| <= |packets|
    ensures forall i :: 0 <= i < |r| ==> r[i].location != ""
    decreases |packets|
  {
    if |packets| == 0 then []
    else
      var p := packets[|packets| - 1];
      var last := if AliveWithLocation(p) then [ParseSsdp(p)] else [];
      AppendLocated(ListenNotify(packets[..|packets| - 1]), last);
      ListenNotify(packets[..|packets| - 1]) + last
  }

  /** Devices that all name a location still do after concatenation. */
  lemma AppendLocated(a: seq<SsdpDevice>, b: seq<SsdpDevice>)
    requires forall i :: 0 <= i < |a| ==> a[i].location != ""
    requires forall i :: 0 <= i < |b| ==> b[i].location != ""
    ensures forall i :: 0 <= i < |a + b| ==> (a + b)[i].location != ""
  {
  }

  /** Some packet announces `d` alive with a location. */
  predicate Announced(packets: seq<string>, d: SsdpDevice) {
    exists p :: p in packets && AliveWithLocation(p) && d == ParseSsdp(p)
  }

  /** The last packet is filtered after the ones before it. */
  lemma ListenNotifyLast(init: seq<string>, p: string)
    ensures ListenNotify(init + [p]) == ListenNotify(init) + (if AliveWithLocation(p) then [ParseSsdp(p)] else [])
  {
    assert (init + [p])[..|init|] == init;
  }

  /** One device is kept from `init + [p]` exactly when it is kept from
      `init` or is the parse of `p` announced alive with a location. */
  lemma KeepsStep(init: seq<string>, p: string, d: SsdpDevice)
    requires d in ListenNotify(init) <==> Announced(init, d)
    ensures d in ListenNotify(init + [p]) <==> Announced(init + [p], d)
  {
    ListenNotifyLast(init, p);
    var last := if AliveWithLocation(p) then [ParseSsdp(p)] else [];
    if d in ListenNotify(init) {
      var q :| q in init && AliveWithLocation(q) && d == ParseSsdp(q);
      assert q in init + [p];
    } else if d in last {
      assert p in init + [p];
    }
    if Announced(init + [p], d) {
      var q :| q in init + [p] && AliveWithLocation(q) && d == ParseSsdp(q);
      if q != p {
        InInit(init, p, q);
      }
    }
  }

  /** An element of `init + [p]` other than `p` is in `init`. */
  lemma InInit(init: seq<string>, p: string, q: string)
    requires q in init + [p] && q != p
    ensures q in init
  {
    var i :| 0 <= i < |init + [p]| && (init + [p])[i] == q;
    assert i < |init|;
  }

  /** The devices kept are exactly the parses of the alive packets with a
      location. */
  lemma {:induction false} ListenNotifyKeeps(packets: seq<string>)
    ensures forall d :: d in ListenNotify(packets) <==> Announced(packets, d)
    decreases |packets|
  {
    if |packets| > 0 {
      var init := packets[..|packets| - 1];
      var p := packets[|packets| - 1];
      ListenNotifyKeeps(init);
      assert packets == init + [p];
      forall d
        ensures d in ListenNotify(init + [p]) <==> Announced(init + [p], d)
      {
        KeepsStep(init, p, d);
      }
    }
  }

  // ---------------------------------------------------------------------
  // Discover
  // ---------------------------------------------------------------------

  /** The search targets, in the order they are tried. */
  const Searches: seq<string> := [
    "urn:schemas-upnp-org:device:MediaRenderer:1",
    "urn:schemas-upnp-org:device:MediaRenderer:2",
    "urn:schemas-upnp-org:service:AVTransport:1",
    "urn:schemas-upnp-org:service:RenderingControl:1",
    "urn:schemas-upnp-org:service:ConnectionManager:1",
    "urn:dial-multiscreen-org:service:dial:1",
    "urn:schemas-upnp-org:device:MediaServer:1",
    "ssdp:all"
  ]

  lemma SearchesOrder()
    ensures |Searches| == 8
    ensures Searches[0] == "urn:schemas-upnp-org:device:MediaRenderer:1"
    ensures Searches[|Searches| - 1] == "ssdp:all"
  {
  }

  /** The parsed responses, in arrival order. */
  function Parsed(resps: seq<string>): (r: seq<SsdpDevice>)
    ensures |r| == |resps|
    ensures forall i :: 0 <= i < |r| ==> r[i] == ParseSsdp(resps[i])
  {
    seq(|resps|, i requires 0 <= i < |resps| => ParseSsdp(resps[i]))
  }

  /** Parsed responses folded into the device map, keyed (and so
      de-duplicated) by location; devices without a location are dropped. */
  function Collect(m: map<string, SsdpDevice>, devs: seq<SsdpDevice>): map<string, SsdpDevice>
    decreases |devs|
  {
    if |devs| == 0 then m
    else
      var d := devs[|devs| - 1];
      var m' := Collect(m, devs[..|devs| - 1]);
      if d.location != "" then m'[d.location := d] else m'
  }

  /** The locations named by some device. */
  function Located(devs: seq<SsdpDevice>): set<string> {
    set d | d in devs && d.location != "" :: d.location
  }

  /** Collecting adds exactly the named locations, each device stored
      under its own location. */
  lemma {:induction false} CollectKeys(m: map<string, SsdpDevice>, devs: seq<SsdpDevice>)
    requires forall k :: k in m ==> m[k].location == k
    ensures var c := Collect(m, devs);
      && c.Keys == m.Keys + Located(devs)
      && forall k :: k in c ==> c[k].location == k
    decreases |devs|
  {
    if |devs| > 0 {
      var init := devs[..|devs| - 1];
      var d := devs[|devs| - 1];
      CollectKeys(m, init);
      assert devs == init + [d];
      if d.location != "" {
        assert Located(devs) == Located(init) + {d.location};
      } else {
        assert Located(devs) == Located(init);
      }
    }
  }

  /** A later device with the same location replaces an earlier one. */
  lemma {:induction false} CollectLastWins(m: map<string, SsdpDevice>, devs: seq<SsdpDevice>, i: nat)
    requires i < |devs| && devs[i].location != ""
    requires forall j :: i < j < |devs| ==> devs[j].location != devs[i].location
    ensures devs[i].location in Collect(m, devs) && Collect(m, devs)[devs[i].location] == devs[i]
    decreases |devs|
  {
    if i < |devs| - 1 {
      CollectLastWins(m, devs[..|devs| - 1], i);
    }
  }

  /** The datagrams sent for the targets `ts`: each one twice. */
  function Sends(ts: seq<string>): (r: seq<string>)
    ensures |r| == 2 * |ts|
    decreases |ts|
  {
    if |ts| == 0 then []
    else
      var st := ts[|ts| - 1];
      Sends(ts[..|ts| - 1]) + [MSearch(st), MSearch(st)]
  }

  /** Datagrams `2i` and `2i + 1` both search for target `i`. */
  lemma {:induction false} SendsTwice(ts: seq<string>, i: nat)
    requires i < |ts|
    ensures Sends(ts)[2 * i] == Sends(ts)[2 * i + 1] == MSearch(ts[i])
    decreases |ts|
  {
    if i < |ts| - 1 {
      SendsTwice(ts[..|ts| - 1], i);
    }
  }

  datatype DiscoverRun = DiscoverRun(devices: map<string, SsdpDevice>, tried: nat)

  /** Reference definition: targets from `t` on, stopping after the first
      target that leaves the map non-empty. */
  function DiscoverFrom(targets: seq<string>, found: string -> seq<SsdpDevice>, t: nat, m: map<string, SsdpDevice>): DiscoverRun
    requires t <= |targets|
    decreases |targets| - t
  {
    if t == |targets| then DiscoverRun(m, t)
    else
      var m' := Collect(m, found(targets[t]));
      if |m'| > 0 then DiscoverRun(m', t + 1) else DiscoverFrom(targets, found, t + 1, m')
  }

  /** The read loop for one target: each parsed response stored under its
      location. */
  method CollectEach(m: map<string, SsdpDevice>, devs: seq<SsdpDevice>) returns (r: map<string, SsdpDevice>)
    ensures r == Collect(m, devs)
  {
    r := m;
    var j := 0;
    while j < |devs|
      invariant 0 <= j <= |devs|
      invariant r == Collect(m, devs[..j])
    {
      var d := devs[j];
      assert devs[..j + 1][..j] == devs[..j];
      if d.location != "" {
        r := r[d.location := d];
      }
      j := j + 1;
    }
    assert devs[..|devs|] == devs;
  }

  /** The discovery loop over `targets`: two searches per target, then the
      responses; early exit once any device is known. */
  method DiscoverOver(targets: seq<string>, found: string -> seq<SsdpDevice>)
    returns (devices: map<string, SsdpDevice>, sent: seq<string>)
    ensures var run := DiscoverFrom(targets, found, 0, map[]);
      devices == run.devices && run.tried <= |targets| && sent == Sends(targets[..run.tried])
  {
    devices := map[];
    sent := [];
    var t := 0;
    while t < |targets|
      invariant 0 <= t <= |targets|
      invariant |devices| == 0
      invariant DiscoverFrom(targets, found, 0, map[]) == DiscoverFrom(targets, found, t, devices)
      invariant sent == Sends(targets[..t])
    {
      var st := targets[t];
      sent := sent + [MSearch(st)];
      sent := sent + [MSearch(st)];
      assert targets[..t + 1][..t] == targets[..t];
      assert sent == Sends(targets[..t + 1]);
      devices := CollectEach(devices, found(st));
      if |devices| > 0 {
        return;
      }
      t := t + 1;
    }
  }

  /** The responses to target `st`, parsed in arrival order. */
  function Answers(answer: string -> seq<string>): string -> seq<SsdpDevice> {
    st => Parsed(answer(st))
  }

  /** `Discover` over the fixed search targets. */
  method Discover(answer: string -> seq<string>) returns (devices: map<string, SsdpDevice>, sent: seq<string>)
    ensures var run := DiscoverFrom(Searches, Answers(answer), 0, map[]);
      devices == run.devices && run.tried <= |Searches| && sent == Sends(Searches[..run.tried])
  {
    devices, sent := DiscoverOver(Searches, Answers(answer));
  }

  /** Target `st` drew no response that names a location. */
  predicate Silent(found: string -> seq<SsdpDevice>, st: string) {
    Located(found(st)) == {}
  }

  /** Collecting into the empty map gives exactly the located devices. */
  lemma CollectFresh(devs: seq<SsdpDevice>)
    ensures Collect(map[], devs).Keys == Located(devs)
    ensures forall k :: k in Collect(map[], devs) ==> Collect(map[], devs)[k].location == k
    ensures |Collect(map[], devs)| == 0 <==> Located(devs) == {}
  {
    CollectKeys(map[], devs);
  }

  /** The loop stops after the first target that is not silent, and tries
      every target only when all are silent. */
  lemma {:induction false} DiscoverFromStops(targets: seq<string>, found: string -> seq<SsdpDevice>, t: nat)
    requires t <= |targets|
    ensures var run := DiscoverFrom(targets, found, t, map[]);
      && t <= run.tried <= |targets|
      && (t < |targets| ==> run.tried > t)
      && (forall u :: t <= u < run.tried - 1 ==> Silent(found, targets[u]))
      && (run.tried > t ==> run.devices == Collect(map[], found(targets[run.tried - 1])))
    decreases |targets| - t
  {
    if t < |targets| {
      var m' := Collect(map[], found(targets[t]));
      CollectFresh(found(targets[t]));
      if |m'| == 0 {
        assert m' == map[];
        var run := DiscoverFrom(targets, found, t + 1, map[]);
        assert DiscoverFrom(targets, found, t, map[]) == run;
        assert Silent(found, targets[t]);
        if t + 1 < |targets| {
          DiscoverFromStops(targets, found, t + 1);
          assert forall u :: t + 1 <= u < run.tried - 1 ==> Silent(found, targets[u]);
        }
      } else {
        assert DiscoverFrom(targets, found, t, map[]) == DiscoverRun(m', t + 1);
      }
    }
  }

  /** Nothing is found exactly when every remaining target is silent. */
  lemma {:induction false} DiscoverFromEmpty(targets: seq<string>, found: string -> seq<SsdpDevice>, t: nat)
    requires t <= |targets|
    ensures DiscoverFrom(targets, found, t, map[]).devices == map[] <==>
      forall u :: t <= u < |targets| ==> Silent(found, targets[u])
    decreases |targets| - t
  {
    if t < |targets| {
      var m' := Collect(map[], found(targets[t]));
      CollectFresh(found(targets[t]));
      if |m'| == 0 {
        assert m' == map[];
        assert DiscoverFrom(targets, found, t, map[]) == DiscoverFrom(targets, found, t + 1, map[]);
        DiscoverFromEmpty(targets, found, t + 1);
      } else {
        assert DiscoverFrom(targets, found, t, map[]) == DiscoverRun(m', t + 1);
        assert !Silent(found, targets[t]);
      }
    }
  }

  /** What the discovery loop finds: the targets before the last one tried
      drew no located response; the devices are exactly the locations
      answering the last target tried, each under its own location; and
      nothing is found only when every target was tried in vain. */
  lemma DiscoverFromMeaning(targets: seq<string>, found: string -> seq<SsdpDevice>)
    ensures var run := DiscoverFrom(targets, found, 0, map[]);
      && run.tried <= |targets|
      && (forall u :: 0 <= u < run.tried - 1 ==> Silent(found, targets[u]))
      && (run.tried > 0 ==> run.devices.Keys == Located(found(targets[run.tried - 1])))
      && (forall k :: k in run.devices ==> run.devices[k].location == k)
      && (run.devices == map[] <==> forall u :: 0 <= u < |targets| ==> Silent(found, targets[u]))
  {
    DiscoverFromStops(targets, found, 0);
    DiscoverFromEmpty(targets, found, 0);
    var run := DiscoverFrom(targets, found, 0, map[]);
    if run.tried > 0 {
      CollectFresh(found(targets[run.tried - 1]));
    }
  }

  lemma DiscoverMeaning(answer: string -> seq<string>)
    ensures var run := DiscoverFrom(Searches, Answers(answer), 0, map[]);
      && run.tried <= |Searches|
      && (forall u :: 0 <= u < run.tried - 1 ==> Located(Parsed(answer(Searches[u]))) == {})
      && (run.tried > 0 ==> run.devices.Keys == Located(Parsed(answer(Searches[run.tried - 1]))))
      && (run.devices == map[] <==> forall u :: 0 <= u < |Searches| ==> Located(Parsed(answer(Searches[u]))) == {})
  {
    DiscoverFromMeaning(Searches, Answers(answer));
  }
}

=== FILE: stream.dfy ===
/**
 * Stream mode of the current generation (package `stream`): how a local
 * file argument is classified, the container registry, MIME negotiation
 * against what the renderer announced, the stream URL, and the source
 * dispatch. File validation is an oracle.
 */
module Stream {
  import opened Wrappers
  import opened Text
  import opened Models
  import opened Utils
  import opened Metadata

  // ---------------------------------------------------------------------
  // Stream kinds
  // ---------------------------------------------------------------------

  datatype StreamKind = StreamFile | StreamExternal | StreamResolved

  /** The sites whose pages need a resolver before they can be streamed. */
  const ResolverHosts: seq<string> := ["youtube.com", "youtu.be", "vimeo.com", "twitch.tv"]

  /** `looksLikeResolvableURL`: after lower-casing and trimming, an "http"
      prefix and one of the resolver hosts anywhere in the text. */
  predicate LooksLikeResolvableUrl(u: string)
    ensures LooksLikeResolvableUrl(u) ==> HasPrefix(ToLower(TrimSpace(u)), "http")
    ensures LooksLikeResolvableUrl(u) ==>
      exists i :: 0 <= i < |ResolverHosts| && Contains(ToLower(TrimSpace(u)), ResolverHosts[i])
  {
    NamesResolverHost(ToLower(TrimSpace(u)))
  }

  /** A short YouTube link with any casing of the scheme is resolvable. */
  lemma ShortLinkResolves(u: string)
    requires HasPrefix(ToLower(TrimSpace(u)), "http") && Contains(ToLower(TrimSpace(u)), "youtu.be")
    ensures LooksLikeResolvableUrl(u)
  {
    assert ResolverHosts[1] == "youtu.be";
  }

  /** The test on the normalised text. */
  predicate NamesResolverHost(v: string) {
    HasPrefix(v, "http") && exists i :: 0 <= i < |ResolverHosts| && Contains(v, ResolverHosts[i])
  }

  predicate IsHttpUrl(s: string) {
    HasPrefix(s, "http://") || HasPrefix(s, "https://")
  }

  /** `ResolveStreamKind`: the resolver check comes first; then an exact,
      case-sensitive "http://" or "https://" prefix of the trimmed file
      argument makes an external URL; anything else is a local file. */
  function ResolveStreamKind(lfile: string): (k: StreamKind)
    ensures k == StreamResolved <==> LooksLikeResolvableUrl(lfile)
    ensures k == StreamExternal <==> !LooksLikeResolvableUrl(lfile) && IsHttpUrl(TrimSpace(lfile))
    ensures k == StreamFile <==> !LooksLikeResolvableUrl(lfile) && !IsHttpUrl(TrimSpace(lfile))
  {
    var lf := TrimSpace(lfile);
    if LooksLikeResolvableUrl(lf) then StreamResolved
    else if HasPrefix(lf, "http://") || HasPrefix(lf, "https://") then StreamExternal
    else StreamFile
  }

  /** A URL scheme, lower-cased, still starts with "http". */
  lemma HttpSchemeLowersToHttp(s: string)
    ensures IsHttpUrl(s) ==> HasPrefix(ToLower(s), "http")
  {
    if IsHttpUrl(s) {
      assert s[..4] == "http";
      assert ToLower(s)[..4] == s[..4];
    }
  }

  /** Every external or resolvable argument starts, once trimmed and
      lower-cased, with "http": a local file path that does not is always
      a file. */
  lemma NonHttpIsFile(lfile: string)
    requires !HasPrefix(ToLower(TrimSpace(lfile)), "http")
    ensures ResolveStreamKind(lfile) == StreamFile
  {
    HttpSchemeLowersToHttp(TrimSpace(lfile));
  }

  /** The scheme test is case-sensitive while the resolver test is not: an
      upper-case scheme makes a file unless a resolver host is named. */
  lemma UpperSchemeIsFile(lfile: string)
    requires HasPrefix(TrimSpace(lfile), "HTTP://") && !LooksLikeResolvableUrl(lfile)
    ensures ResolveStreamKind(lfile) == StreamFile
  {
    var lf := TrimSpace(lfile);
    assert lf[0] == 'H';
    assert !IsHttpUrl(lf);
  }

  lemma HttpsStartsWithHttp(s: string)
    requires HasPrefix(s, "https://")
    ensures HasPrefix(s, "http")
  {
    assert s[..4] == "http";
  }

  /** A resolvable link wins over the plain URL test. */
  lemma ResolverWins(lfile: string, i: nat)
    requires HasPrefix(TrimSpace(lfile), "https://") && IsLower(TrimSpace(lfile))
    requires i < |ResolverHosts| && Contains(TrimSpace(lfile), ResolverHosts[i])
    ensures ResolveStreamKind(lfile) == StreamResolved
  {
    var lf := TrimSpace(lfile);
    ToLowerOfLower(lf);
    HttpsStartsWithHttp(lf);
    assert NamesResolverHost(lf);
  }

  // ---------------------------------------------------------------------
  // URLs and playback target
  // ---------------------------------------------------------------------

  /** `BuildStreamURL`: the local server's address with the stream path,
      one leading "/" of the path dropped. */
  function BuildStreamUrl(cfg: Config, streamPath: string): (r: string)
    ensures HasPrefix(streamPath, "/") ==> r == "http://" + cfg.lip + ":" + cfg.servePort + streamPath
    ensures !HasPrefix(streamPath, "/") ==> r == "http://" + cfg.lip + ":" + cfg.servePort + "/" + streamPath
  {
    var p := TrimPrefix(streamPath, "/");
    "http://" + cfg.lip + ":" + cfg.servePort + "/" + p
  }

  /** Only one slash is dropped: "p" and "/p" give the same URL, "//p" a
      different one. */
  lemma BuildStreamUrlOneSlash(cfg: Config, p: string)
    ensures BuildStreamUrl(cfg, "/" + p) == BuildStreamUrl(cfg, p) <==> !HasPrefix(p, "/")
  {
    var b := "http://" + cfg.lip + ":" + cfg.servePort;
    assert HasPrefix("/" + p, "/");
    if HasPrefix(p, "/") {
      assert |BuildStreamUrl(cfg, "/" + p)| == |b| + 1 + |p|;
      assert |BuildStreamUrl(cfg, p)| == |b| + |p|;
    }
  }

  /** `playStreamResolved`: the renderer's URL (a cached one wins over the
      one built from host, port and path), the stream URL on the local
      server, and never any metadata. */
  function PlayStreamResolved(cfg: Config, streamPath: string): (r: (Target, string))
    ensures r.0.controlUrl == (if cfg.cachedControlUrl != "" then cfg.cachedControlUrl else ControlUrl(cfg))
    ensures r.0.mediaUrl == BuildStreamUrl(cfg, streamPath)
    ensures r.1 == ""
  {
    var controlUrl := if cfg.cachedControlUrl != "" then cfg.cachedControlUrl else ControlUrl(cfg);
    (Target(controlUrl, BuildStreamUrl(cfg, streamPath)), "")
  }

  /** Even an LG renderer gets no DIDL-Lite document for a stream, unlike
      file playback. */
  lemma StreamSkipsVendorMetadata(cfg: Config, streamPath: string)
    requires cfg.tvVendor == "lg"
    ensures PlayStreamResolved(cfg, streamPath).1 != MetadataForVendor(cfg.tvVendor, PlayStreamResolved(cfg, streamPath).0)
  {
    MetadataCaseSensitive(PlayStreamResolved(cfg, streamPath).0);
  }

  // ---------------------------------------------------------------------
  // Containers
  // ---------------------------------------------------------------------

  datatype Container = Ts | Mp4 | Passthrough

  /** `Key()`. */
  function Key(c: Container): string {
    match c
    case Ts => "ts"
    case Mp4 => "mp4"
    case Passthrough => "passthrough"
  }

  /** `MimeCandidates()`: the MIME types to offer, most preferred first. */
  function MimeCandidates(c: Container): (r: seq<string>)
    ensures |r| > 0
    ensures c == Ts ==> r[0] == "video/mpeg"
    ensures c != Ts ==> r[0] == "video/mp4"
  {
    match c
    case Ts => ["video/mpeg", "application/octet-stream", "video/mp2t"]
    case Mp4 => ["video/mp4", "application/octet-stream"]
    case Passthrough => ["video/mp4", "video/mpeg", "application/octet-stream"]
  }

  /** `containerRegistry`. */
  const Registry: map<string, Container> := map["ts" := Ts, "mp4" := Mp4, "passthrough" := Passthrough]

  /** The registry holds the three containers, each under its own key. */
  lemma RegistryByKey()
    ensures Registry.Keys == {"ts", "mp4", "passthrough"}
    ensures forall k :: k in Registry ==> Key(Registry[k]) == k
    ensures forall c: Container :: Key(c) in Registry && Registry[Key(c)] == c
  {
  }

  /** `GetContainer`: the key is trimmed and lower-cased before lookup; the
      error names the key as given. */
  function GetContainer(key: string): (r: Result<Container, string>)
    ensures r.Success? <==> ToLower(TrimSpace(key)) in {"ts", "mp4", "passthrough"}
    ensures r.Success? ==> Key(r.value) == ToLower(TrimSpace(key))
    ensures r.Failure? ==> r.error == "unknown container: " + key
  {
    RegistryByKey();
    var k := ToLower(TrimSpace(key));
    if k in Registry then Success(Registry[k]) else Failure("unknown container: " + key)
  }

  /** Looking a container up by its own key finds it. */
  lemma GetContainerByKey(c: Container)
    ensures GetContainer(Key(c)) == Success(c)
  {
    var k := Key(c);
    match c
    case Ts => NormalisedKey(k);
    case Mp4 => NormalisedKey(k);
    case Passthrough => NormalisedKey(k);
  }

  lemma NormalisedKey(k: string)
    requires Trimmed(k) && IsLower(k)
    ensures ToLower(TrimSpace(k)) == k
  {
    TrimSpaceOfTrimmed(k);
    ToLowerOfLower(k);
  }

  // ---------------------------------------------------------------------
  // MIME negotiation
  // ---------------------------------------------------------------------

  /** The first of `candidates` the renderer announced, in candidate order. */
  function FirstSupported(candidates: seq<string>, supported: Media): (r: Option<nat>)
    ensures r.Some? ==> r.value < |candidates| && candidates[r.value] in supported
    ensures r.Some? ==> forall j :: 0 <= j < r.value ==> candidates[j] !in supported
    ensures r.None? ==> forall j :: 0 <= j < |candidates| ==> candidates[j] !in supported
  {
    if |candidates| == 0 then None
    else if candidates[0] in supported then Some(0)
    else
      match FirstSupported(candidates[1..], supported)
      case None => None
      case Some(i) => Some(i + 1)
  }

  /** `selectMime`: with nothing announced, or nothing of the container's
      announced, a screen source falls back to the container's first
      candidate and anything else to "video/mpeg"; otherwise the first
      announced candidate. The profile lists are never looked at. */
  function SelectMime(c: Container, supported: Media, isScreen: bool): (r: string)
    ensures |supported| == 0 ==> r == (if isScreen then MimeCandidates(c)[0] else "video/mpeg")
    ensures r in MimeCandidates(c) || r == "video/mpeg"
    ensures (exists i :: 0 <= i < |MimeCandidates(c)| && MimeCandidates(c)[i] in supported) ==>
      && r in supported
      && exists i :: 0 <= i < |MimeCandidates(c)| && MimeCandidates(c)[i] == r &&
           forall j :: 0 <= j < i ==> MimeCandidates(c)[j] !in supported
    ensures (forall i :: 0 <= i < |MimeCandidates(c)| ==> MimeCandidates(c)[i] !in supported) ==>
      r == (if isScreen then MimeCandidates(c)[0] else "video/mpeg")
  {
    var candidates := MimeCandidates(c);
    if |supported| == 0 then
      if isScreen then candidates[0] else "video/mpeg"
    else
      match FirstSupported(candidates, supported)
      case Some(i) => candidates[i]
      case None => if isScreen then candidates[0] else "video/mpeg"
  }

  /** The choice depends on the announced MIME types only, not on their
      profiles. */
  lemma SelectMimeIgnoresProfiles(c: Container, a: Media, b: Media, isScreen: bool)
    requires a.Keys == b.Keys
    ensures SelectMime(c, a, isScreen) == SelectMime(c, b, isScreen)
  {
    FirstSupportedKeys(MimeCandidates(c), a, b);
  }

  lemma {:induction false} FirstSupportedKeys(candidates: seq<string>, a: Media, b: Media)
    requires a.Keys == b.Keys
    ensures FirstSupported(candidates, a) == FirstSupported(candidates, b)
    decreases |candidates|
  {
    if |candidates| > 0 {
      FirstSupportedKeys(candidates[1..], a, b);
    }
  }

  // ---------------------------------------------------------------------
  // Sources
  // ---------------------------------------------------------------------

  /** Where the stream's bytes come from. */
  datatype Source = UrlSource(url: string) | FileSource(path: string)

  /** `BuildStreamSource`: an external URL is streamed as given, untrimmed
      and unchecked; a local file must pass `validate` (`Some` carries the
      validation error); a link needing a resolver has no source yet. */
  function BuildStreamSource(cfg: Config, validate: string -> Option<string>): (r: Result<Source, string>)
    ensures ResolveStreamKind(cfg.lfile) == StreamExternal ==> r == Success(UrlSource(cfg.lfile))
    ensures ResolveStreamKind(cfg.lfile) == StreamFile ==>
      r == (if validate(cfg.lfile).Some? then Failure(validate(cfg.lfile).value) else Success(FileSource(cfg.lfile)))
    ensures ResolveStreamKind(cfg.lfile) == StreamResolved ==> r == Failure("unknown stream kind")
  {
    match ResolveStreamKind(cfg.lfile)
    case StreamExternal => Success(UrlSource(cfg.lfile))
    case StreamFile =>
      (match validate(cfg.lfile)
       case Some(e) => Failure(e)
       case None => Success(FileSource(cfg.lfile)))
    case StreamResolved => Failure("unknown stream kind")
  }

  /** A built source always names the file argument exactly as given, and
      the validator is consulted only for a local file. */
  lemma BuildStreamSourceKeepsArgument(cfg: Config, v1: string -> Option<string>, v2: string -> Option<string>)
    ensures BuildStreamSource(cfg, v1).Success? ==>
      BuildStreamSource(cfg, v1).value in {UrlSource(cfg.lfile), FileSource(cfg.lfile)}
    ensures ResolveStreamKind(cfg.lfile) != StreamFile ==> BuildStreamSource(cfg, v1) == BuildStreamSource(cfg, v2)
  {
  }
}

=== FILE: text.dfy ===
/**
 * The slice of Go's `strings` and `strconv` packages the engine relies on,
 * over `string` = `seq<char>` (one char per Unicode code point).
 */
module Text {
  import opened Wrappers

  /** A byte of a Go string or address. */
  type Byte = x: nat | x < 0x100

  // ---------------------------------------------------------------------
  // White space and trimming (strings.TrimSpace)
  // ---------------------------------------------------------------------

  /** Go's `unicode.IsSpace`: ASCII white space, NEL, NBSP and the Unicode
      space separators. */
  predicate IsSpace(c: char) {
    || c == ' ' || c == '\t' || c == '\n' || c == '\r' || c == '\U{0B}' || c == '\U{0C}'
    || c == '\U{85}' || c == '\U{A0}' || c == '\U{1680}'
    || ('\U{2000}' <= c <= '\U{200A}')
    || c == '\U{2028}' || c == '\U{2029}' || c == '\U{202F}' || c == '\U{205F}' || c == '\U{3000}'
  }

  /** Drops leading white space. */
  function TrimLeft(s: string): (r: string)
    ensures |r| <= |s| && r == s[|s| - |r|..]
    ensures |r| == 0 || !IsSpace(r[0])
    ensures forall i :: 0 <= i < |s| - |r| ==> IsSpace(s[i])
    decreases |s|
  {
    if |s| > 0 && IsSpace(s[0]) then TrimLeft(s[1..]) else s
  }

  /** Drops trailing white space. */
  function TrimRight(s: string): (r: string)
    ensures |r| <= |s| && r == s[..|r|]
    ensures |r| == 0 || !IsSpace(r[|r| - 1])
    ensures forall i :: |r| <= i < |s| ==> IsSpace(s[i])
    decreases |s|
  {
    if |s| > 0 && IsSpace(s[|s| - 1]) then TrimRight(s[..|s| - 1]) else s
  }

  /** Neither end of `s` is white space. */
  predicate Trimmed(s: string) {
    |s| == 0 || (!IsSpace(s[0]) && !IsSpace(s[|s| - 1]))
  }

  /** How many white-space characters `s` starts with. */
  function LeadingSpaces(s: string): nat {
    |s| - |TrimLeft(s)|
  }

  /** `strings.TrimSpace`: the longest infix of `s` with no white space at
      either end, obtained by removing only white space. */
  function TrimSpace(s: string): (r: string)
    ensures Trimmed(r)
    ensures LeadingSpaces(s) + |r| <= |s|
    ensures r == s[LeadingSpaces(s)..LeadingSpaces(s) + |r|]
    ensures forall i :: 0 <= i < LeadingSpaces(s) ==> IsSpace(s[i])
    ensures forall i :: LeadingSpaces(s) + |r| <= i < |s| ==> IsSpace(s[i])
  {
    var l := TrimLeft(s);
    var r := TrimRight(l);
    var k := LeadingSpaces(s);
    PrefixOfSuffix(s, k, l, r);
    ShiftedSpaces(s, k, l, |r|);
    assert |r| > 0 ==> r[0] == l[0];
    r
  }

  /** A prefix of a suffix is an infix. */
  lemma PrefixOfSuffix(s: string, k: nat, t: string, r: string)
    requires k <= |s| && t == s[k..] && |r| <= |t| && r == t[..|r|]
    ensures r == s[k..k + |r|]
  {
  }

  lemma ShiftedSpaces(s: string, k: nat, t: string, from: nat)
    requires k <= |s| && t == s[k..] && from <= |t|
    requires forall j :: from <= j < |t| ==> IsSpace(t[j])
    ensures forall i :: k + from <= i < |s| ==> IsSpace(s[i])
  {
    forall i | k + from <= i < |s|
      ensures IsSpace(s[i])
    {
      assert s[i] == t[i - k];
    }
  }

  /** A string without white space at its ends is its own trim. */
  lemma TrimSpaceOfTrimmed(s: string)
    requires Trimmed(s)
    ensures TrimSpace(s) == s
  {
  }

  lemma TrimSpaceIdempotent(s: string)
    ensures TrimSpace(TrimSpace(s)) == TrimSpace(s)
  {
    TrimSpaceOfTrimmed(TrimSpace(s));
  }

  // ---------------------------------------------------------------------
  // Case mapping (ASCII letters only)
  // ---------------------------------------------------------------------

  function LowerChar(c: char): char {
    if 'A' <= c <= 'Z' then (c as int + 32) as char else c
  }

  function UpperChar(c: char): char {
    if 'a' <= c <= 'z' then (c as int - 32) as char else c
  }

  /** `strings.ToLower`, restricted to ASCII letters. */
  function ToLower(s: string): (r: string)
    ensures |r| == |s|
  {
    seq(|s|, i requires 0 <= i < |s| => LowerChar(s[i]))
  }

  /** `strings.ToUpper`, restricted to ASCII letters. */
  function ToUpper(s: string): (r: string)
    ensures |r| == |s|
  {
    seq(|s|, i requires 0 <= i < |s| => UpperChar(s[i]))
  }

  /** A string with no upper-case ASCII letter. */
  predicate IsLower(s: string) {
    forall i :: 0 <= i < |s| ==> !('A' <= s[i] <= 'Z')
  }

  lemma ToLowerIsLower(s: string)
    ensures IsLower(ToLower(s))
  {
  }

  lemma ToLowerOfLower(s: string)
    requires IsLower(s)
    ensures ToLower(s) == s
  {
  }

  /** Lower-casing neither creates nor removes white space at the ends. */
  lemma ToLowerKeepsTrimmed(s: string)
    requires Trimmed(s)
    ensures Trimmed(ToLower(s))
  {
  }

  // ---------------------------------------------------------------------
  // Prefixes and substrings
  // ---------------------------------------------------------------------

  predicate HasPrefix(s: string, p: string) {
    |p| <= |s| && s[..|p|] == p
  }

  /** `strings.TrimPrefix`: removes one copy of `p` when `s` starts with it. */
  function TrimPrefix(s: string, p: string): (r: string)
    ensures HasPrefix(s, p) ==> s == p + r
    ensures !HasPrefix(s, p) ==> r == s
  {
    if HasPrefix(s, p) then s[|p|..] else s
  }

  /** `strings.Contains`. */
  predicate Contains(s: string, sub: string)
    decreases |s|
  {
    HasPrefix(s, sub) || (|s| > 0 && Contains(s[1..], sub))
  }

  lemma {:induction false} ContainsInfix(a: string, sub: string, b: string)
    ensures Contains(a + sub + b, sub)
    decreases |a|
  {
    if |a| == 0 {
      assert a + sub + b == sub + b;
      assert HasPrefix(sub + b, sub);
    } else {
      ContainsInfix(a[1..], sub, b);
      assert (a + sub + b)[1..] == a[1..] + sub + b;
    }
  }

  // ---------------------------------------------------------------------
  // strings.Split and strings.Join
  // ---------------------------------------------------------------------

  /** `strings.Split(s, sep)` for a non-empty separator: the pieces between
      the non-overlapping occurrences of `sep`, scanned left to right. */
  function Split(s: string, sep: string): (r: seq<string>)
    requires |sep| > 0
    ensures |r| >= 1
    decreases |s|
  {
    if |s| < |sep| then [s]
    else if s[..|sep|] == sep then [""] + Split(s[|sep|..], sep)
    else
      var rest := Split(s[1..], sep);
      [[s[0]] + rest[0]] + rest[1..]
  }

  /** `strings.Join`. */
  function Join(parts: seq<string>, sep: string): string
    decreases |parts|
  {
    if |parts| == 0 then ""
    else if |parts| == 1 then parts[0]
    else parts[0] + sep + Join(parts[1..], sep)
  }

  lemma JoinCons(p: string, ps: seq<string>, sep: string)
    requires |ps| > 0
    ensures Join([p] + ps, sep) == p + sep + Join(ps, sep)
  {
    assert ([p] + ps)[1..] == ps;
  }

  lemma JoinConsChar(c: char, p: string, ps: seq<string>, sep: string)
    ensures Join([[c] + p] + ps, sep) == [c] + Join([p] + ps, sep)
  {
    if |ps| > 0 {
      assert ([[c] + p] + ps)[1..] == ps;
      assert ([p] + ps)[1..] == ps;
    }
  }

  /** Splitting loses nothing: joining the pieces with the separator gives
      the input back. */
  lemma {:induction false} JoinSplit(s: string, sep: string)
    requires |sep| > 0
    ensures Join(Split(s, sep), sep) == s
    decreases |s|
  {
    if |s| < |sep| {
    } else if s[..|sep|] == sep {
      JoinSplit(s[|sep|..], sep);
      JoinSplitAtSep(s, sep);
    } else {
      JoinSplit(s[1..], sep);
      JoinSplitAtChar(s, sep);
    }
  }

  lemma JoinSplitAtSep(s: string, sep: string)
    requires |sep| > 0 && |s| >= |sep| && s[..|sep|] == sep
    requires Join(Split(s[|sep|..], sep), sep) == s[|sep|..]
    ensures Join(Split(s, sep), sep) == s
  {
    var t := s[|sep|..];
    var rest := Split(t, sep);
    assert Split(s, sep) == [""] + rest;
    JoinCons("", rest, sep);
    assert "" + sep == sep;
    assert s == s[..|sep|] + t;
  }

  lemma JoinSplitAtChar(s: string, sep: string)
    requires |sep| > 0 && |s| >= |sep| && s[..|sep|] != sep
    requires Join(Split(s[1..], sep), sep) == s[1..]
    ensures Join(Split(s, sep), sep) == s
  {
    var rest := Split(s[1..], sep);
    assert Split(s, sep) == [[s[0]] + rest[0]] + rest[1..];
    JoinConsChar(s[0], rest[0], rest[1..], sep);
    assert [rest[0]] + rest[1..] == rest;
    assert s == [s[0]] + s[1..];
  }

  lemma {:induction false} SplitPiece(p: string, c: char, rest: string)
    requires c !in p
    ensures Split(p + [c] + rest, [c]) == [p] + Split(rest, [c])
    ensures Split(p, [c]) == [p]
    decreases |p|
  {
    var s := p + [c] + rest;
    if |p| == 0 {
      assert s == [c] + rest;
      assert s[..1] == [c];
      assert s[1..] == rest;
    } else {
      assert s[0] == p[0];
      assert s[..1] != [c];
      assert s[1..] == p[1..] + [c] + rest;
      SplitPiece(p[1..], c, rest);
      assert [p[0]] + p[1..] == p;
      assert p[..1] != [c];
    }
  }

  /** For a one-character separator that no piece contains, splitting a
      join gives the pieces back. */
  lemma {:induction false} SplitJoin(parts: seq<string>, c: char)
    requires |parts| >= 1
    requires forall i :: 0 <= i < |parts| ==> c !in parts[i]
    ensures Split(Join(parts, [c]), [c]) == parts
    decreases |parts|
  {
    if |parts| == 1 {
      SplitPiece(parts[0], c, "");
    } else {
      SplitJoin(parts[1..], c);
      SplitPiece(parts[0], c, Join(parts[1..], [c]));
      assert [parts[0]] + parts[1..] == parts;
    }
  }

  // ---------------------------------------------------------------------
  // Decimal numbers (fmt "%d", strconv.Atoi)
  // ---------------------------------------------------------------------

  predicate IsDigit(c: char) {
    '0' <= c <= '9'
  }

  predicate AllDigits(s: string) {
    forall i :: 0 <= i < |s| ==> IsDigit(s[i])
  }

  function DigitChar(d: nat): (c: char)
    requires d < 10
    ensures IsDigit(c) && c as int - '0' as int == d
  {
    (d + '0' as int) as char
  }

  /** Value of a string of decimal digits (the empty string counts as 0). */
  function DigitsValue(s: string): nat
    requires AllDigits(s)
    decreases |s|
  {
    if |s| == 0 then 0
    else DigitsValue(s[..|s| - 1]) * 10 + (s[|s| - 1] as int - '0' as int)
  }

  /** The shortest decimal rendering of `n`: digits only, no leading zero
      except for "0" itself. */
  function NatToDec(n: nat): (r: string)
    ensures |r| >= 1 && AllDigits(r)
    ensures |r| > 1 ==> r[0] != '0'
    decreases n
  {
    if n < 10 then [DigitChar(n)] else NatToDec(n / 10) + [DigitChar(n % 10)]
  }

  lemma {:induction false} NatToDecRoundTrip(n: nat)
    ensures DigitsValue(NatToDec(n)) == n
    decreases n
  {
    if n >= 10 {
      NatToDecRoundTrip(n / 10);
      var r := NatToDec(n);
      assert r[..|r| - 1] == NatToDec(n / 10);
    }
  }

  /** `fmt.Sprintf("%d", v)`. */
  function IntToDec(v: int): (r: string)
    ensures |r| >= 1
  {
    if v < 0 then "-" + NatToDec(-v) else NatToDec(v)
  }

  const MinInt64: int := -0x8000_0000_0000_0000
  const MaxInt64: int := 0x7FFF_FFFF_FFFF_FFFF

  /** `strconv.Atoi` on a 64-bit platform: an optional sign followed by at
      least one decimal digit, whose value fits in an int64. */
  function Atoi(s: string): (r: Option<int>)
    ensures r.Some? ==> MinInt64 <= r.value <= MaxInt64
    ensures |s| == 0 ==> r.None?
  {
    if |s| == 0 then None
    else
      var neg := s[0] == '-';
      var digits := if s[0] == '-' || s[0] == '+' then s[1..] else s;
      if |digits| == 0 || !AllDigits(digits) then None
      else
        var mag: int := DigitsValue(digits);
        var v := if neg then -mag else mag;
        if MinInt64 <= v <= MaxInt64 then Some(v) else None
  }

  /** What `%d` prints for an int, `Atoi` reads back. */
  lemma AtoiIntToDec(v: int)
    requires MinInt64 <= v <= MaxInt64
    ensures Atoi(IntToDec(v)) == Some(v)
  {
    var s := IntToDec(v);
    if v < 0 {
      var d := NatToDec(-v);
      NatToDecRoundTrip(-v);
      assert s == "-" + d && s[0] == '-';
      assert s[1..] == d;
    } else {
      NatToDecRoundTrip(v);
      assert IsDigit(s[0]);
      assert s[0] != '-' && s[0] != '+';
    }
  }
}

=== FILE: ui_fields.dfy ===
/**
 * The form of the interactive front end (`internal/ui/fields_mode.go`):
 * which fields each mode shows, which configuration value each edits, and
 * when a field is greyed out.
 */
module UiFields {
  import opened Models

  /** The boolean, text and integer values a field can edit; the duration
      field always edits the SSDP timeout. */
  datatype BoolValue = DeepSearch | Discover | ProbeOnly | AutoCache | UseCache | ListCache | ShowMediaAll | ShowActions
  datatype StringValue = Subnet | Tip | TPort | TPath | TVVendor | LFile | Lip | LDir | ServePort | ForgetCache | ShowMedia
  datatype IntValue = SelectCache | CacheDetails

  /** Where a field points into the working configuration; the kind of the
      slot is the field's type. */
  datatype Slot = BoolSlot(b: BoolValue) | StringSlot(s: StringValue) | IntSlot(i: IntValue) | DurationSlot

  datatype Field = Field(caption: string, slot: Slot)

  function GetBool(w: Config, v: BoolValue): bool {
    match v
    case DeepSearch => w.deepSearch
    case Discover => w.discover
    case ProbeOnly => w.probeOnly
    case AutoCache => w.autoCache
    case UseCache => w.useCache
    case ListCache => w.listCache
    case ShowMediaAll => w.showMediaAll
    case ShowActions => w.showActions
  }

  function SetBool(w: Config, v: BoolValue, x: bool): (r: Config)
    ensures GetBool(r, v) == x
  {
    match v
    case DeepSearch => w.(deepSearch := x)
    case Discover => w.(discover := x)
    case ProbeOnly => w.(probeOnly := x)
    case AutoCache => w.(autoCache := x)
    case UseCache => w.(useCache := x)
    case ListCache => w.(listCache := x)
    case ShowMediaAll => w.(showMediaAll := x)
    case ShowActions => w.(showActions := x)
  }

  function GetString(w: Config, v: StringValue): string {
    match v
    case Subnet => w.subnet
    case Tip => w.tip
    case TPort => w.tport
    case TPath => w.tpath
    case TVVendor => w.tvVendor
    case LFile => w.lfile
    case Lip => w.lip
    case LDir => w.ldir
    case ServePort => w.servePort
    case ForgetCache => w.forgetCache
    case ShowMedia => w.showMedia
  }

  function SetString(w: Config, v: StringValue, x: string): (r: Config)
    ensures GetString(r, v) == x
  {
    match v
    case Subnet => w.(subnet := x)
    case Tip => w.(tip := x)
    case TPort => w.(tport := x)
    case TPath => w.(tpath := x)
    case TVVendor => w.(tvVendor := x)
    case LFile => w.(lfile := x)
    case Lip => w.(lip := x)
    case LDir => w.(ldir := x)
    case ServePort => w.(servePort := x)
    case ForgetCache => w.(forgetCache := x)
    case ShowMedia => w.(showMedia := x)
  }

  function GetInt(w: Config, v: IntValue): int {
    match v
    case SelectCache => w.selectCache
    case CacheDetails => w.cacheDetails
  }

  function SetInt(w: Config, v: IntValue, x: int): (r: Config)
    ensures GetInt(r, v) == x
  {
    match v
    case SelectCache => w.(selectCache := x)
    case CacheDetails => w.(cacheDetails := x)
  }

  // ---------------------------------------------------------------------
  // Fields per mode
  // ---------------------------------------------------------------------

  /** A form row: the label is the one that names the value on every
      form. */
  function Labelled(s: Slot): Field {
    Field(LabelOf(s), s)
  }

  const SubnetField := Labelled(StringSlot(Subnet))
  const DeepSearchField := Labelled(BoolSlot(DeepSearch))
  const DiscoverField := Labelled(BoolSlot(Discover))
  const TimeoutField := Labelled(DurationSlot)
  const TipField := Labelled(StringSlot(Tip))
  const TPortField := Labelled(StringSlot(TPort))
  const TPathField := Labelled(StringSlot(TPath))
  const VendorField := Labelled(StringSlot(TVVendor))
  const LFileField := Labelled(StringSlot(LFile))
  const LipField := Labelled(StringSlot(Lip))
  const LDirField := Labelled(StringSlot(LDir))
  const ServePortField := Labelled(StringSlot(ServePort))
  const ProbeOnlyField := Labelled(BoolSlot(ProbeOnly))
  const AutoCacheField := Labelled(BoolSlot(AutoCache))
  const UseCacheField := Labelled(BoolSlot(UseCache))
  const SelectCacheField := Labelled(IntSlot(SelectCache))
  const ListCacheField := Labelled(BoolSlot(ListCache))
  const ForgetCacheField := Labelled(StringSlot(ForgetCache))
  const DetailsCacheField := Labelled(IntSlot(CacheDetails))
  const ShowMediaField := Labelled(StringSlot(ShowMedia))
  const ShowMediaAllField := Labelled(BoolSlot(ShowMediaAll))
  const ShowActionsField := Labelled(BoolSlot(ShowActions))

  /** `buildFieldsForMode`: the form rows of a mode, in display order; an
      unknown mode has none (a nil slice). Every row carries the label of
      the value it edits. */
  function BuildFieldsForMode(mode: string): (r: seq<Field>)
    ensures mode !in KnownModes ==> r == []
    ensures forall i :: 0 <= i < |r| ==> r[i].caption == LabelOf(r[i].slot)
  {
    match mode
    case "scan" => [SubnetField, DeepSearchField, DiscoverField, TimeoutField, TipField, LipField,
                    AutoCacheField, UseCacheField]
    case "auto" => [TipField, TPortField, VendorField,
                    LFileField, LipField, LDirField, ServePortField,
                    DiscoverField, TimeoutField, ProbeOnlyField,
                    AutoCacheField, UseCacheField, SelectCacheField]
    case "stream" => [TipField, TPortField, VendorField,
                      LFileField, LipField, LDirField, ServePortField,
                      AutoCacheField, UseCacheField, SelectCacheField]
    case "manual" => [LFileField, LipField, LDirField, ServePortField,
                      TipField, TPortField, TPathField, VendorField,
                      AutoCacheField, UseCacheField, SelectCacheField]
    case "cache" => [ListCacheField, ForgetCacheField, DetailsCacheField,
                     ShowMediaField, ShowMediaAllField, ShowActionsField]
    case _ => []
  }

  /** The label that names each configuration value on every form. */
  function LabelOf(s: Slot): string {
    match s
    case BoolSlot(DeepSearch) => "Deep search"
    case BoolSlot(Discover) => "SSDP discovery"
    case BoolSlot(ProbeOnly) => "Probe only"
    case BoolSlot(AutoCache) => "Auto cache"
    case BoolSlot(UseCache) => "Use cache"
    case BoolSlot(ListCache) => "List cache"
    case BoolSlot(ShowMediaAll) => "Show media all"
    case BoolSlot(ShowActions) => "Show actions"
    case StringSlot(Subnet) => "Subnet"
    case StringSlot(Tip) => "TV IP"
    case StringSlot(TPort) => "TV Port"
    case StringSlot(TPath) => "TV Path"
    case StringSlot(TVVendor) => "TV Vendor"
    case StringSlot(LFile) => "Local file"
    case StringSlot(Lip) => "Local IP"
    case StringSlot(LDir) => "Local dir"
    case StringSlot(ServePort) => "Serve port"
    case StringSlot(ForgetCache) => "Forget cache"
    case StringSlot(ShowMedia) => "Show media"
    case IntSlot(SelectCache) => "Select cache index"
    case IntSlot(CacheDetails) => "Details cache"
    case DurationSlot => "SSDP timeout (seconds)"
  }

  const KnownModes: set<string> := {"scan", "auto", "stream", "manual", "cache"}

  /** The form sizes: scan 8, auto 13, stream 10, manual 11, cache 6, and
      none for an unknown mode. */
  lemma FieldCounts(mode: string)
    ensures mode == "scan" ==> |BuildFieldsForMode(mode)| == 8
    ensures mode == "auto" ==> |BuildFieldsForMode(mode)| == 13
    ensures mode == "stream" ==> |BuildFieldsForMode(mode)| == 10
    ensures mode == "manual" ==> |BuildFieldsForMode(mode)| == 11
    ensures mode == "cache" ==> |BuildFieldsForMode(mode)| == 6
    ensures mode !in KnownModes ==> BuildFieldsForMode(mode) == []
  {
  }

  /** `isFieldDisabled` on the working configuration `w`: the cache list
      and details exclude each other; the cache options need the cache;
      the display options need a details index; the TV fields are fixed by
      a cache selection; the timeout needs SSDP; the local file is unused
      by probe-only auto runs and the local IP by scans without SSDP.
      Every other field is always enabled. */
  predicate IsFieldDisabled(f: Field, w: Config)
    ensures f.caption in {"TV IP", "TV Port", "TV Path", "TV Vendor"} ==> (IsFieldDisabled(f, w) <==> w.selectCache >= 0)
    ensures f.caption in {"Show media", "Show media all", "Show actions"} ==> (IsFieldDisabled(f, w) <==> w.cacheDetails < 0)
  {
    match f.caption
    case "List cache" => w.cacheDetails >= 0
    case "Details cache" => w.listCache
    case "Auto cache" => !w.useCache
    case "Select cache index" => !w.useCache
    case "Show media" => w.cacheDetails < 0
    case "Show media all" => w.cacheDetails < 0
    case "Show actions" => w.cacheDetails < 0
    case "TV Port" => w.selectCache >= 0
    case "TV Path" => w.selectCache >= 0
    case "TV Vendor" => w.selectCache >= 0
    case "TV IP" => w.selectCache >= 0
    case "SSDP timeout (seconds)" => !w.discover
    case "Local file" => w.mode == "auto" && w.probeOnly
    case "Local IP" => w.mode == "scan" && !w.discover
    case _ => false
  }

  /** Greying out depends on the label alone, through the values below;
      fields that edit nothing the rules mention are never greyed out. */
  lemma AlwaysEnabled(w: Config)
    ensures !IsFieldDisabled(SubnetField, w) && !IsFieldDisabled(DeepSearchField, w)
    ensures !IsFieldDisabled(DiscoverField, w) && !IsFieldDisabled(ProbeOnlyField, w)
    ensures !IsFieldDisabled(UseCacheField, w) && !IsFieldDisabled(ForgetCacheField, w)
    ensures !IsFieldDisabled(LDirField, w) && !IsFieldDisabled(ServePortField, w)
  {
  }

  /** The two cache listings exclude each other: at most one of them is
      both set and editable, and both are editable exactly when neither
      is chosen. */
  lemma ListDetailsExclusive(w: Config)
    ensures !IsFieldDisabled(ListCacheField, w) && !IsFieldDisabled(DetailsCacheField, w)
      <==> !w.listCache && w.cacheDetails < 0
    ensures IsFieldDisabled(ListCacheField, w) && IsFieldDisabled(DetailsCacheField, w)
      <==> w.listCache && w.cacheDetails >= 0
  {
  }
}

=== FILE: ui_keys.dfy ===
/**
 * Key handling of the interactive front end (`internal/ui/keys.go`): the
 * mode menu and confirm screen cycling, when Execute is allowed, moving
 * between form rows, and what Enter does to a field and to an edit.
 *
 * A form has its fields followed by two virtual rows, Execute (at index
 * `|fields|`) and Back (at `|fields| + 1`).
 */
module UiKeys {
  import opened Wrappers
  import opened Text
  import opened Models
  import opened UiFields
  import Flags

  // ---------------------------------------------------------------------
  // Go integer arithmetic
  // ---------------------------------------------------------------------

  /** Go's `%` for a positive divisor: the sign follows the dividend. */
  function GoRem(a: int, b: int): (r: int)
    requires b > 0
    ensures a >= 0 ==> 0 <= r < b
    ensures a < 0 ==> -b < r <= 0
  {
    if a >= 0 then a % b else -((-a) % b)
  }

  /** Whole seconds of a duration in nanoseconds: Go's integer division,
      which rounds toward zero. */
  function WholeSeconds(d: int): (q: int)
    ensures d >= 0 ==> 0 <= q * 1_000_000_000 <= d < q * 1_000_000_000 + 1_000_000_000
    ensures d < 0 ==> q * 1_000_000_000 - 1_000_000_000 < d <= q * 1_000_000_000 <= 0
  {
    if d >= 0 then d / 1_000_000_000 else -((-d) / 1_000_000_000)
  }

  /** Two's-complement wrap-around of a 64-bit signed product. */
  function Wrap64(x: int): (r: int)
    ensures MinInt64 <= r <= MaxInt64
    ensures MinInt64 <= x <= MaxInt64 ==> r == x
  {
    (x - MinInt64) % 0x1_0000_0000_0000_0000 + MinInt64
  }

  // ---------------------------------------------------------------------
  // Mode menu and confirm screen
  // ---------------------------------------------------------------------

  /** The menu entries, top to bottom. */
  const Modes: seq<string> := ["Auto", "Stream", "Scan", "Manual", "Cache"]

  lemma ModOfSmall(x: int, n: int)
    requires n > 0 && 0 <= x < 2 * n
    ensures x % n == if x < n then x else x - n
  {
  }

  /** Up on the mode menu: from an entry of the menu, the previous entry,
      wrapping from the first to the last. */
  function ModeUp(selected: int, n: nat): (r: int)
    requires n > 0
    ensures 0 <= selected < n ==> r == if selected == 0 then n - 1 else selected - 1
  {
    var r := GoRem(selected - 1 + n, n);
    if 0 <= selected < n then
      ModOfSmall(selected - 1 + n, n);
      r
    else r
  }

  /** Down on the mode menu: from an entry of the menu, the next entry,
      wrapping from the last to the first. */
  function ModeDown(selected: int, n: nat): (r: int)
    requires n > 0
    ensures 0 <= selected < n ==> r == if selected == n - 1 then 0 else selected + 1
  {
    var r := GoRem(selected + 1, n);
    if 0 <= selected < n then
      ModOfSmall(selected + 1, n);
      r
    else r
  }

  /** The selection stays on the menu, and Up and Down undo each other. */
  lemma ModeCycle(selected: int, n: nat)
    requires n > 0 && 0 <= selected < n
    ensures 0 <= ModeUp(selected, n) < n && 0 <= ModeDown(selected, n) < n
    ensures ModeUp(ModeDown(selected, n), n) == selected
    ensures ModeDown(ModeUp(selected, n), n) == selected
  {
  }

  /** Enter on the menu: the lower-cased entry becomes the working mode,
      and every entry has a form. */
  lemma MenuModesHaveForms()
    ensures forall i :: 0 <= i < |Modes| ==> ToLower(Modes[i]) in KnownModes
    ensures forall i :: 0 <= i < |Modes| ==> |BuildFieldsForMode(ToLower(Modes[i]))| > 0
  {
    assert ToLower(Modes[0]) == "auto";
    assert ToLower(Modes[1]) == "stream";
    assert ToLower(Modes[2]) == "scan";
    assert ToLower(Modes[3]) == "manual";
    assert ToLower(Modes[4]) == "cache";
  }

  /** Up or Down on the confirm screen. */
  function ConfirmToggle(selected: int): int {
    GoRem(selected + 1, 2)
  }

  /** The confirm choice alternates between its two buttons. */
  lemma ConfirmToggles(selected: int)
    requires selected == 0 || selected == 1
    ensures ConfirmToggle(selected) == 1 - selected
    ensures ConfirmToggle(ConfirmToggle(selected)) == selected
  {
  }

  // ---------------------------------------------------------------------
  // Execute and row availability
  // ---------------------------------------------------------------------

  /** `isExecuteDisabled`: what each mode needs before it can run. A scan
      without SSDP that has a target falls out of the switch and is
      allowed, as is any mode without rules. */
  predicate IsExecuteDisabled(w: Config)
    ensures w.mode !in KnownModes ==> !IsExecuteDisabled(w)
    ensures w.mode in {"auto", "stream", "manual"} && w.lip == "" ==> IsExecuteDisabled(w)
    ensures w.mode in {"stream", "manual"} ==> (IsExecuteDisabled(w) <==> w.lip == "" || w.tip == "" || w.lfile == "")
    ensures w.mode == "auto" && w.lip != "" && (w.tip != "" || w.discover) && w.probeOnly ==> !IsExecuteDisabled(w)
  {
    match w.mode
    case "cache" => (w.listCache && w.cacheDetails >= 0) || (!w.listCache && w.cacheDetails < 0)
    case "scan" => if !w.discover then w.tip == "" && w.subnet == "" else w.lip == ""
    case "auto" =>
      if w.lip == "" || (w.tip == "" && !w.discover) then true
      else if w.probeOnly then false
      else w.lfile == ""
    case "stream" => w.lip == "" || w.tip == "" || w.lfile == ""
    case "manual" => w.lip == "" || w.tip == "" || w.lfile == ""
    case _ => false
  }

  /** The cache form runs with exactly one of its two listings chosen,
      which is when exactly one of the two listing fields is greyed out. */
  lemma CacheExecuteExclusive(w: Config)
    requires w.mode == "cache"
    ensures !IsExecuteDisabled(w) <==> (w.listCache != (w.cacheDetails >= 0))
    ensures !IsExecuteDisabled(w) <==>
      IsFieldDisabled(ListCacheField, w) != IsFieldDisabled(DetailsCacheField, w)
  {
  }

  /** A value whose field is greyed out is also ignored by Execute: the
      local file of a probe-only auto run, the local IP of a scan without
      SSDP. */
  lemma ExecuteIgnoresDisabledFields(w: Config, x: string)
    ensures IsFieldDisabled(LFileField, w) ==> IsExecuteDisabled(w) == IsExecuteDisabled(w.(lfile := x))
    ensures IsFieldDisabled(LipField, w) ==> IsExecuteDisabled(w) == IsExecuteDisabled(w.(lip := x))
  {
  }

  /** What the form lets run, the command-line check does not refuse for
      the same reason: a scan has a target or SSDP, and the two cache
      listings are not both chosen. */
  lemma ExecuteAgreesWithFlags(w: Config)
    requires !IsExecuteDisabled(w)
    ensures w.mode == "scan" ==> Flags.BadFlagUse(w).msg != Flags.ScanTargetMessage
    ensures w.mode == "cache" ==> Flags.BadFlagUse(w).msg != Flags.ListDetailsMessage
  {
  }

  /** `isRowDisabled`: a field row follows its field, Execute follows
      `isExecuteDisabled`, and Back (or any other index) is never
      disabled. */
  predicate IsRowDisabled(index: int, fields: seq<Field>, w: Config)
    ensures IsRowDisabled(index, fields, w) ==> 0 <= index <= |fields|
    ensures 0 <= index < |fields| ==> (IsRowDisabled(index, fields, w) <==> IsFieldDisabled(fields[index], w))
    ensures index == |fields| ==> (IsRowDisabled(index, fields, w) <==> IsExecuteDisabled(w))
  {
    if 0 <= index < |fields| then IsFieldDisabled(fields[index], w)
    else if index == |fields| then IsExecuteDisabled(w)
    else false
  }

  lemma BackNeverDisabled(fields: seq<Field>, w: Config)
    ensures !IsRowDisabled(|fields| + 1, fields, w)
  {
  }

  // ---------------------------------------------------------------------
  // Up and Down on the form
  // ---------------------------------------------------------------------

  /** Where Up may come to rest: the top, a virtual row, or an enabled
      field. */
  predicate StopsUp(k: int, fields: seq<Field>, w: Config) {
    k <= 0 || k >= |fields| || !IsRowDisabled(k, fields, w)
  }

  /** Where Down may come to rest: a virtual row, or an enabled field. */
  predicate StopsDown(k: int, fields: seq<Field>, w: Config) {
    k >= |fields| || !IsRowDisabled(k, fields, w)
  }

  /** Up: move to the nearest row above that may be rested on, skipping
      disabled fields; never below row 0. */
  method NavigateUp(selected: int, fields: seq<Field>, w: Config) returns (r: int)
    ensures selected <= 0 ==> r == selected
    ensures selected > 0 ==> 0 <= r < selected && StopsUp(r, fields, w)
    ensures forall k :: r < k < selected ==> !StopsUp(k, fields, w)
    ensures selected > |fields| ==> r == selected - 1
  {
    r := selected;
    while r > 0
      invariant r <= selected
      invariant selected > 0 ==> 0 <= r
      invariant r < selected ==> r < |fields| && IsRowDisabled(r, fields, w)
      invariant forall k :: r < k < selected ==> !StopsUp(k, fields, w)
      invariant selected > |fields| ==> r == selected
      decreases r
    {
      r := r - 1;
      if r >= |fields| || !IsRowDisabled(r, fields, w) {
        break;
      }
    }
  }

  /** Down: move to the nearest row below that may be rested on, skipping
      disabled fields; never beyond Back. */
  method NavigateDown(selected: int, fields: seq<Field>, w: Config) returns (r: int)
    ensures selected >= |fields| + 1 ==> r == selected
    ensures selected < |fields| + 1 ==> selected < r <= |fields| + 1 && StopsDown(r, fields, w)
    ensures forall k :: selected < k < r ==> !StopsDown(k, fields, w)
    ensures selected < |fields| ==> r <= |fields|
  {
    r := selected;
    while r < |fields| + 1
      invariant selected <= r
      invariant selected < |fields| + 1 ==> r <= |fields| + 1
      invariant selected < r ==> r < |fields| && IsRowDisabled(r, fields, w)
      invariant forall k :: selected < k < r ==> !StopsDown(k, fields, w)
      decreases |fields| + 1 - r
    {
      r := r + 1;
      if r >= |fields| || !IsRowDisabled(r, fields, w) {
        break;
      }
    }
  }

  // ---------------------------------------------------------------------
  // Enter on a field, and committing an edit
  // ---------------------------------------------------------------------

  /** The form's editing state: the working configuration, whether a
      field is being edited, and the edit buffer. */
  datatype Form = Form(w: Config, editing: bool, buffer: string)

  /** What a commit asks of the cache code the form calls into. */
  datatype Effect = NoEffect | ClearSelection | OpenPopup(index: int)

  predicate IsCacheIndexField(f: Field) {
    f.caption == "Select cache index" || f.caption == "Details cache"
  }

  /** Enter on an enabled field row: a boolean flips (turning "List cache"
      on also drops the details index and its display options); any other
      field opens for editing with its value in the buffer, an unset cache
      index showing as empty and a duration in whole seconds. */
  function OpenField(f: Field, st: Form): (r: Form)
    ensures f.slot.BoolSlot? ==> r.editing == st.editing && r.buffer == st.buffer
    ensures f.slot.BoolSlot? && f.caption != "List cache" ==> GetBool(r.w, f.slot.b) == !GetBool(st.w, f.slot.b)
    ensures f.slot == BoolSlot(ListCache) ==> r.w.listCache == !st.w.listCache
    ensures f.slot.BoolSlot? && f.caption == "List cache" && !GetBool(st.w, f.slot.b) ==>
      r.w.cacheDetails == -1 && r.w.showMedia == "" && !r.w.showMediaAll && !r.w.showActions
    ensures !f.slot.BoolSlot? ==> r.w == st.w && r.editing
  {
    match f.slot
    case BoolSlot(b) =>
      var on := !GetBool(st.w, b);
      var w1 := SetBool(st.w, b, on);
      var w2 := if f.caption == "List cache" && on
        then w1.(cacheDetails := -1, showMedia := "", showMediaAll := false, showActions := false)
        else w1;
      Form(w2, st.editing, st.buffer)
    case StringSlot(s) => Form(st.w, true, GetString(st.w, s))
    case IntSlot(i) =>
      var v := GetInt(st.w, i);
      Form(st.w, true, if IsCacheIndexField(f) && v < 0 then "" else IntToDec(v))
    case DurationSlot => Form(st.w, true, IntToDec(WholeSeconds(st.w.ssdpTimeout)))
  }

  /** Enter in normal mode on row `selected` once Execute and Back have
      been dealt with: an index outside the fields or a disabled field
      leaves everything as it is. */
  function EnterOnField(fields: seq<Field>, selected: int, st: Form): (r: Form)
    ensures (selected < 0 || selected >= |fields|) ==> r == st
    ensures 0 <= selected < |fields| && IsFieldDisabled(fields[selected], st.w) ==> r == st
    ensures 0 <= selected < |fields| && !IsFieldDisabled(fields[selected], st.w) && !fields[selected].slot.BoolSlot? ==>
      r.editing && r.w == st.w
  {
    if selected < 0 || selected >= |fields| then st
    else
      var f := fields[selected];
      if IsFieldDisabled(f, st.w) then st else OpenField(f, st)
  }

  /** In cache mode, turning "List cache" on always leaves a form that may
      run. */
  lemma ListCacheOnEnablesExecute(st: Form)
    requires st.w.mode == "cache" && !st.w.listCache
    ensures var r := OpenField(ListCacheField, st);
      r.w.listCache && !IsExecuteDisabled(r.w)
  {
  }

  /** Enter in edit mode: store the buffer into the field. An index out of
      range or a disabled field leaves everything as it is, still editing.
      Text is stored as typed. A cache index is trimmed first: empty resets
      it (the selection through the cache code, the details index to -1),
      a number is stored (selecting one opens the cache popup, choosing
      details turns the list off); a duration is read in seconds, untrimmed,
      and multiplied out in 64-bit arithmetic. Unreadable numbers change
      nothing. */
  function CommitEdit(fields: seq<Field>, selected: int, st: Form): (r: (Form, Effect))
    ensures (selected < 0 || selected >= |fields|) ==> r == (st, NoEffect)
    ensures 0 <= selected < |fields| && IsFieldDisabled(fields[selected], st.w) ==> r == (st, NoEffect)
    ensures 0 <= selected < |fields| && !IsFieldDisabled(fields[selected], st.w) ==> !r.0.editing
  {
    if selected < 0 || selected >= |fields| then (st, NoEffect)
    else
      var f := fields[selected];
      if IsFieldDisabled(f, st.w) then (st, NoEffect)
      else
        match f.slot
        case StringSlot(s) => (Form(SetString(st.w, s, st.buffer), false, st.buffer), NoEffect)
        case IntSlot(i) => CommitIndex(f.caption, i, st)
        case DurationSlot => (CommitTimeout(st), NoEffect)
        case BoolSlot(_) => (Form(st.w, false, st.buffer), NoEffect)
  }

  /** The integer fields: only the two cache indexes are stored. */
  function CommitIndex(caption: string, i: IntValue, st: Form): (r: (Form, Effect))
    ensures !r.0.editing
    ensures caption !in {"Select cache index", "Details cache"} ==> r == (Form(st.w, false, st.buffer), NoEffect)
    ensures caption == "Details cache" ==> r.1 == NoEffect
  {
    var t := TrimSpace(st.buffer);
    if caption == "Select cache index" then
      if t == "" then (Form(st.w, false, ""), ClearSelection)
      else
        (match Atoi(t)
         case Some(v) => (Form(SetInt(st.w, i, v), false, st.buffer), OpenPopup(v))
         case None => (Form(st.w, false, st.buffer), NoEffect))
    else if caption == "Details cache" then
      if t == "" then (Form(SetInt(st.w, i, -1), false, ""), NoEffect)
      else
        (match Atoi(t)
         case Some(v) => (Form(SetInt(st.w, i, v).(listCache := false), false, st.buffer), NoEffect)
         case None => (Form(st.w, false, st.buffer), NoEffect))
    else (Form(st.w, false, st.buffer), NoEffect)
  }

  /** The SSDP timeout: seconds read from the untrimmed buffer and
      multiplied out in 64-bit arithmetic. */
  function CommitTimeout(st: Form): (r: Form)
    ensures !r.editing && r.buffer == st.buffer
    ensures Atoi(st.buffer).None? ==> r.w == st.w
    ensures Atoi(st.buffer).Some? ==> r.w == st.w.(ssdpTimeout := Wrap64(Atoi(st.buffer).value * Second))
  {
    match Atoi(st.buffer)
    case Some(v) => Form(st.w.(ssdpTimeout := Wrap64(v * Second)), false, st.buffer)
    case None => Form(st.w, false, st.buffer)
  }

  /** Opening a text field and committing it at once changes nothing but
      the edit state. */
  lemma TextRoundTrip(s: StringValue, w: Config)
    requires !IsFieldDisabled(Labelled(StringSlot(s)), w)
    ensures var f := Labelled(StringSlot(s));
      CommitEdit([f], 0, OpenField(f, Form(w, false, ""))).0.w == w
  {
    var f := Labelled(StringSlot(s));
    var o := OpenField(f, Form(w, false, ""));
    assert o.buffer == GetString(w, s);
    match s
    case Subnet =>
    case Tip =>
    case TPort =>
    case TPath =>
    case TVVendor =>
    case LFile =>
    case Lip =>
    case LDir =>
    case ServePort =>
    case ForgetCache =>
    case ShowMedia =>
  }

  /** A decimal rendering has no surrounding space. */
  lemma IntToDecTrimmed(v: int)
    ensures TrimSpace(IntToDec(v)) == IntToDec(v)
  {
    var s := IntToDec(v);
    var d := if v < 0 then NatToDec(-v) else NatToDec(v);
    assert !IsSpace(s[0]) && !IsSpace(s[|s| - 1]) by {
      assert IsDigit(d[0]) && IsDigit(d[|d| - 1]);
      if v < 0 {
        assert s == "-" + d;
      }
    }
    TrimSpaceOfTrimmed(s);
  }

  /** Committing a buffer that reads as a number into "Details cache"
      stores the number and turns the list off. */
  lemma DetailsCommitParsed(w: Config, buffer: string, v: int)
    requires TrimSpace(buffer) != "" && Atoi(TrimSpace(buffer)) == Some(v)
    ensures CommitIndex("Details cache", CacheDetails, Form(w, true, buffer)).0.w
      == w.(cacheDetails := v, listCache := false)
  {
  }

  /** In particular the rendering of a number. */
  lemma DetailsNumberCommitted(w: Config, v: int)
    requires MinInt64 <= v <= MaxInt64
    ensures CommitIndex("Details cache", CacheDetails, Form(w, true, IntToDec(v))).0.w
      == w.(cacheDetails := v, listCache := false)
  {
    IntToDecTrimmed(v);
    AtoiIntToDec(v);
    DetailsCommitParsed(w, IntToDec(v), v);
  }

  /** Opening "Details cache" and committing at once reads a set index
      back unchanged. */
  lemma DetailsRoundTrip(w: Config)
    requires !w.listCache && 0 <= w.cacheDetails <= MaxInt64
    ensures CommitEdit([DetailsCacheField], 0, OpenField(DetailsCacheField, Form(w, false, ""))).0.w == w
  {
    var v := w.cacheDetails;
    var o := OpenField(DetailsCacheField, Form(w, false, ""));
    assert o == Form(w, true, IntToDec(v));
    DetailsNumberCommitted(w, v);
    assert CommitEdit([DetailsCacheField], 0, o) == CommitIndex("Details cache", CacheDetails, o);
  }

  /** ... and any unset (negative) index becomes -1. */
  lemma DetailsRoundTripUnset(w: Config)
    requires !w.listCache && w.cacheDetails < 0
    ensures CommitEdit([DetailsCacheField], 0, OpenField(DetailsCacheField, Form(w, false, ""))).0.w
      == w.(cacheDetails := -1)
  {
    var o := OpenField(DetailsCacheField, Form(w, false, ""));
    assert o == Form(w, true, "");
    assert CommitEdit([DetailsCacheField], 0, o) == CommitIndex("Details cache", CacheDetails, o);
  }

  /** Committing a buffer that reads as a number of seconds into the SSDP
      timeout stores the wrapped 64-bit product. */
  lemma TimeoutCommitParsed(w: Config, buffer: string, v: int)
    requires w.discover && Atoi(buffer) == Some(v)
    ensures CommitEdit([TimeoutField], 0, Form(w, true, buffer)).0.w == w.(ssdpTimeout := Wrap64(v * Second))
  {
    var st := Form(w, true, buffer);
    assert CommitEdit([TimeoutField], 0, st) == (CommitTimeout(st), NoEffect);
  }

  /** Opening the SSDP timeout and committing at once rounds it toward zero
      to whole seconds. */
  lemma DurationRoundTrip(w: Config)
    requires w.discover && MinInt64 <= w.ssdpTimeout <= MaxInt64
    ensures CommitEdit([TimeoutField], 0, OpenField(TimeoutField, Form(w, false, ""))).0.w
      == w.(ssdpTimeout := WholeSeconds(w.ssdpTimeout) * Second)
  {
    var q := WholeSeconds(w.ssdpTimeout);
    assert MinInt64 <= q * Second <= MaxInt64;
    AtoiIntToDec(q);
    assert OpenField(TimeoutField, Form(w, false, "")) == Form(w, true, IntToDec(q));
    TimeoutCommitParsed(w, IntToDec(q), q);
  }

  /** The timeout is multiplied out in 64 bits: a number of seconds whose
      nanoseconds do not fit wraps around; 9223372037 seconds, the least
      that does not fit, becomes a negative timeout. */
  lemma DurationWraps(w: Config, v: int)
    requires w.discover && v <= MaxInt64 && v * Second > MaxInt64
    ensures CommitEdit([TimeoutField], 0, Form(w, true, IntToDec(v))).0.w.ssdpTimeout != v * Second
    ensures v == 9223372037 ==> CommitEdit([TimeoutField], 0, Form(w, true, IntToDec(v))).0.w.ssdpTimeout < 0
  {
    AtoiIntToDec(v);
    TimeoutCommitParsed(w, IntToDec(v), v);
    if v == 9223372037 {
      LeastOverflowWraps(v * Second);
    }
  }

  lemma LeastOverflowWraps(x: int)
    requires x == 9_223_372_037_000_000_000
    ensures Wrap64(x) == 145_224_192 + MinInt64
  {
  }

  /** Committing a details index of 0 or more leaves a cache form that may
      run: the list is off and exactly the details listing is chosen. */
  lemma DetailsCommitEnablesExecute(w: Config, v: nat)
    requires w.mode == "cache" && !w.listCache && v <= MaxInt64
    ensures CommitEdit([DetailsCacheField], 0, Form(w, true, IntToDec(v))).0.w
      == w.(cacheDetails := v)
    ensures !IsExecuteDisabled(w.(cacheDetails := v))
  {
    DetailsNumberCommitted(w, v);
    var st := Form(w, true, IntToDec(v));
    assert CommitEdit([DetailsCacheField], 0, st) == CommitIndex("Details cache", CacheDetails, st);
    var w' := w.(cacheDetails := v);
    assert w'.mode == "cache" && !w'.listCache && w'.cacheDetails >= 0;
  }

  /** Backspace and typing on the edit buffer. */
  function Backspace(buffer: string): (r: string)
    ensures |buffer| > 0 ==> |r| == |buffer| - 1 && buffer == r + [buffer[|buffer| - 1]]
    ensures |buffer| == 0 ==> r == buffer
  {
    if |buffer| > 0 then buffer[..|buffer| - 1] else buffer
  }

  /** Typing appends the key to the buffer. */
  function Type(buffer: string, c: char): (r: string)
    ensures |r| == |buffer| + 1 && r[..|buffer|] == buffer && r[|buffer|] == c
  {
    buffer + [c]
  }

  /** Backspace undoes the last key typed. */
  lemma BackspaceUndoesType(buffer: string, c: char)
    ensures Backspace(Type(buffer, c)) == buffer
  {
  }
}

=== FILE: utils.dfy ===
/**
 * The URL builders and small input predicates of package `utils`, and the
 * older `Config` methods with the same names in package `internal`.
 */
module Utils {
  import opened Models
  import opened Text

  /** `NormalizeMode`: trimmed, then lower-cased. */
  function NormalizeMode(mode: string): (r: string)
    ensures Trimmed(r) && IsLower(r)
    ensures |r| <= |mode|
  {
    ToLowerKeepsTrimmed(TrimSpace(mode));
    ToLowerIsLower(TrimSpace(mode));
    ToLower(TrimSpace(mode))
  }

  /** Normalising a normalised mode changes nothing. */
  lemma NormalizeModeIdempotent(mode: string)
    ensures NormalizeMode(NormalizeMode(mode)) == NormalizeMode(mode)
  {
    var m := NormalizeMode(mode);
    TrimSpaceOfTrimmed(m);
    ToLowerOfLower(m);
  }

  /** A path with exactly one guaranteed leading "/": empty becomes "/". */
  function LeadingSlash(path: string): (r: string)
    ensures |r| > 0 && r[0] == '/'
    ensures |path| > 0 && path[0] == '/' ==> r == path
    ensures (|path| == 0 || path[0] != '/') ==> r == "/" + path
  {
    var p := if path == "" then "/" else path;
    if p[0] != '/' then "/" + p else p
  }

  lemma LeadingSlashIdempotent(path: string)
    ensures LeadingSlash(LeadingSlash(path)) == LeadingSlash(path)
  {
  }

  /** `BaseUrl`: scheme, host and port, with no emptiness check: host and
      port can be read back at fixed positions, even when empty. */
  function BaseUrl(cfg: Config): (r: string)
    ensures |r| == 8 + |cfg.tip| + |cfg.tport|
    ensures r[..7] == "http://" && r[7 + |cfg.tip|] == ':'
    ensures r[7..7 + |cfg.tip|] == cfg.tip && r[8 + |cfg.tip|..] == cfg.tport
  {
    "http://" + cfg.tip + ":" + cfg.tport
  }

  /** `ControlURL`: the renderer's control URL built from host, port and
      path; "" when the host or the port is missing. */
  function ControlUrl(cfg: Config): (r: string)
    ensures r == "" <==> cfg.tip == "" || cfg.tport == ""
    ensures r != "" ==> r == BaseUrl(cfg) + LeadingSlash(cfg.tpath)
  {
    if cfg.tip == "" || cfg.tport == "" then ""
    else "http://" + cfg.tip + ":" + cfg.tport + LeadingSlash(cfg.tpath)
  }

  /** The control URL is the base URL followed by an absolute path: the
      path starts right after the base, with "/". */
  lemma ControlUrlExtendsBase(cfg: Config)
    requires cfg.tip != "" && cfg.tport != ""
    ensures var r := ControlUrl(cfg);
      var b := BaseUrl(cfg);
      && |b| < |r| && r[..|b|] == b && r[|b|] == '/'
      && (cfg.tpath == "" ==> r == b + "/")
  {
  }

  // ---------------------------------------------------------------------
  // filepath.Base and MediaURL
  // ---------------------------------------------------------------------

  /** Drops trailing "/" characters. */
  function TrimTrailingSlashes(p: string): (r: string)
    ensures |r| <= |p| && r == p[..|r|]
    ensures |r| == 0 || r[|r| - 1] != '/'
    ensures forall i :: |r| <= i < |p| ==> p[i] == '/'
    decreases |p|
  {
    if |p| > 0 && p[|p| - 1] == '/' then TrimTrailingSlashes(p[..|p| - 1]) else p
  }

  /** The part of `p` after its last "/" (all of `p` when it has none). */
  function AfterLastSlash(p: string): (r: string)
    ensures |r| <= |p| && r == p[|p| - |r|..]
    ensures forall i :: 0 <= i < |r| ==> r[i] != '/'
    ensures |r| < |p| ==> p[|p| - |r| - 1] == '/'
    decreases |p|
  {
    if |p| == 0 then ""
    else if p[|p| - 1] == '/' then ""
    else AfterLastSlash(p[..|p| - 1]) + [p[|p| - 1]]
  }

  /** `filepath.Base` on a Unix path: the last element, ignoring trailing
      slashes; "." for the empty path and "/" for a path of slashes. */
  function BaseName(p: string): (r: string)
    ensures |r| > 0
    ensures p == "" ==> r == "."
    ensures p != "" && TrimTrailingSlashes(p) == "" ==> r == "/"
    ensures TrimTrailingSlashes(p) != "" ==> forall i :: 0 <= i < |r| ==> r[i] != '/'
  {
    if p == "" then "."
    else
      var t := TrimTrailingSlashes(p);
      if t == "" then "/" else AfterLastSlash(t)
  }

  /** The base name of `dir/name` is `name`, for any directory part and a
      non-empty name without slashes. */
  lemma BaseNameOfJoin(dir: string, name: string)
    requires |name| > 0 && forall i :: 0 <= i < |name| ==> name[i] != '/'
    ensures BaseName(dir + "/" + name) == name
  {
    var p := dir + "/" + name;
    assert TrimTrailingSlashes(p) == p;
    AfterLastSlashOfJoin(dir, name);
  }

  lemma {:induction false} AfterLastSlashOfJoin(dir: string, name: string)
    requires forall i :: 0 <= i < |name| ==> name[i] != '/'
    ensures AfterLastSlash(dir + "/" + name) == name
    decreases |name|
  {
    var p := dir + "/" + name;
    if |name| > 0 {
      var init := name[..|name| - 1];
      assert p[..|p| - 1] == dir + "/" + init;
      AfterLastSlashOfJoin(dir, init);
      assert name == init + [name[|name| - 1]];
    } else {
      assert p[|p| - 1] == '/';
    }
  }

  /** `MediaURL`: where the local server offers the file: under the local
      address and serve port, at the file's base name. */
  function MediaUrl(cfg: Config): (r: string)
    ensures HasPrefix(r, "http://" + cfg.lip + ":" + cfg.servePort + "/")
    ensures TrimTrailingSlashes(cfg.lfile) != "" ==> AfterLastSlash(r) == BaseName(cfg.lfile)
  {
    var root := "http://" + cfg.lip + ":" + cfg.servePort;
    var name := BaseName(cfg.lfile);
    assert (root + "/" + name)[..|root + "/"|] == root + "/";
    if TrimTrailingSlashes(cfg.lfile) != "" then
      AfterLastSlashOfJoin(root, name);
      root + "/" + name
    else root + "/" + name
  }

  /** The media URL names only the file, not the directory it is in. */
  lemma MediaUrlDropsDirectory(cfg: Config, dir: string, name: string)
    requires |name| > 0 && forall i :: 0 <= i < |name| ==> name[i] != '/'
    requires cfg.lfile == dir + "/" + name
    ensures MediaUrl(cfg) == "http://" + cfg.lip + ":" + cfg.servePort + "/" + name
  {
    BaseNameOfJoin(dir, name);
  }

  // ---------------------------------------------------------------------
  // Confirm
  // ---------------------------------------------------------------------

  /** The answer predicate of `Confirm`: the scanned word, lower-cased, is
      "y" or "yes". */
  predicate Confirm(ans: string) {
    var a := ToLower(ans);
    a == "y" || a == "yes"
  }

  /** Letter by letter: one `y`, or `y` `e` `s`, each in either case. */
  lemma ConfirmLetters(ans: string)
    ensures Confirm(ans) <==>
      || (|ans| == 1 && ans[0] in "yY")
      || (|ans| == 3 && ans[0] in "yY" && ans[1] in "eE" && ans[2] in "sS")
  {
    var a := ToLower(ans);
    if |ans| == 1 {
      assert a == "y" <==> a[0] == 'y';
    } else if |ans| == 3 {
      assert a == "yes" <==> a[0] == 'y' && a[1] == 'e' && a[2] == 's';
    }
  }
}

=== FILE: wrappers.dfy ===
/** Option and Result: Go's `(value, ok)` and `(value, error)` return pairs. */
module Wrappers {

  /** `None` stands for Go's nil map / nil pointer / "not ok". */
  datatype Option<+T> = None | Some(value: T) {

    /** The wrapped value, or `default` when there is none. */
    function GetOr(default: T): T {
      match this
      case Some(v) => v
      case None => default
    }
  }

  /** A Go `(value, error)` pair where exactly one side is meaningful. */
  datatype Result<+R, +E> = Success(value: R) | Failure(error: E) {

    predicate IsFailure() {
      Failure?
    }

    function PropagateFailure<U>(): Result<U, E>
      requires Failure?
    {
      Failure(error)
    }

    function Extract(): R
      requires Success?
    {
      value
    }
  }
}
